=== FILE: README.md ===
# LiveOak request/response core in Dafny

LiveOak is a backend-as-a-service container. It serves a tree of resources
over HTTP. This project models the path one request takes through it:

- The container links four processors into a **pipeline** (request →
  resource request → response body → HTTP response) and walks them in that
  order.
- The **HTTP request processor** turns the exchange into a resource
  request. It maps the verb to a request type, picks the media type from
  the Accept header or the path extension, and decodes the pagination,
  return-field and sort parameters.
- The **traversal steps** (read, create, update, delete) call into the
  resource. A **base responder** turns each callback into a resource
  response.
- The **dispatcher** reads a request body: inline, through a size-capped
  accumulator, or as a streamed binary upload.
- The **codec manager** decodes and encodes resource states by media
  type. The **state encoding driver** walks a state and emits encoder
  events.
- The **resource states** are plain, binary and lazily decoded. The
  default **synchronous** and **binary resource** behaviour sits alongside
  them.
- The **response body and HTTP response processors** choose the status
  code and headers.
- **Resource scripts** validate and report their properties.
- The **PostgreSQL metadata** layer covers table DDL, the catalog of
  tables and their ids, and the primary-key query builder.

The model is functional. Every Java object is an immutable datatype and
every method is a function or a method returning its new state and the
callbacks it would fire. Work the Java code hands to other threads or
executors shows up as the decision it makes (worker thread or I/O thread,
suspend reads or not), not as concurrency. Java `null` is `Option.None`.
Exceptions are the `Err` half of a `Result`. Java `int` arithmetic that
matters (`Integer.parseInt`, `(int)` truncation, the 32-bit and 64-bit
ranges) is written out in the `JavaInt` module.

Modules, one per file:

| Module | Models |
|---|---|
| `Wrappers` | `Option`/`Result` and the `isEmpty() ? null : get(0)` idiom |
| `JavaInt` | `Integer.parseInt`, `Integer.toString`, the int/long ranges, truncating division |
| `Json` | the Jackson `ObjectNode` operations the states use |
| `Pipeline` | `Pipeline`, its processors and how the handler links them |
| `Params` | `DefaultResourceParams` |
| `Request` | `HttpRequestProcessor` |
| `Responder` | `BaseResponder` |
| `Traversal` | the read/create/update/delete steps and `ResourceRequestProcessor` |
| `State` | `DefaultResourceState` and `DefaultBinaryResourceState` |
| `Encoding` | `StateEncodingDriver` |
| `Codecs` | `ResourceCodec` and `ResourceCodecManager` |
| `LazyState` | `DefaultLazyResourceState` |
| `Resources` | the default methods of `SynchronousResource` and `BinaryResource` |
| `Body` | `UndertowDispatcher` reading a request body |
| `ResponseProcessing` | `ResourceResponseBodyProcessor` and `HttpResponseProcessor` |
| `Scripting` | `ResourceScript` |
| `PgTable` | `Table`: column lookup, foreign keys and the DDL text |
| `PgCatalog` | `Catalog`: table ids, lookup by reference and by id |
| `PgQuery` | `QueryBuilder`: the select-by-primary-key statement and its bindings |

Some parts of the code do not fit together, and the model settles them
as follows:

- The expected DDL text in `HttpPgSqlTest` differs from what `Table.ddl`
  builds. The model follows `Table.ddl`.
- `ResourceScript` reads typed Java values from the state it is given,
  while `DefaultResourceState` returns Jackson nodes. The scripting model
  gives the script its own typed property map.
- `Catalog` constructs `Table` with an id, which this version of `Table`
  does not declare. The model gives `Table` an `id` field.

## Model

| member | source | states |
|---|---|---|
| Wrappers.FirstOrNull | modules/container/src/main/java/io/liveoak/container/traversal/DeleteStep.java:13-17 | null exactly for an empty list, otherwise the first element |
| JavaInt.ParseInt | modules/common/src/main/java/io/liveoak/common/DefaultResourceParams.java:59-65 | a text is accepted exactly when it is an optional '+' or '-' followed by at least one decimal digit and the signed value lies in the 32-bit range; the value is that signed number |
| JavaInt.ParseIntRoundTrip | modules/common/src/main/java/io/liveoak/common/DefaultResourceParams.java:59-65 | printing any 32-bit int and parsing it gives the same int back |
| JavaInt.ParseIntExamples | modules/container/src/main/java/io/liveoak/container/protocols/http/HttpRequestProcessor.java:157-166 | a leading '+' is accepted; a bare sign, the empty text and a trailing non-digit are rejected |
| JavaInt.TruncQuot | modules/common/src/main/java/io/liveoak/common/codec/driver/StateEncodingDriver.java:85-99 | the quotient rounds toward zero: it brackets the dividend from below for non-negative dividends and from above for negative ones |
| Json.Get | modules/common/src/main/java/io/liveoak/common/codec/DefaultResourceState.java:79-82 | a value is found exactly when a field has that name |
| Json.Put | modules/common/src/main/java/io/liveoak/common/codec/DefaultResourceState.java:89-109 | afterwards the name maps to the new value and every other name is unchanged; an existing field keeps its position and a new one is appended; names stay unique |
| Json.Remove | modules/common/src/main/java/io/liveoak/common/codec/DefaultResourceState.java:84-87 | returns the previous value, leaves the name absent and every other name unchanged; removing an absent name changes nothing |
| Json.PutThenRemove | modules/common/src/main/java/io/liveoak/common/codec/DefaultResourceState.java:84-109 | putting a new field and removing it restores the object and returns the value put |
| Json.AsText | modules/common/src/main/java/io/liveoak/common/codec/DefaultResourceState.java:41-44 | text is itself, an integral node prints as a number that parses back when it is in the int range, and containers give the empty text |
| Json.LongTextNotInt | modules/container/src/main/java/io/liveoak/container/protocols/http/HttpRequestProcessor.java:157-166 | a number outside the int range never parses as an int |
| Json.TruncatedInRange | modules/common/src/main/java/io/liveoak/common/codec/driver/StateEncodingDriver.java:85-99 | a node that converts to int (long) yields a value in the 32-bit (64-bit) range |
| Json.FieldOrderIrrelevant | modules/common/src/main/java/io/liveoak/common/codec/DefaultResourceState.java:147-158 | any two objects holding the same (name, value) pairs in any order are equal |
| Json.SwapTwoFields | modules/common/src/main/java/io/liveoak/common/codec/DefaultResourceState.java:147-158 | swapping two distinct fields gives an equal object |
| Json.FractionsCompareByValue | modules/common/src/main/java/io/liveoak/common/codec/DefaultResourceState.java:147-158 | float and double nodes are equal iff they are of the same kind and denote the same number, however the fraction is written; a decimal also keeps its scale, as `BigDecimal.equals` does |
| Json.HalfEqualsTwoQuarters | modules/common/src/main/java/io/liveoak/common/codec/DefaultResourceState.java:147-158 | objects holding the double 0.5 written as 1/2 and as 2/4 are equal; a float never equals a double |
| Pipeline.Next | modules/container/src/main/java/io/liveoak/container/traversal/Pipeline.java:78-85 | the successor of the tail becomes the given processor, which is returned, and all other links are kept |
| Pipeline.BuildChainInOrder | modules/container/src/main/java/io/liveoak/container/traversal/Pipeline.java:78-85 | linking a list of distinct processors with successive `next` calls makes a walk from the first visit them all in list order and then stop |
| Pipeline.HttpChainOrder | modules/container/src/main/java/io/liveoak/container/undertow/HttpResourceRequestHandler.java:38-48 | the handler's chain is walked as request, resource request, response body, HTTP response |
| Pipeline.Fresh | modules/container/src/main/java/io/liveoak/container/traversal/Pipeline.java:26-28 | a new pipeline is well formed and has invoked nothing yet |
| Pipeline.Proceed | modules/container/src/main/java/io/liveoak/container/traversal/Pipeline.java:34-44 | the first call invokes the head, each later call the successor of the current processor with the given value; a call after the tail or on a pipeline without a head invokes nothing and finishes the pipeline for good |
| Pipeline.ProceedEmpty | modules/container/src/main/java/io/liveoak/container/traversal/Pipeline.java:30-32 | `proceed()` is `proceed(null)` and so always passes null on |
| Pipeline.Run | modules/container/src/main/java/io/liveoak/container/traversal/Pipeline.java:30-44 | any sequence of proceeds keeps the pipeline well formed over the same chain |
| Pipeline.RunFrom | modules/container/src/main/java/io/liveoak/container/traversal/Pipeline.java:34-44 | a run from a given cursor invokes the following processors in chain order, one per input, with the inputs given |
| Pipeline.FinishedRunIsSilent | modules/container/src/main/java/io/liveoak/container/traversal/Pipeline.java:34-44 | once the tail has passed, further proceeds invoke nothing and change nothing |
| Pipeline.FreshRunTrace | modules/container/src/main/java/io/liveoak/container/traversal/Pipeline.java:26-44 | from a fresh pipeline, the k-th proceed invokes the k-th processor with the k-th input, and nothing after the tail |
| Pipeline.Associate | modules/container/src/main/java/io/liveoak/container/traversal/Pipeline.java:22-24 | the pipeline is stored under its attribute and all other attributes are untouched |
| Pipeline.Instance | modules/container/src/main/java/io/liveoak/container/traversal/Pipeline.java:15-17 | the pipeline is present iff the "Pipeline" attribute is set, and is that attribute's value; otherwise null |
| Pipeline.InstanceIsLastAssociated | modules/container/src/main/java/io/liveoak/container/traversal/Pipeline.java:15-24 | `instance` returns the pipeline most recently associated |
| Params.Instance | modules/common/src/main/java/io/liveoak/common/DefaultResourceParams.java:22-27 | a null map gives the shared empty instance; otherwise the given parameters |
| Params.Names | modules/common/src/main/java/io/liveoak/common/DefaultResourceParams.java:39-41 | exactly the parameter names given |
| Params.Value | modules/common/src/main/java/io/liveoak/common/DefaultResourceParams.java:47-53 | the first value, present exactly when the name is given with at least one value |
| Params.Contains | modules/common/src/main/java/io/liveoak/common/DefaultResourceParams.java:43-45 | true exactly when the name has at least one value |
| Params.Values | modules/common/src/main/java/io/liveoak/common/DefaultResourceParams.java:55-57 | all values of a given name; a null-pointer failure exactly for an absent name |
| Params.IntValue | modules/common/src/main/java/io/liveoak/common/DefaultResourceParams.java:59-65 | the default when there is no value; the parsed int when it parses; a format error carrying the text otherwise |
| Params.ContainsAgreesWithValues | modules/common/src/main/java/io/liveoak/common/DefaultResourceParams.java:43-57 | `contains` holds exactly when `values` is non-empty, and `value` is then its head |
| Params.IntValueRoundTrip | modules/common/src/main/java/io/liveoak/common/DefaultResourceParams.java:47-65 | an int given as the first value is read back whatever the default |
| Request.FirstHeader | modules/container/src/main/java/io/liveoak/container/protocols/http/HttpRequestProcessor.java:48-52 | the first value of a header, present exactly when the header has a value |
| Request.RequestTypeOf | modules/container/src/main/java/io/liveoak/container/protocols/http/HttpRequestProcessor.java:57-100 | POST, GET, PUT and DELETE map one-to-one to create, read, update and delete, compared without regard to the case of ASCII letters as `HttpString.equals` compares; any other verb fails and carries the verb as sent |
| Request.Upper | modules/container/src/main/java/io/liveoak/container/protocols/http/HttpRequestProcessor.java:57 | each ASCII lower-case letter becomes its upper-case letter, every other character is kept, and the length is kept |
| Request.MethodCaseIgnored | modules/container/src/main/java/io/liveoak/container/protocols/http/HttpRequestProcessor.java:57-100 | a verb is accepted exactly when its upper-case form is, with the same request type |
| Request.MethodCaseExamples | modules/container/src/main/java/io/liveoak/container/protocols/http/HttpRequestProcessor.java:57-100 | "get" is a read and "Delete" a delete; "patch" is refused with its own text |
| Request.Extension | modules/container/src/main/java/io/liveoak/container/protocols/http/HttpRequestProcessor.java:39-46 | present exactly when the last '.' is not the first character; it is the dot-free text after that dot |
| Request.ExtensionOfSuffix | modules/container/src/main/java/io/liveoak/container/protocols/http/HttpRequestProcessor.java:39-46 | a non-empty stem, a dot and a dot-free suffix give back that suffix |
| Request.EffectiveAccept | modules/container/src/main/java/io/liveoak/container/protocols/http/HttpRequestProcessor.java:48-52 | the first Accept value, or the default when there is none |
| Request.Limit | modules/container/src/main/java/io/liveoak/container/protocols/http/HttpRequestProcessor.java:148-155 | values below the range go to the lower bound and values above it to the upper bound; values in range are kept |
| Request.LimitIdempotent | modules/container/src/main/java/io/liveoak/container/protocols/http/HttpRequestProcessor.java:148-155 | clamping twice is clamping once |
| Request.IntValueOr | modules/container/src/main/java/io/liveoak/container/protocols/http/HttpRequestProcessor.java:157-166 | the parsed int, or the default for null or malformed text |
| Request.IntValueOrCatchesFormatErrors | modules/container/src/main/java/io/liveoak/container/protocols/http/HttpRequestProcessor.java:157-166 | agrees with the parameters' `intValue` wherever that succeeds, and gives the default where it throws |
| Request.DecodePagination | modules/container/src/main/java/io/liveoak/container/protocols/http/HttpRequestProcessor.java:124-138 | the offset lies in [0, MAX_INT] and the limit in [0, max]; missing values give offset 0 and the clamped default limit |
| Request.PaginationKeepsValidValues | modules/container/src/main/java/io/liveoak/container/protocols/http/HttpRequestProcessor.java:124-138 | in-range offset and limit texts are taken as given |
| Request.DecodeReturnFields | modules/container/src/main/java/io/liveoak/container/protocols/http/HttpRequestProcessor.java:106-122 | "*" unless `fields` is non-empty; `expand` is present exactly when non-empty |
| Request.DecodeSorting | modules/container/src/main/java/io/liveoak/container/protocols/http/HttpRequestProcessor.java:140-146 | default sorting exactly when `sort` is absent, otherwise that value |
| Request.Process | modules/container/src/main/java/io/liveoak/container/protocols/http/HttpRequestProcessor.java:37-103 | fails exactly for an unsupported verb; otherwise proceeds once with a request of the verb's type, the decoded parameters and a lazy state for the body; a read carries the decoded pagination, return fields and sorting |
| Responder.ResponseFor | modules/container/src/main/java/io/liveoak/container/traversal/BaseResponder.java:42-155 | every response answers the responder's request; read, create, update and delete give a success of that kind carrying the resource; every other callback gives the failure of its kind |
| Responder.MissingIdNotRecorded | modules/container/src/main/java/io/liveoak/container/traversal/BaseResponder.java:90-99 | the id passed to no-such-resource and already-exists leaves no trace in the response |
| Responder.CreateBaseResponder | modules/container/src/main/java/io/liveoak/container/traversal/BaseResponder.java:33-35 | the copy answers the same request |
| Responder.Callback1 | modules/container/src/main/java/io/liveoak/container/traversal/BaseResponder.java:42-63 | one callback appends exactly its response and keeps what was there |
| Responder.DeliverAppendsOnePerCall | modules/container/src/main/java/io/liveoak/container/traversal/BaseResponder.java:42-163 | n callbacks append n responses in call order after the earlier output |
| Responder.CopiesAnswerTheSameRequest | modules/container/src/main/java/io/liveoak/container/traversal/BaseResponder.java:27-35 | responses through a responder and through its copy answer the same request |
| Traversal.Execute | modules/container/src/main/java/io/liveoak/container/traversal/ReadStep.java:20-26 | read calls `readMember` with its name, create and update dispatch, and only delete also proceeds, with the first output or null |
| Traversal.ReadStepName | modules/container/src/main/java/io/liveoak/container/traversal/ReadStep.java:9-15 | the step reads the member named by its constructor argument |
| Traversal.Describe | modules/container/src/main/java/io/liveoak/container/traversal/ReadStep.java:28-30 | the description is the prefix, then the name, then ']' |
| Traversal.DescribeRoundTrip | modules/container/src/main/java/io/liveoak/container/traversal/ReadStep.java:28-30 | the name can be read back from the description |
| Traversal.UpdateRespond | modules/container/src/main/java/io/liveoak/container/traversal/UpdateStep.java:18-25 | a missing resource replaces the step with a create and dispatches it; every other callback passes through unchanged |
| Traversal.UpdateMissBecomesCreate | modules/container/src/main/java/io/liveoak/container/traversal/UpdateStep.java:13-25 | an update of a missing resource leaves a create step at the same position and dispatches a create |
| Traversal.CreateStepStateless | modules/container/src/main/java/io/liveoak/container/traversal/CreateStep.java:11-13 | a create step acts the same whatever output it is given |
| Traversal.ProcessResourceRequest | modules/container/src/main/java/io/liveoak/container/protocols/http/ResourceRequestProcessor.java:27-61 | a non-request passes null on; a request suspends exactly when no response was written, else proceeds with the first one |
| Traversal.DeleteVersusRequestProcessor | modules/container/src/main/java/io/liveoak/container/traversal/DeleteStep.java:13-17 | with output both proceed alike; with none the processor suspends while the delete step proceeds with null |
| State.Empty | modules/common/src/main/java/io/liveoak/common/codec/DefaultResourceState.java:27-29 | a new state is well formed and has no fields |
| State.NewBinary | modules/common/src/main/java/io/liveoak/common/codec/binary/DefaultBinaryResourceState.java:22-29 | an empty object that holds the given buffer |
| State.MimeType | modules/common/src/main/java/io/liveoak/common/codec/binary/DefaultBinaryResourceState.java:31-34 | always application/octet-stream |
| State.Id | modules/common/src/main/java/io/liveoak/common/codec/DefaultResourceState.java:41-44 | the text of the "id" field; a null-pointer failure exactly when it is missing |
| State.SetId | modules/common/src/main/java/io/liveoak/common/codec/DefaultResourceState.java:46-49 | "id" holds the text and nothing else changes |
| State.IdAfterSetId | modules/common/src/main/java/io/liveoak/common/codec/DefaultResourceState.java:41-49 | after `id(x)`, `id()` is `x` |
| State.Uri | modules/common/src/main/java/io/liveoak/common/codec/DefaultResourceState.java:51-62 | present exactly when "self" is an object with an "href" whose text parses as a URI, and then it is that text |
| State.SetUri | modules/common/src/main/java/io/liveoak/common/codec/DefaultResourceState.java:65-76 | only a "self" object is changed; every other field is kept |
| State.UriAfterSetUri | modules/common/src/main/java/io/liveoak/common/codec/DefaultResourceState.java:51-76 | with a "self" object, `uri()` returns what was set (null if it is not URI syntax); without "self" it stays null |
| State.RemoveProperty | modules/common/src/main/java/io/liveoak/common/codec/DefaultResourceState.java:84-87 | returns the previous value, leaves the name absent and other names unchanged |
| State.GetProperty | modules/common/src/main/java/io/liveoak/common/codec/DefaultResourceState.java:78-81 | a value exactly when the object has a field of that name, and in a valid state it is that field's value |
| State.GetBuffer | modules/common/src/main/java/io/liveoak/common/codec/binary/DefaultBinaryResourceState.java:31-34 | a binary state's buffer as it was built; a plain state has none |
| State.NodeOf | modules/common/src/main/java/io/liveoak/common/codec/DefaultResourceState.java:89-109 | null and unsupported values are ignored; states become object nodes and strings text nodes |
| State.PutProperty | modules/common/src/main/java/io/liveoak/common/codec/DefaultResourceState.java:89-109 | a supported value is read back under its name and other names are unchanged; an ignored value changes nothing |
| State.PutGetRemove | modules/common/src/main/java/io/liveoak/common/codec/DefaultResourceState.java:79-109 | a stored node reads back, and removing it returns it and leaves the name absent |
| State.AddMember | modules/common/src/main/java/io/liveoak/common/codec/DefaultResourceState.java:122-131 | fails with a class cast exactly when "_members" exists and is not an array; otherwise no other property changes |
| State.Members | modules/common/src/main/java/io/liveoak/common/codec/DefaultResourceState.java:133-141 | empty without a "_members" array; otherwise one state per element, failing if an element is not an object |
| State.StatesOf | modules/common/src/main/java/io/liveoak/common/codec/DefaultResourceState.java:133-141 | succeeds exactly when every element is an object, keeping count and order |
| State.AddMemberAppends | modules/common/src/main/java/io/liveoak/common/codec/DefaultResourceState.java:122-141 | members come back in the order added, after those already there |
| State.EqualsIgnoresInsertionOrder | modules/common/src/main/java/io/liveoak/common/codec/DefaultResourceState.java:147-158 | any two states of the same class that set the same properties to the same values, in any order, are equal |
| State.PlainNeverEqualsBinary | modules/common/src/main/java/io/liveoak/common/codec/DefaultResourceState.java:147-158 | a plain state never equals a binary one, whatever their fields |
| State.StateEquals | modules/common/src/main/java/io/liveoak/common/codec/DefaultResourceState.java:147-158 | states of different classes are never equal; equal states name the same properties |
| State.StateEqualsReflexive | modules/common/src/main/java/io/liveoak/common/codec/DefaultResourceState.java:148-150 | every valid state equals itself |
| Encoding.EncodeNode | modules/common/src/main/java/io/liveoak/common/codec/driver/StateEncodingDriver.java:85-99 | succeeds exactly for encodable nodes; ints are in the 32-bit range and longs in the 64-bit range; text and booleans are written as such |
| Encoding.IntBranchShadowsDouble | modules/common/src/main/java/io/liveoak/common/codec/driver/StateEncodingDriver.java:89-93 | a double that fits in an int is written truncated as an int, because the int branch comes first |
| Encoding.LongAndFloatBranches | modules/common/src/main/java/io/liveoak/common/codec/driver/StateEncodingDriver.java:89-99 | a long beyond int is written as a long; a float beyond long and a null node are not encodable |
| Encoding.EncodeFields | modules/common/src/main/java/io/liveoak/common/codec/driver/StateEncodingDriver.java:60-79 | succeeds exactly when every field walked is encodable |
| Encoding.FieldsVisitedInOrder | modules/common/src/main/java/io/liveoak/common/codec/driver/StateEncodingDriver.java:60-73 | the property events name the fields walked, in field order, each once |
| Encoding.PropertiesBlock | modules/common/src/main/java/io/liveoak/common/codec/driver/StateEncodingDriver.java:60-73 | no events when no field is walked; otherwise the fields between start and end markers |
| Encoding.AllFieldsVisited | modules/common/src/main/java/io/liveoak/common/codec/driver/StateEncodingDriver.java:60-73 | as written every field is walked |
| Encoding.Drive | modules/common/src/main/java/io/liveoak/common/codec/driver/StateEncodingDriver.java:43-58 | succeeds exactly when the property block and the members block both do, and then writes the resource start, the properties, the members and the resource end, in that order |
| Encoding.EncodeState | modules/common/src/main/java/io/liveoak/common/codec/driver/StateEncodingDriver.java:43-48 | as written, success implies every field, "_members" included, is encodable |
| Encoding.EncodeStateCorrected | modules/common/src/main/java/io/liveoak/common/codec/driver/StateEncodingDriver.java:43-58 | success implies every field other than "_members" is encodable |
| Encoding.MembersBreakEncoding | modules/common/src/main/java/io/liveoak/common/codec/driver/StateEncodingDriver.java:60-73 | as written, any state with a member fails to encode |
| Encoding.ScalarStateEncoding | modules/common/src/main/java/io/liveoak/common/codec/driver/StateEncodingDriver.java:43-73 | a state of encodable scalars encodes, naming its fields in order |
| Encoding.CorrectedEncodesMembers | modules/common/src/main/java/io/liveoak/common/codec/driver/StateEncodingDriver.java:50-58 | the corrected driver writes a state with one empty member as a resource holding one nested resource |
| Encoding.MembersBlock | modules/common/src/main/java/io/liveoak/common/codec/driver/StateEncodingDriver.java:50-58 | a malformed "_members" array fails the cast; no members give no events; otherwise the events open with the members start and close with the members end |
| Encoding.EncodeItems | modules/common/src/main/java/io/liveoak/common/codec/driver/StateEncodingDriver.java:53-55 | no events past the last member; otherwise the events open with the start of the next member's nested resource |
| Encoding.EncodeItemsInOrder | modules/common/src/main/java/io/liveoak/common/codec/driver/StateEncodingDriver.java:53-55 | the member loop succeeds exactly when every remaining member can be encoded, and then writes their encodings in member order |
| Encoding.MembersBlockInOrder | modules/common/src/main/java/io/liveoak/common/codec/driver/StateEncodingDriver.java:50-58 | the cast failure, nothing for no members, and otherwise each member of `members()` as a nested resource, in member order, between the members start and end, succeeding exactly when every member encodes |
| Encoding.CorrectedEncodesMembersInOrder | modules/common/src/main/java/io/liveoak/common/codec/driver/StateEncodingDriver.java:43-73 | the corrected driver writes any state with members as its properties other than "_members", then each member as a nested resource in member order; it succeeds exactly when those properties and every member can be encoded |
| Encoding.EncodeValue | modules/common/src/main/java/io/liveoak/common/codec/driver/StateEncodingDriver.java:81-118 | a state is written as a nested resource by the driver; dates, URI paths, maps and null are written directly; nodes succeed exactly when encodable; a list succeeds exactly when its element loop does and is bracketed by the list start and end; other objects fail |
| Encoding.EncodeList | modules/common/src/main/java/io/liveoak/common/codec/driver/StateEncodingDriver.java:120-129 | no events past the last element; success implies every remaining element can be encoded |
| Encoding.EncodeListInOrder | modules/common/src/main/java/io/liveoak/common/codec/driver/StateEncodingDriver.java:120-129 | the element loop succeeds exactly when every remaining element can be encoded, and then writes the elements' own encodings one after another in list order |
| Encoding.EncodeCollectionInOrder | modules/common/src/main/java/io/liveoak/common/codec/driver/StateEncodingDriver.java:111-129 | a collection is written as the list start, each element's encoding in list order, and the list end; it fails exactly when some element cannot be encoded |
| Encoding.NullListEncoding | modules/common/src/main/java/io/liveoak/common/codec/driver/StateEncodingDriver.java:120-129 | a list of nulls writes one null per element |
| Encoding.CodecEncode | modules/common/src/main/java/io/liveoak/common/codec/ResourceCodec.java:33-41 | encoding succeeds exactly when the walk does, and the bytes are the walk's events followed by the close |
| Codecs.DecodeWith | modules/common/src/main/java/io/liveoak/common/codec/ResourceCodec.java:43-45 | a codec without a decoder dereferences null; otherwise the decoder's answer for these bytes |
| Codecs.HasEncoder | modules/common/src/main/java/io/liveoak/common/codec/ResourceCodec.java:25-27 | holds exactly when the codec was built with an encoder class |
| Codecs.HasDecoder | modules/common/src/main/java/io/liveoak/common/codec/ResourceCodec.java:29-31 | holds exactly when the codec was built with a decoder |
| Codecs.EncodeWith | modules/common/src/main/java/io/liveoak/common/codec/ResourceCodec.java:33-41 | a codec without an encoder dereferences null; otherwise the encoder's output |
| Codecs.Register | modules/common/src/main/java/io/liveoak/common/codec/ResourceCodecManager.java:31-33 | appends one registration and keeps the rest |
| Codecs.MediaTypes | modules/common/src/main/java/io/liveoak/common/codec/ResourceCodecManager.java:86-88 | the registered types, in registration order |
| Codecs.GetResourceCodec | modules/common/src/main/java/io/liveoak/common/codec/ResourceCodecManager.java:90-97 | found exactly when the type is registered, and then it is the first registration's codec |
| Codecs.RegisterKeepsFirst | modules/common/src/main/java/io/liveoak/common/codec/ResourceCodecManager.java:90-97 | registering again never changes the codec of an already registered type |
| Codecs.RegisterAddsNew | modules/common/src/main/java/io/liveoak/common/codec/ResourceCodecManager.java:31-33 | a fresh type is found after registration and is listed last |
| Codecs.Decode | modules/common/src/main/java/io/liveoak/common/codec/ResourceCodecManager.java:35-48 | octet-stream gives a binary state of the bytes; other types are decoded by their registered codec, whose result or failure is the outcome, and a missing codec or decoder is unsupported |
| Codecs.NullBufferIsEmpty | modules/common/src/main/java/io/liveoak/common/codec/ResourceCodecManager.java:36-38 | a null body decodes like an empty one |
| Codecs.DecodeWithoutDecoder | modules/container/src/test/java/io/liveoak/container/codec/ResourceCodecManagerTest.java:25-33 | an HTML codec without a decoder cannot decode HTML |
| Codecs.ChosenCodec | modules/common/src/main/java/io/liveoak/common/codec/ResourceCodecManager.java:71-76 | the best type's codec when registered, JSON's otherwise |
| Codecs.Encode | modules/common/src/main/java/io/liveoak/common/codec/ResourceCodecManager.java:50-84 | a binary response passes through with its own type; with no acceptable type a non-error response is not acceptable; otherwise the chosen codec's encoder gives the bytes under the chosen type, its failure is the outcome, and a codec without an encoder is unsupported |
| Codecs.ErrorResponseFallsBackToJson | modules/common/src/main/java/io/liveoak/common/codec/ResourceCodecManager.java:71-76 | an error with no acceptable type is still encoded as JSON |
| Codecs.EncodeWithoutEncoder | modules/container/src/test/java/io/liveoak/container/codec/ResourceCodecManagerTest.java:35-47 | a JSON codec without an encoder cannot encode a read response |
| Codecs.DetermineMediaType | modules/common/src/main/java/io/liveoak/common/codec/ResourceCodecManager.java:100-112 | JSON when neither Accept nor extension is given; otherwise the matcher's best registered type |
| Codecs.DefaultMediaTypeIsJson | modules/common/src/main/java/io/liveoak/common/codec/ResourceCodecManager.java:100-112 | with neither, the answer is JSON whatever is registered |
| LazyState.NewLazy | modules/common/src/main/java/io/liveoak/common/codec/DefaultLazyResourceState.java:34-43 | nothing buffered, nothing decoded, length 0, the given type |
| LazyState.BufferText | modules/common/src/main/java/io/liveoak/common/codec/DefaultLazyResourceState.java:45-82 | "null" without a buffer, otherwise one character per byte |
| LazyState.Delegate | modules/common/src/main/java/io/liveoak/common/codec/DefaultLazyResourceState.java:45-82 | an existing delegate is returned as is; otherwise the buffer is decoded and kept, and a failure reports the body |
| LazyState.DecodeAtMostOnce | modules/common/src/main/java/io/liveoak/common/codec/DefaultLazyResourceState.java:45-82 | a second access returns the same delegate whatever the decoders now answer |
| LazyState.SetContent | modules/common/src/main/java/io/liveoak/common/codec/DefaultLazyResourceState.java:233-235 | replaces the buffer and nothing else |
| LazyState.ContentAfterDecode | modules/common/src/main/java/io/liveoak/common/codec/DefaultLazyResourceState.java:45-82 | new content after the first decode is not seen by the state accessors; before it, it is what gets decoded |
| LazyState.Read | modules/common/src/main/java/io/liveoak/common/codec/DefaultLazyResourceState.java:84-132 | a read accessor answers the delegate's value and fails exactly when decoding fails |
| LazyState.Modify | modules/common/src/main/java/io/liveoak/common/codec/DefaultLazyResourceState.java:84-132 | a mutator changes the kept delegate and leaves the buffer and type alone |
| LazyState.LazyIdAfterSetId | modules/common/src/main/java/io/liveoak/common/codec/DefaultLazyResourceState.java:85-93 | through the lazy state, `id(x)` then `id()` answers `x` |
| LazyState.ContentLength | modules/common/src/main/java/io/liveoak/common/codec/DefaultLazyResourceState.java:139-148 | the buffer length, or 0 without one |
| LazyState.ContentType | modules/common/src/main/java/io/liveoak/common/codec/DefaultLazyResourceState.java:155-158 | the media type the state was built with |
| LazyState.ContentAsBytes | modules/common/src/main/java/io/liveoak/common/codec/DefaultLazyResourceState.java:216-225 | the buffer, or empty; its length is the content length |
| LazyState.ContentAsStream | modules/common/src/main/java/io/liveoak/common/codec/DefaultLazyResourceState.java:192-215 | the stream yields exactly the content bytes |
| LazyState.HasBigContent | modules/common/src/main/java/io/liveoak/common/codec/DefaultLazyResourceState.java:166-169 | never big content |
| LazyState.ContentAsFile | modules/common/src/main/java/io/liveoak/common/codec/DefaultLazyResourceState.java:177-185 | never backed by a file |
| LazyState.ContentAccessorsFollowContent | modules/common/src/main/java/io/liveoak/common/codec/DefaultLazyResourceState.java:139-235 | the content accessors see new content at once, and the type does not change |
| Resources.BinaryIsBlocking | modules/spi/src/main/java/io/liveoak/spi/resource/async/BinaryResource.java:17 | every binary resource is a blocking resource |
| Resources.Defaults | modules/spi/src/main/java/io/liveoak/spi/resource/SynchronousResource.java:17-27 | without overrides, members, member and properties are null |
| Resources.ReadMembers | modules/spi/src/main/java/io/liveoak/spi/resource/SynchronousResource.java:34-44 | each member accepted in order, then exactly one close; null members give only the close |
| Resources.ReadMember | modules/spi/src/main/java/io/liveoak/spi/resource/SynchronousResource.java:47-55 | exactly one callback: no-such-resource exactly when the hook answers null, else the member read |
| Resources.ReadProperties | modules/spi/src/main/java/io/liveoak/spi/resource/SynchronousResource.java:58-66 | one accept per property in field order, then one close |
| Resources.ReadPropertiesAgreesWithGet | modules/spi/src/main/java/io/liveoak/spi/resource/SynchronousResource.java:58-66 | every reported property carries the value found under its name |
| Resources.UpdateProperties | modules/spi/src/main/java/io/liveoak/spi/resource/SynchronousResource.java:68-72 | the properties hook, then one updated callback |
| Resources.DefaultsAnswerNoSuchResource | modules/spi/src/main/java/io/liveoak/spi/resource/SynchronousResource.java:17-66 | without overrides every member read misses and the reads give only a close |
| Resources.UpdateContent | modules/spi/src/main/java/io/liveoak/spi/resource/async/BinaryResource.java:50-52 | the chunk is refused with one update-not-supported |
| Resources.WillProcessUpdate | modules/spi/src/main/java/io/liveoak/spi/resource/async/BinaryResource.java:68-71 | the body is declined and update-not-supported is answered |
| Resources.DefaultBinaryRefusesUpload | modules/spi/src/main/java/io/liveoak/spi/resource/async/BinaryResource.java:50-71 | both the declined body and a refused chunk reach the client as a single update-not-supported failure answering the request |
| Body.SizeLimitMessageNamesLimit | modules/container/src/main/java/io/liveoak/container/undertow/UndertowDispatcher.java:110-117 | the rejection message spells out the limit in decimal |
| Body.FlushBuffer | modules/container/src/main/java/io/liveoak/container/undertow/UndertowDispatcher.java:154-184 | flushes the buffer at the running offset, marks completion when the offset reaches the declared length, and proceeds when the request is complete |
| Body.Accumulate | modules/container/src/main/java/io/liveoak/container/undertow/UndertowDispatcher.java:88-117 | binary bodies only flush and proceed, and are flushed whenever they complete or reach the cap, proceeding exactly on completion; other bodies are rejected exactly at the size cap, which ends them, and a complete body below the cap is delivered whole |
| Body.Step | modules/container/src/main/java/io/liveoak/container/undertow/UndertowDispatcher.java:88-151 | a failed read reports an internal error and ends; end of stream completes; data is accumulated |
| Body.DrainConservesBytes | modules/container/src/main/java/io/liveoak/container/undertow/UndertowDispatcher.java:88-184 | bytes read equal bytes flushed plus bytes still buffered, and the running total counts the flushed ones |
| Body.DrainOffsetsArePrefixSums | modules/container/src/main/java/io/liveoak/container/undertow/UndertowDispatcher.java:154-184 | every flush starts where the previous ended and is complete exactly at the declared length |
| Body.StepConservesBytes | modules/container/src/main/java/io/liveoak/container/undertow/UndertowDispatcher.java:88-184 | the same conservation and offset facts for one read |
| Body.DeliveryCarriesWholeBody | modules/container/src/main/java/io/liveoak/container/undertow/UndertowDispatcher.java:120-146 | a delivered body is every byte read, and stays under the cap |
| Body.UploadProceedsOnceAtEnd | modules/container/src/main/java/io/liveoak/container/undertow/UndertowDispatcher.java:154-184 | an upload never delivers or rejects, and proceeds at most once, as the last effect |
| Body.BodyFullyRead | modules/container/src/main/java/io/liveoak/container/undertow/UndertowDispatcher.java:79 | true exactly when extra bytes exist, the length is declared and fits in them |
| Body.StartReading | modules/container/src/main/java/io/liveoak/container/undertow/UndertowDispatcher.java:71-205 | binary resources read nothing exactly when they decline, and never inline; others read inline exactly when the body is fully read |
| Body.PlaceHandler | modules/container/src/main/java/io/liveoak/container/undertow/UndertowDispatcher.java:120-184 | a worker thread exactly for blocking resources, always for binary ones; reads are suspended exactly when flushing |
| Body.CallFor | modules/container/src/main/java/io/liveoak/container/undertow/UndertowDispatcher.java:48-69 | update calls `updateProperties` and create calls `createMember` |
| Body.Complete | modules/container/src/main/java/io/liveoak/container/undertow/UndertowDispatcher.java:120-146 | the lazy state holds the body bytes, the operation's call is made and the pipeline proceeds with the first output or null |
| Body.CompletedContentIsBody | modules/container/src/main/java/io/liveoak/container/undertow/UndertowDispatcher.java:120-146 | a small body read at once ends up exactly in the lazy state |
| Body.TwoChunkUpload | modules/container/src/main/java/io/liveoak/container/undertow/UndertowDispatcher.java:154-184 | two chunks are flushed at offsets 0 and \|a\|, the second completing the upload, and then it proceeds |
| ResponseProcessing.EncodeBody | modules/container/src/main/java/io/liveoak/container/protocols/http/ResourceResponseBodyProcessor.java:76-101 | a null resource proceeds at once; a pending driver proceeds with nothing; a finished one with the state; a failure is a not-acceptable error with the message |
| ResponseProcessing.InternalErrorFor | modules/container/src/main/java/io/liveoak/container/protocols/http/ResourceResponseBodyProcessor.java:40-67 | an escape becomes an internal-error response to the same request with its description |
| ResponseProcessing.ProcessBody | modules/container/src/main/java/io/liveoak/container/protocols/http/ResourceResponseBodyProcessor.java:40-67 | null and failures pass through unchanged; successes are encoded, dispatched exactly when the resource blocks; one or two proceeds |
| ResponseProcessing.PendingEncodingProceedsWithNull | modules/container/src/main/java/io/liveoak/container/protocols/http/ResourceResponseBodyProcessor.java:76-101 | encoding that has not finished lets the pipeline go on with null |
| ResponseProcessing.OutcomeOf | modules/container/src/main/java/io/liveoak/container/protocols/http/HttpResponseProcessor.java:57-125 | a success keeps its kind and a failure its error |
| ResponseProcessing.StatusFor | modules/container/src/main/java/io/liveoak/container/protocols/http/HttpResponseProcessor.java:57-125 | 2xx exactly for successes, 201 exactly for creation, 405 for not-supported, 500 for internal errors, 4xx for the other listed errors |
| ResponseProcessing.StatusMatchesTable | modules/container/src/main/java/io/liveoak/container/protocols/http/HttpResponseProcessor.java:78-117 | every listed kind gets its status, and only unlisted kinds are missing from the table |
| ResponseProcessing.CallbackStatuses | modules/container/src/main/java/io/liveoak/container/protocols/http/HttpResponseProcessor.java:78-117 | each responder callback ends as its status: 404, 406, 405, 500, 200 or 201 |
| ResponseProcessing.DriverFailureIsNotAcceptable | modules/container/src/main/java/io/liveoak/container/protocols/http/ResourceResponseBodyProcessor.java:93-99 | a driver failure reaches the client as 406 with the message |
| ResponseProcessing.FindApplication | modules/container/src/main/java/io/liveoak/container/protocols/http/HttpResponseProcessor.java:213-222 | null when no context up the chain is an application, otherwise one found on the chain |
| ResponseProcessing.NearestApplication | modules/container/src/main/java/io/liveoak/container/protocols/http/HttpResponseProcessor.java:213-222 | the nearest application wins |
| ResponseProcessing.OutgoingOf | modules/container/src/main/java/io/liveoak/container/protocols/http/HttpResponseProcessor.java:128-161 | binary exactly for binary resources, with their type; an error exactly for failures |
| ResponseProcessing.HttpProcess | modules/container/src/main/java/io/liveoak/container/protocols/http/HttpResponseProcessor.java:51-206 | null proceeds untouched; nothing happens exactly for an HTML application request; an incompatible type gives 406 with the message, any other encoding failure 500, success the outcome's status; proceeding implies the exchange ended; a body comes with its exact length, location and type; binary responses send no encoded body |
| ResponseProcessing.EncodedResponseHeaders | modules/container/src/main/java/io/liveoak/container/protocols/http/HttpResponseProcessor.java:163-206 | an encoded response carries its length, its type and the resource's location |
| ResponseProcessing.BinaryResponseHeaders | modules/container/src/main/java/io/liveoak/container/protocols/http/HttpResponseProcessor.java:163-206 | a binary response carries its own type and streams its content |
| ResponseProcessing.ReadAsJson | modules/container/src/main/java/io/liveoak/container/protocols/http/HttpResponseProcessor.java:128-161 | a read answered as JSON has status 200 and the state's bytes as body |
| Scripting.ClassOf | modules/scripts/src/main/java/io/liveoak/scripts/resourcetriggered/resource/ResourceScript.java:100-111 | classes are exact: a list is an `ArrayList` only when it is one |
| Scripting.GetProperty | modules/scripts/src/main/java/io/liveoak/scripts/resourcetriggered/resource/ResourceScript.java:100-111 | a missing required property fails; a missing optional one is null; a wrong class fails; otherwise the value |
| Scripting.ChooseId | modules/scripts/src/main/java/io/liveoak/scripts/resourcetriggered/resource/ResourceScript.java:48-97 | the state's id, else the current script's, else a fresh one |
| Scripting.LibraryNames | modules/scripts/src/main/java/io/liveoak/scripts/resourcetriggered/resource/ResourceScript.java:48-97 | present exactly when every element is a string, keeping order |
| Scripting.CreateScript | modules/scripts/src/main/java/io/liveoak/scripts/resourcetriggered/resource/ResourceScript.java:48-97 | succeeds exactly for acceptable states; a missing target path is reported; the built script carries the given values and chosen id |
| Scripting.ReadProperties | modules/scripts/src/main/java/io/liveoak/scripts/resourcetriggered/resource/ResourceScript.java:128-137 | the seven properties in fixed order, then one close |
| Scripting.ReadBackRebuilds | modules/scripts/src/main/java/io/liveoak/scripts/resourcetriggered/resource/ResourceScript.java:48-137 | building a script from what it reports gives the same script |
| Scripting.ReadBackProps | modules/scripts/src/main/java/io/liveoak/scripts/resourcetriggered/resource/ResourceScript.java:128-137 | the read-back state holds exactly the reported non-null values |
| Scripting.ReadBackAcceptable | modules/scripts/src/main/java/io/liveoak/scripts/resourcetriggered/resource/ResourceScript.java:48-137 | what a script reports passes every creation check |
| Scripting.ReportedDetermines | modules/scripts/src/main/java/io/liveoak/scripts/resourcetriggered/resource/ResourceScript.java:128-137 | scripts reporting the same properties are the same |
| Scripting.UpdateProperties | modules/scripts/src/main/java/io/liveoak/scripts/resourcetriggered/resource/ResourceScript.java:140-155 | a changed id is refused; otherwise a property error is an invalid request with its message, and a built script replaces the old one, the parent is told, and the response is updated or the parent's error message |
| Scripting.UpdateKeepsId | modules/scripts/src/main/java/io/liveoak/scripts/resourcetriggered/resource/ResourceScript.java:140-155 | an update never changes an existing script's id, and an accepted one reports exactly the properties given |
| Scripting.CreateMember | modules/scripts/src/main/java/io/liveoak/scripts/resourcetriggered/resource/ResourceScript.java:158-171 | an upload becomes the script's buffer and is answered as created, or the source-file write's exception leaves unanswered; anything else is an invalid request that changes nothing |
| Scripting.ReadMembers | modules/scripts/src/main/java/io/liveoak/scripts/resourcetriggered/resource/ResourceScript.java:173-179 | the script file is listed exactly when there is a buffer, then one close |
| Scripting.ReadMember | modules/scripts/src/main/java/io/liveoak/scripts/resourcetriggered/resource/ResourceScript.java:181-188 | the file is read exactly under its id with a buffer; otherwise no such resource |
| Scripting.UploadedFileIsListed | modules/scripts/src/main/java/io/liveoak/scripts/resourcetriggered/resource/ResourceScript.java:158-188 | after an upload the file is listed and readable, even when writing the source file failed; a refused upload changes neither |
| PgTable.ColumnNamed | modules/pgsql/src/main/java/io/liveoak/pgsql/meta/Table.java:33-40 | null exactly when no column has the name, otherwise the first that does |
| PgTable.ForeignKeyFor | modules/pgsql/src/main/java/io/liveoak/pgsql/meta/Table.java:125-134 | null exactly when no foreign key has a column of that name, otherwise the first that does |
| PgTable.BuildDdl | modules/pgsql/src/main/java/io/liveoak/pgsql/meta/Table.java:62-123 | the builder loops produce the DDL text: header, joined column definitions, key clause, foreign-key clauses, closing |
| PgTable.AppendColumnDefs | modules/pgsql/src/main/java/io/liveoak/pgsql/meta/Table.java:66-79 | the column loop appends the separator-joined definitions |
| PgTable.WriteColumn | modules/pgsql/src/main/java/io/liveoak/pgsql/meta/Table.java:67-78 | one column's definition, with UNIQUE and NOT NULL only for non-key columns |
| PgTable.AppendNames | modules/pgsql/src/main/java/io/liveoak/pgsql/meta/Table.java:80-92 | the key loop appends the comma-joined quoted names |
| PgTable.AppendForeignKeys | modules/pgsql/src/main/java/io/liveoak/pgsql/meta/Table.java:94-119 | the foreign-key loop appends one clause per key in order |
| PgTable.DdlFrame | modules/pgsql/src/main/java/io/liveoak/pgsql/meta/Table.java:62-123 | the text starts with the quoted header and ends with the closing; key columns are bare; the key clause is empty exactly without a key |
| PgCatalog.ParseRef | modules/pgsql/src/main/java/io/liveoak/pgsql/meta/Catalog.java:67-69 | dot-free text is a bare name; otherwise schema, '.', name give back the text |
| PgCatalog.ParseQualified | modules/pgsql/src/main/java/io/liveoak/pgsql/meta/Catalog.java:17-69 | parsing a qualified id gives back its reference |
| PgCatalog.Build | modules/pgsql/src/main/java/io/liveoak/pgsql/meta/Catalog.java:17-44 | same keys and tables; a table's id is its bare name exactly when no other table shares the name or it has no schema |
| PgCatalog.Lookup | modules/pgsql/src/main/java/io/liveoak/pgsql/meta/Catalog.java:46-57 | with a schema, exactly the table under that key; without one, a table with that name |
| PgCatalog.BareLookupFinds | modules/pgsql/src/main/java/io/liveoak/pgsql/meta/Catalog.java:46-57 | a bare lookup succeeds exactly when some table has that name |
| PgCatalog.TableIds | modules/pgsql/src/main/java/io/liveoak/pgsql/meta/Catalog.java:59-65 | one id per table, in iteration order |
| PgCatalog.TableById | modules/pgsql/src/main/java/io/liveoak/pgsql/meta/Catalog.java:67-69 | a bare id is a bare lookup; a qualified one succeeds exactly for a known key |
| PgCatalog.IdsDistinct | modules/pgsql/src/main/java/io/liveoak/pgsql/meta/Catalog.java:17-44 | distinct tables get distinct ids |
| PgCatalog.TableByIdFindsEachTable | modules/pgsql/src/main/java/io/liveoak/pgsql/meta/Catalog.java:17-69 | every table is found again by its own id |
| PgQuery.FirstIncompatible | modules/pgsql/src/main/java/io/liveoak/pgsql/meta/QueryBuilder.java:64-67 | the first id whose component count differs from the key's column count |
| PgQuery.SelectAll | modules/pgsql/src/main/java/io/liveoak/pgsql/meta/QueryBuilder.java:27-30 | the statement is "SELECT * FROM " followed by the table's quoted identifier |
| PgQuery.PrepareWith | modules/pgsql/src/main/java/io/liveoak/pgsql/meta/QueryBuilder.java:40-94 | empty ids, and only they, are an illegal argument; an unknown table is an illegal state naming it; success means the table was found, every id splits into as many components as the key has columns, and there is one binding per component |
| PgQuery.AppendGroup | modules/pgsql/src/main/java/io/liveoak/pgsql/meta/QueryBuilder.java:68-80 | the inner loop appends one id's condition group |
| PgQuery.BindAll | modules/pgsql/src/main/java/io/liveoak/pgsql/meta/QueryBuilder.java:85-91 | the binding loop numbers every value from 1 in order |
| PgQuery.IdLoop | modules/pgsql/src/main/java/io/liveoak/pgsql/meta/QueryBuilder.java:54-81 | the id loop appends the groups, stopping at the first incompatible id |
| PgQuery.PrepareSelectWith | modules/pgsql/src/main/java/io/liveoak/pgsql/meta/QueryBuilder.java:40-94 | the loops compute the statement and bindings |
| PgQuery.PrepareSelectAsWritten | modules/pgsql/src/main/java/io/liveoak/pgsql/meta/QueryBuilder.java:40-94 | the loops as written, with the counter never advanced |
| PgQuery.PrepareSelect | modules/pgsql/src/main/java/io/liveoak/pgsql/meta/QueryBuilder.java:40-94 | the loops with the counter advanced |
| PgQuery.QueryFor | modules/pgsql/src/main/java/io/liveoak/pgsql/meta/QueryBuilder.java:96-102 | empty ids select the whole table with no bindings; other ids get the id statement as the code builds it; never fails for missing ids |
| PgQuery.QueryForCorrected | modules/pgsql/src/main/java/io/liveoak/pgsql/meta/QueryBuilder.java:96-102 | as `QueryFor`, with the id statement whose groups are joined by " OR " |
| PgQuery.BindingsInOrder | modules/pgsql/src/main/java/io/liveoak/pgsql/meta/QueryBuilder.java:85-91 | binding k is value k of the ids' components, in id order |
| PgQuery.PlaceholdersMatchBindings | modules/pgsql/src/main/java/io/liveoak/pgsql/meta/QueryBuilder.java:68-91 | the statement has exactly one '?' per binding |
| PgQuery.SingleIdUnaffected | modules/pgsql/src/main/java/io/liveoak/pgsql/meta/QueryBuilder.java:54-58 | with one id, the missing separator changes nothing |
| PgQuery.CorrectedSeparatesGroups | modules/pgsql/src/main/java/io/liveoak/pgsql/meta/QueryBuilder.java:54-58 | the corrected statement's WHERE clause is the groups joined by " OR ", with " OR " before every group after the first |
| PgQuery.TwoIdsLoseOr | modules/pgsql/src/main/java/io/liveoak/pgsql/meta/QueryBuilder.java:54-58 | as written, two ids give two groups with no " OR " between them |

## Left out

- The HTTP transport: Undertow exchanges, channels and the servers. The
  model sees read results and callbacks, not sockets.
- Threads and executors: worker dispatch and `SameThreadExecutor` appear
  only as the placement decision. `EncodingBinaryContentSink` and every
  form of concurrency are not modelled.
- The root encoding driver, `TraversingResponder` and `TraversalPlan`
  beyond the plan position the update step rewrites.
- The JSON decoder and encoders are parameters. The model does not parse
  or print JSON.
- The media-type matcher (`DefaultMediaTypeMatcher`) is a parameter.
- Body.Step: end of stream is taken as completing the request; the
  transport's own completion flag is a parameter.
- Body: what the channel delivers after the body is delivered, rejected
  or failed is not modelled.
- LazyState.BufferText: bytes become characters one to one, exact only
  for ASCII bodies. Charset decoding is not modelled.
- Floating point: doubles and floats are tags carrying an exact fraction
  and their printed text. Rounding to binary precision is not modelled, so
  two fractions that would round to the same double compare unequal; NaN
  and infinities are not represented. `DecimalNode` equality is taken to be
  `BigDecimal.equals`, value and scale, the scale read from the printed
  text.
- `hashCode` methods.
- `BaseResponder`'s response message helper is never called by the code
  modelled.
- The script builder's defaults are not part of this model.
- `ResourceScript.delete` and `deleteMember` are not modelled.
- JDBC execution: the query builder's statement and bindings are modelled,
  not running them.
- PgCatalog.ParseRef: `TableRef` is not part of this model. Parsing is
  taken to split at the first '.'.
- PgQuery: `asQuotedIdentifier` and `Column.quotedName` are not part of
  this model. They are taken to wrap each part in double quotes.
- PgQuery: `PrimaryKey.splitId` is a parameter.
- PgCatalog: the `HashMap` iteration order is a parameter.
- PgQuery.PrepareWith: a null ids array is modelled as the empty one,
  which fails the same way.
- PgTable: a null columns list is not modelled, nor are null
  `foreignKeys` or `pk` lists.
- JavaInt.ParseInt: accepts only the ASCII digits '0' to '9'.
  `Integer.parseInt` also accepts the other Unicode decimal digits; the
  Unicode digit tables are not part of this model. Params.IntValue and
  Request.IntValueOr inherit this.
- State.Uri: whether a text is URI syntax (`new URI(text)`) is a
  parameter, and the URI is returned as its text.
- Request.RequestTypeOf: Undertow's `HttpString` is not part of this
  model. Its equality is taken to compare method names with ASCII
  letters folded to upper case.
- ResponseProcessing.HtmlAppRequested: the code compares the negotiated
  type with `MediaType.HTML` by reference; the model compares media types
  by value, which agrees when the HTML codec is registered under that
  constant.
- The DDL text in `HttpPgSqlTest` differs from what `Table.ddl` builds.
  The model follows `Table.ddl`.

## Findings

| source | as written | input that shows it | evidently intended | confidence | as-written member | corrected member |
|---|---|---|---|---|---|---|
| modules/common/src/main/java/io/liveoak/common/codec/driver/StateEncodingDriver.java:60-73 | `encodeProperties` walks every field, the "_members" array included, and `encodeValue` throws `NonEncodableValueException` on an array node | an empty state with one empty member added | members written only by `encodeMembers`, as nested resources | not executed | Encoding.MembersBreakEncoding | Encoding.CorrectedEncodesMembersInOrder |
| modules/pgsql/src/main/java/io/liveoak/pgsql/meta/QueryBuilder.java:54-58 | the counter `i` is never incremented, so " OR " is never appended between id groups | table "public.items" keyed on "id", ids "1" and "2" | `... WHERE  ("id"=?) OR  ("id"=?)` | not executed | PgQuery.TwoIdsLoseOr | PgQuery.CorrectedSeparatesGroups |

=== FILE: body.dfy ===
/** The request-body handling `UndertowDispatcher` runs before `update` and
    `create` reach the resource. The request channel is a sequence of read
    results; each read event is handled by one step of an accumulator that
    either waits for more, flushes a chunk to a binary resource, rejects an
    oversized body, or hands the whole body to the resource action. */
module Body {
  import opened Wrappers
  import opened JavaInt
  import opened State
  import opened Resources
  import opened LazyState

  /** `Constants.MAX_REQUEST_SIZE`. */
  const MaxRequestSize: nat := 102400

  const SizeLimitPrefix: string := "Body exceeds size limit in bytes: "

  /** The `invalidRequest` message for an oversized body. */
  const SizeLimitMessage: string := SizeLimitPrefix + "102400"

  /** The message spells out the limit in decimal. */
  lemma SizeLimitMessageNamesLimit()
    ensures SizeLimitMessage == SizeLimitPrefix + IntToString(MaxRequestSize)
  {
    assert NatToDigits(10) == "10";
    assert NatToDigits(102) == "102";
    assert NatToDigits(1024) == "1024";
    assert NatToDigits(10240) == "10240";
    assert NatToDigits(102400) == "102400";
  }

  /** What one handler invocation reads from the channel: some bytes (none
      when nothing was available) together with whether the exchange then
      counts the request as complete, the end of the stream, or a read that
      threw. The handler's copy loop leaves `c` at 0 after draining a read,
      so each invocation consumes exactly one read. */
  datatype ReadResult =
    | Data(bytes: seq<Byte>, requestComplete: bool)
    | Eof
    | ReadFailure(message: string)

  /** The bytes accumulated so far (`baos`) and the sum of the sizes of the
      chunks already flushed (`total`). */
  datatype Acc = Acc(buffer: seq<Byte>, total: nat)

  /** What a read event leads to. */
  datatype Effect =
    | Flush(bytes: seq<Byte>, offset: nat, complete: bool)  // `BinaryResource.updateContent`
    | ProceedAfterUpload                                    // the pipeline proceeds once the upload is complete
    | Reject(message: string)                               // `responder.invalidRequest`
    | Deliver(content: seq<Byte>)                           // lazy content set, action run, pipeline proceeds
    | InternalError(message: string)                        // `responder.internalError(e)`

  /** The binary flush: `updateContent(bytes, total, total + size == bodyLen)`,
      then the chunk is added to `total` and the buffer emptied; the pipeline
      proceeds when the request is complete. */
  function FlushBuffer(buf: seq<Byte>, total: nat, bodyLen: int, complete: bool): (r: (Acc, seq<Effect>))
    ensures r.0 == Acc([], total + |buf|)
    ensures |r.1| >= 1 && r.1[0] == Flush(buf, total, total + |buf| == bodyLen)
    ensures r.1[1..] == (if complete then [ProceedAfterUpload] else [])
  {
    var flush := [Flush(buf, total, total + |buf| == bodyLen)];
    (Acc([], total + |buf|), if complete then flush + [ProceedAfterUpload] else flush)
  }

  /** The part of `handleEvent` after the read: `more` has been appended to
      the buffer and `complete` says whether the stream ended or the
      exchange counts the request as complete. Returns the new accumulator,
      the effects, and whether the body has been dealt with. */
  function Accumulate(acc: Acc, more: seq<Byte>, complete: bool, binary: bool, bodyLen: int): (r: (Acc, seq<Effect>, bool))
    // only a binary resource sees flushes, only a non-binary one a rejection or a delivery
    ensures forall i :: 0 <= i < |r.1| && (r.1[i].Flush? || r.1[i].ProceedAfterUpload?) ==> binary
    ensures forall i :: 0 <= i < |r.1| && (r.1[i].Reject? || r.1[i].Deliver?) ==> !binary
    // a non-binary body is rejected exactly when the accumulated size reaches the cap
    ensures !binary ==> (r.1 == [Reject(SizeLimitMessage)] <==> |acc.buffer + more| >= MaxRequestSize)
    // an event that neither completes the request nor reaches the cap just accumulates
    ensures !complete && |acc.buffer + more| < MaxRequestSize ==> r == (Acc(acc.buffer + more, acc.total), [], false)
    // a delivery ends the body and carries the whole buffer, below the cap
    ensures forall i :: 0 <= i < |r.1| && r.1[i].Deliver? ==>
      r.2 && i == |r.1| - 1 && r.1[i].content == r.0.buffer && |r.1[i].content| < MaxRequestSize
    // the pipeline proceeds after an upload only as the last thing, once complete
    ensures forall i :: 0 <= i < |r.1| && r.1[i].ProceedAfterUpload? ==> r.2 && i == |r.1| - 1
    // a step that does not finish the body only accumulates or flushes
    ensures !r.2 ==> forall i :: 0 <= i < |r.1| ==> r.1[i].Flush?
    ensures !r.2 && !binary ==> r.1 == []
    // a complete non-binary body below the cap is delivered whole
    ensures !binary && complete && |acc.buffer + more| < MaxRequestSize ==>
      r == (Acc(acc.buffer + more, acc.total), [Deliver(acc.buffer + more)], true)
    // a rejection ends the body
    ensures !binary && |acc.buffer + more| >= MaxRequestSize ==> r.2
    // a binary body is flushed whenever it completes or reaches the cap, and
    // the pipeline proceeds exactly when it completes
    ensures binary && (complete || |acc.buffer + more| >= MaxRequestSize) ==>
      var buf := acc.buffer + more;
      r.0 == Acc([], acc.total + |buf|) && r.2 == complete &&
      r.1 == [Flush(buf, acc.total, acc.total + |buf| == bodyLen)] + (if complete then [ProceedAfterUpload] else [])
  {
    var buf := acc.buffer + more;
    if |buf| >= MaxRequestSize then
      if binary then
        var f := FlushBuffer(buf, acc.total, bodyLen, complete);
        (f.0, f.1, complete)
      else (Acc(buf, acc.total), [Reject(SizeLimitMessage)], true)
    else if complete then
      if binary then
        var f := FlushBuffer(buf, acc.total, bodyLen, true);
        (f.0, f.1, true)
      else (Acc(buf, acc.total), [Deliver(buf)], true)
    else (Acc(buf, acc.total), [], false)
  }

  /** One read event (`handleEvent`). A read that throws reports an internal
      error and ends the body; the end of the stream completes it. */
  function Step(acc: Acc, rd: ReadResult, binary: bool, bodyLen: int): (r: (Acc, seq<Effect>, bool))
    ensures rd.ReadFailure? ==> r == (acc, [InternalError(rd.message)], true)
    ensures rd.Eof? ==> r == Accumulate(acc, [], true, binary, bodyLen)
    ensures rd.Data? ==> r == Accumulate(acc, rd.bytes, rd.requestComplete, binary, bodyLen)
    ensures !rd.ReadFailure? ==> r == Accumulate(acc, Bytes([rd]), rd.Eof? || rd.requestComplete, binary, bodyLen)
    ensures forall i :: 0 <= i < |r.1| && (r.1[i].Flush? || r.1[i].ProceedAfterUpload?) ==> binary
    ensures forall i :: 0 <= i < |r.1| && (r.1[i].Reject? || r.1[i].Deliver?) ==> !binary
    ensures forall i :: 0 <= i < |r.1| && r.1[i].Deliver? ==>
      r.2 && i == |r.1| - 1 && r.1[i].content == r.0.buffer && |r.1[i].content| < MaxRequestSize
    ensures forall i :: 0 <= i < |r.1| && r.1[i].ProceedAfterUpload? ==> r.2 && i == |r.1| - 1
    ensures !r.2 ==> forall i :: 0 <= i < |r.1| ==> r.1[i].Flush?
    ensures !r.2 && !binary ==> r.1 == []
  {
    BytesSingle(rd);
    match rd
    case ReadFailure(msg) => (acc, [InternalError(msg)], true)
    case Eof => Accumulate(acc, [], true, binary, bodyLen)
    case Data(b, rc) => Accumulate(acc, b, rc, binary, bodyLen)
  }

  /** All bytes the events carry, in order. */
  function Bytes(events: seq<ReadResult>): seq<Byte>
  {
    if |events| == 0 then []
    else (if events[0].Data? then events[0].bytes else []) + Bytes(events[1..])
  }

  lemma BytesSingle(rd: ReadResult)
    ensures Bytes([rd]) == if rd.Data? then rd.bytes else []
  {
    assert [rd][1..] == [];
  }

  lemma {:induction false} BytesAppend(a: seq<ReadResult>, b: seq<ReadResult>)
    ensures Bytes(a + b) == Bytes(a) + Bytes(b)
    decreases |a|
  {
    if |a| > 0 {
      assert (a + b)[1..] == a[1..] + b;
      BytesAppend(a[1..], b);
    } else {
      assert a + b == b;
    }
  }

  /** The outcome of reading until the body has been dealt with or the events
      run out: the effects, the final accumulator, and how many events were
      consumed. */
  datatype Run = Run(effects: seq<Effect>, acc: Acc, consumed: nat)

  function Drain(acc: Acc, events: seq<ReadResult>, binary: bool, bodyLen: int): (r: Run)
    ensures r.consumed <= |events|
    decreases |events|
  {
    if |events| == 0 then Run([], acc, 0)
    else
      var st := Step(acc, events[0], binary, bodyLen);
      if st.2 then Run(st.1, st.0, 1)
      else
        var rest := Drain(st.0, events[1..], binary, bodyLen);
        Run(st.1 + rest.effects, rest.acc, 1 + rest.consumed)
  }

  /** The bytes handed to the resource by flushes, in order. */
  function Flushed(effects: seq<Effect>): seq<Byte>
  {
    if |effects| == 0 then []
    else (if effects[0].Flush? then effects[0].bytes else []) + Flushed(effects[1..])
  }

  lemma {:induction false} FlushedAppend(a: seq<Effect>, b: seq<Effect>)
    ensures Flushed(a + b) == Flushed(a) + Flushed(b)
    decreases |a|
  {
    if |a| > 0 {
      assert (a + b)[1..] == a[1..] + b;
      FlushedAppend(a[1..], b);
    } else {
      assert a + b == b;
    }
  }

  /** Each flush starts where the previous ones stopped: its offset is
      `start` plus the sizes of all earlier flushes. */
  predicate OffsetsFrom(effects: seq<Effect>, start: nat)
    decreases |effects|
  {
    if |effects| == 0 then true
    else if effects[0].Flush? then
      effects[0].offset == start && OffsetsFrom(effects[1..], start + |effects[0].bytes|)
    else OffsetsFrom(effects[1..], start)
  }

  lemma {:induction false} OffsetsAppend(a: seq<Effect>, b: seq<Effect>, start: nat)
    requires OffsetsFrom(a, start) && OffsetsFrom(b, start + |Flushed(a)|)
    ensures OffsetsFrom(a + b, start)
    decreases |a|
  {
    if |a| > 0 {
      assert (a + b)[1..] == a[1..] + b;
      var next := if a[0].Flush? then start + |a[0].bytes| else start;
      assert Flushed(a) == (if a[0].Flush? then a[0].bytes else []) + Flushed(a[1..]);
      OffsetsAppend(a[1..], b, next);
    } else {
      assert a + b == b;
    }
  }

  /** The flushed bytes followed by the bytes still buffered are the bytes
      buffered at the start followed by those of the consumed reads, and
      `total` has grown by the flushed size. */
  predicate Conserves(acc: Acc, events: seq<ReadResult>, r: Run)
    requires r.consumed <= |events|
  {
    && Flushed(r.effects) + r.acc.buffer == acc.buffer + Bytes(events[..r.consumed])
    && r.acc.total == acc.total + |Flushed(r.effects)|
  }

  /** Flushes start at the running sums of the earlier flush sizes from
      `start`, and each is marked complete exactly when it reaches the
      declared length. */
  predicate FlushesMarked(effects: seq<Effect>, start: nat, bodyLen: int) {
    && OffsetsFrom(effects, start)
    && forall i :: 0 <= i < |effects| && effects[i].Flush? ==>
         effects[i].complete == (effects[i].offset + |effects[i].bytes| == bodyLen)
  }

  /** Reading conserves bytes: what was flushed followed by what is still
      buffered is exactly what was buffered before followed by every byte
      read, and `total` counts the flushed bytes. */
  lemma {:induction false} DrainConservesBytes(acc: Acc, events: seq<ReadResult>, binary: bool, bodyLen: int)
    ensures Conserves(acc, events, Drain(acc, events, binary, bodyLen))
    decreases |events|
  {
    var r := Drain(acc, events, binary, bodyLen);
    if |events| > 0 {
      var st := Step(acc, events[0], binary, bodyLen);
      StepConservesBytes(acc, events[0], binary, bodyLen);
      assert events[..1] == [events[0]];
      assert [events[0]][..1] == [events[0]];
      if !st.2 {
        var rest := Drain(st.0, events[1..], binary, bodyLen);
        DrainConservesBytes(st.0, events[1..], binary, bodyLen);
        assert r.effects == st.1 + rest.effects && r.acc == rest.acc && r.consumed == 1 + rest.consumed;
        FlushedAppend(st.1, rest.effects);
        assert events[..r.consumed] == [events[0]] + events[1..][..rest.consumed];
        BytesAppend([events[0]], events[1..][..rest.consumed]);
        ChainConcat(Flushed(st.1), Flushed(rest.effects), st.0.buffer, rest.acc.buffer,
                    acc.buffer, Bytes([events[0]]), Bytes(events[1..][..rest.consumed]));
      }
    } else {
      assert events[..0] == [];
    }
  }

  /** Two consecutive stretches of reading, each conserving bytes, conserve
      them together. */
  lemma ChainConcat(f1: seq<Byte>, f2: seq<Byte>, mid: seq<Byte>, last: seq<Byte>,
                    first: seq<Byte>, b0: seq<Byte>, b1: seq<Byte>)
    requires f1 + mid == first + b0
    requires f2 + last == mid + b1
    ensures (f1 + f2) + last == first + (b0 + b1)
  {
    calc {
      (f1 + f2) + last;
      f1 + (f2 + last);
      f1 + (mid + b1);
      (f1 + mid) + b1;
      (first + b0) + b1;
    }
  }

  /** Flush offsets are the running sums of the earlier flush sizes,
      starting from `total`, and each flush is marked complete exactly when
      it reaches the declared length. */
  lemma {:induction false} DrainOffsetsArePrefixSums(acc: Acc, events: seq<ReadResult>, binary: bool, bodyLen: int)
    ensures FlushesMarked(Drain(acc, events, binary, bodyLen).effects, acc.total, bodyLen)
    decreases |events|
  {
    var r := Drain(acc, events, binary, bodyLen);
    if |events| > 0 {
      var st := Step(acc, events[0], binary, bodyLen);
      StepConservesBytes(acc, events[0], binary, bodyLen);
      if !st.2 {
        var rest := Drain(st.0, events[1..], binary, bodyLen);
        DrainOffsetsArePrefixSums(st.0, events[1..], binary, bodyLen);
        assert r.effects == st.1 + rest.effects;
        OffsetsAppend(st.1, rest.effects, acc.total);
        forall i | 0 <= i < |r.effects| && r.effects[i].Flush?
          ensures r.effects[i].complete == (r.effects[i].offset + |r.effects[i].bytes| == bodyLen)
        {
          if i >= |st.1| {
            assert r.effects[i] == rest.effects[i - |st.1|];
          }
        }
      }
    }
  }

  /** The same facts for one read event. */
  lemma StepConservesBytes(acc: Acc, rd: ReadResult, binary: bool, bodyLen: int)
    ensures Conserves(acc, [rd], Run(Step(acc, rd, binary, bodyLen).1, Step(acc, rd, binary, bodyLen).0, 1))
    ensures FlushesMarked(Step(acc, rd, binary, bodyLen).1, acc.total, bodyLen)
  {
    var st := Step(acc, rd, binary, bodyLen);
    var e := st.1;
    var none: seq<Byte> := [];
    if |e| > 0 && e[0].Flush? {
      assert Flushed(e) == e[0].bytes + Flushed(e[1..]);
      assert e[1..] == [] || e[1..] == [ProceedAfterUpload];
      assert Flushed(e[1..]) == none;
      assert OffsetsFrom(e[1..], acc.total + |e[0].bytes|);
    } else {
      assert e == [] || e == [Reject(SizeLimitMessage)] || (|e| == 1 && (e[0].Deliver? || e[0].InternalError?));
      assert Flushed(e) == none;
    }
  }

  /** A non-binary body is never flushed; when it is delivered, the delivery
      is the last effect and carries every byte read, all of them below the
      cap. */
  lemma DeliveryCarriesWholeBody(events: seq<ReadResult>, bodyLen: int)
    ensures var r := Drain(Acc([], 0), events, false, bodyLen);
      && Flushed(r.effects) == []
      && (forall i :: 0 <= i < |r.effects| && r.effects[i].Deliver? ==>
            i == |r.effects| - 1 && r.effects[i].content == Bytes(events[..r.consumed]) &&
            |r.effects[i].content| < MaxRequestSize)
  {
    NonBinaryDrain(Acc([], 0), events, bodyLen);
    DrainConservesBytes(Acc([], 0), events, false, bodyLen);
    var none: seq<Byte> := [];
    assert none + Bytes(events[..Drain(Acc([], 0), events, false, bodyLen).consumed]) ==
      Bytes(events[..Drain(Acc([], 0), events, false, bodyLen).consumed]);
  }

  lemma {:induction false} NonBinaryDrain(acc: Acc, events: seq<ReadResult>, bodyLen: int)
    ensures var r := Drain(acc, events, false, bodyLen);
      && Flushed(r.effects) == []
      && (forall i :: 0 <= i < |r.effects| && r.effects[i].Deliver? ==>
            i == |r.effects| - 1 && r.effects[i].content == r.acc.buffer &&
            |r.effects[i].content| < MaxRequestSize)
    decreases |events|
  {
    var r := Drain(acc, events, false, bodyLen);
    if |events| > 0 {
      var st := Step(acc, events[0], false, bodyLen);
      NoFlushes(st.1);
      if !st.2 {
        assert st.1 == [];
        NonBinaryDrain(st.0, events[1..], bodyLen);
        assert r == Drain(st.0, events[1..], false, bodyLen).(consumed := r.consumed);
      } else {
        assert r == Run(st.1, st.0, 1);
      }
    }
  }

  lemma {:induction false} NoFlushes(e: seq<Effect>)
    requires forall x :: x in e ==> !x.Flush?
    ensures Flushed(e) == []
    decreases |e|
  {
    if |e| > 0 {
      assert e[0] in e;
      assert forall x :: x in e[1..] ==> x in e;
      NoFlushes(e[1..]);
    }
  }

  /** No delivery or rejection, and a proceed only as the last effect. */
  predicate UploadShape(effects: seq<Effect>) {
    && (forall i :: 0 <= i < |effects| ==> !effects[i].Deliver? && !effects[i].Reject?)
    && (forall i :: 0 <= i < |effects| && effects[i].ProceedAfterUpload? ==> i == |effects| - 1)
  }

  /** A binary upload never delivers or rejects, and the pipeline advances at
      most once, as the very last effect. */
  lemma {:induction false} UploadProceedsOnceAtEnd(acc: Acc, events: seq<ReadResult>, bodyLen: int)
    ensures UploadShape(Drain(acc, events, true, bodyLen).effects)
    decreases |events|
  {
    if |events| > 0 {
      var st := Step(acc, events[0], true, bodyLen);
      if !st.2 {
        UploadProceedsOnceAtEnd(st.0, events[1..], bodyLen);
        var rest := Drain(st.0, events[1..], true, bodyLen);
        var r := Drain(acc, events, true, bodyLen);
        assert r.effects == st.1 + rest.effects;
        forall i | 0 <= i < |r.effects|
          ensures !r.effects[i].Deliver? && !r.effects[i].Reject?
          ensures r.effects[i].ProceedAfterUpload? ==> i == |r.effects| - 1
        {
          if i < |st.1| {
            assert r.effects[i] == st.1[i] && st.1[i].Flush?;
          } else {
            assert r.effects[i] == rest.effects[i - |st.1|];
          }
        }
      }
    }
  }

  /** `bodyFullyRead`: the connection already holds extra bytes, the length
      is declared, and it fits in what remains of them. */
  function BodyFullyRead(extraRemaining: Option<nat>, bodyLen: int): (r: bool)
    ensures r <==> extraRemaining.Some? && bodyLen != -1 && bodyLen <= extraRemaining.value
  {
    match extraRemaining
    case None => false
    case Some(n) => bodyLen != -1 && bodyLen <= n
  }

  /** How reading starts. */
  datatype Start =
    | NoReads      // a binary resource declined the body: no byte is read
    | ReadInline   // the handler runs at once on the bytes already buffered
    | ResumeReads  // the handler is installed and events are resumed

  /** The start of `actionWithResourceBody`. */
  function StartReading(kind: Kind, willProcess: bool, extraRemaining: Option<nat>, bodyLen: int): (r: Start)
    ensures IsBinary(kind) ==> (r == NoReads <==> !willProcess) && r != ReadInline
    ensures !IsBinary(kind) ==> r != NoReads && (r == ReadInline <==> BodyFullyRead(extraRemaining, bodyLen))
  {
    if IsBinary(kind) then (if willProcess then ResumeReads else NoReads)
    else if BodyFullyRead(extraRemaining, bodyLen) then ReadInline
    else ResumeReads
  }

  /** Where the handler that acts on the body runs. */
  datatype Placement = Worker(suspendReads: bool) | SameThread

  /** A blocking resource (so every binary one) is handled on a worker,
      events being suspended around a binary flush; anything else runs on the
      I/O thread. */
  function PlaceHandler(kind: Kind, flushing: bool): (r: Placement)
    ensures r.Worker? <==> IsBlocking(kind)
    ensures r.Worker? ==> r.suspendReads == flushing
    ensures IsBinary(kind) ==> r.Worker?
  {
    if IsBlocking(kind) then Worker(flushing) else SameThread
  }

  /** `update` and `create`: the same body handling, then a different
      resource call on the request state. */
  datatype Operation = UpdateOp | CreateOp
  datatype ResourceCall = CallUpdateProperties | CallCreateMember

  function CallFor(op: Operation): (r: ResourceCall)
    ensures r == CallUpdateProperties <==> op == UpdateOp
  {
    match op
    case UpdateOp => CallUpdateProperties
    case CreateOp => CallCreateMember
  }

  /** What a delivery does, in order: the request's lazy state gets the body
      as its content, the resource call runs, and the pipeline proceeds with
      the responder's first output (`output`, as it stands once the call
      returned) or null. A responder that is not a `BaseResponder` has no
      outputs to offer, and is passed as `output == []`, so that it too
      proceeds with null. */
  datatype Completion<V> = Completion(state: Lazy, call: ResourceCall, proceedWith: Option<V>)

  function Complete<V>(l: Lazy, content: seq<Byte>, op: Operation, output: seq<V>): (r: Completion<V>)
    ensures ContentAsBytes(r.state) == content && r.state.delegate == l.delegate
    ensures r.call == CallFor(op)
    ensures r.proceedWith == FirstOrNull(output)
  {
    Completion(SetContent(l, Some(content)), CallFor(op), FirstOrNull(output))
  }

  /** Reading a small body in one piece and completing it leaves the lazy
      state holding exactly the bytes the channel delivered. */
  lemma CompletedContentIsBody<V>(l: Lazy, bytes: seq<Byte>, bodyLen: int, op: Operation, output: seq<V>)
    requires |bytes| < MaxRequestSize
    ensures var r := Drain(Acc([], 0), [Data(bytes, true)], false, bodyLen);
      r.effects == [Deliver(bytes)] &&
      ContentAsBytes(Complete(l, r.effects[0].content, op, output).state) == bytes
  {
    var none: seq<Byte> := [];
    assert none + bytes == bytes;
    assert Step(Acc([], 0), Data(bytes, true), false, bodyLen) == (Acc(bytes, 0), [Deliver(bytes)], true);
  }

  /** A huge upload in two pieces: the first flush starts at 0 and is not
      complete, the second starts where the first stopped and completes the
      declared length, and only then does the pipeline proceed. */
  lemma TwoChunkUpload(a: seq<Byte>, b: seq<Byte>)
    requires |a| == MaxRequestSize && 0 < |b| < MaxRequestSize
    ensures Drain(Acc([], 0), [Data(a, false), Data(b, true)], true, |a| + |b|).effects ==
      [Flush(a, 0, false), Flush(b, |a|, true), ProceedAfterUpload]
  {
    var n := |a| + |b|;
    var events := [Data(a, false), Data(b, true)];
    var none: seq<Byte> := [];
    assert none + a == a && none + b == b;
    assert FlushBuffer(a, 0, n, false) == (Acc([], |a|), [Flush(a, 0, false)]);
    assert Accumulate(Acc([], 0), a, false, true, n) == (Acc([], |a|), [Flush(a, 0, false)], false);
    assert [Flush(b, |a|, true)] + [ProceedAfterUpload] == [Flush(b, |a|, true), ProceedAfterUpload];
    assert FlushBuffer(b, |a|, n, true) == (Acc([], n), [Flush(b, |a|, true), ProceedAfterUpload]);
    assert Accumulate(Acc([], |a|), b, true, true, n) == (Acc([], n), [Flush(b, |a|, true), ProceedAfterUpload], true);
    assert events[1..] == [Data(b, true)];
    assert Drain(Acc([], |a|), [Data(b, true)], true, n).effects == [Flush(b, |a|, true), ProceedAfterUpload];
  }
}

=== FILE: codecs.dfy ===
/** `ResourceCodec` and `ResourceCodecManager`: a registry of codecs keyed by
    media type, and the rules that pick a codec for decoding a request body
    and for encoding a response. Media types are compared as strings; the
    media-type matcher, the decoders and the byte-level encoders are
    parameters. */
module Codecs {
  import opened Wrappers
  import opened Json
  import opened State
  import opened Encoding

  type MediaType = string

  const JsonType: MediaType := "application/json"
  const HtmlType: MediaType := "text/html"

  /** A `MediaTypeMatcher`: given the offered types, the best acceptable one,
      or null. */
  type Matcher = seq<MediaType> -> Option<MediaType>

  /** A codec: an encoder class and a decoder, either of which may be null.
      Each is known by an index into the tables of encoders and decoders the
      caller supplies. */
  datatype ResourceCodec = ResourceCodec(encoder: Option<nat>, decoder: Option<nat>)

  /** Applies decoder `d` to a byte array: the state, or the decoder's
      exception message. */
  type Decoders = (nat, seq<Byte>) -> Result<ResourceState, string>

  /** Applies encoder class `e` to the driver's calls: the bytes written. */
  type Encoders = (nat, seq<Event>) -> seq<Byte>

  datatype Registration = Registration(mediaType: MediaType, codec: ResourceCodec)

  /** The manager's registrations, oldest first. */
  type Registry = seq<Registration>

  /** Exceptions raised while decoding or encoding. */
  datatype CodecError =
    | UnsupportedMediaType
    | IncompatibleMediaType
    | NullReference
    | DecoderFailure(message: string)
    | NotEncodable(cause: EncodeError)

  /** `hasEncoder()`: the codec was built with an encoder class. */
  function HasEncoder(c: ResourceCodec): (r: bool)
    ensures r <==> c.encoder.Some?
  {
    c.encoder.Some?
  }

  /** `hasDecoder()`: the codec was built with a decoder. */
  function HasDecoder(c: ResourceCodec): (r: bool)
    ensures r <==> c.decoder.Some?
  {
    c.decoder.Some?
  }

  /** `ResourceCodec.decode(bytes)`: the decoder's result for exactly these
      bytes; a codec without a decoder dereferences null. */
  function DecodeWith(c: ResourceCodec, buf: seq<Byte>, decoders: Decoders): (r: Result<ResourceState, CodecError>)
    ensures r == Err(NullReference) <==> !HasDecoder(c)
    ensures HasDecoder(c) && decoders(c.decoder.value, buf).Ok? ==> r == Ok(decoders(c.decoder.value, buf).value)
    ensures HasDecoder(c) && decoders(c.decoder.value, buf).Err? ==>
      r == Err(DecoderFailure(decoders(c.decoder.value, buf).error))
  {
    match c.decoder
    case None => Err(NullReference)
    case Some(d) =>
      match decoders(d, buf)
      case Ok(s) => Ok(s)
      case Err(msg) => Err(DecoderFailure(msg))
  }

  /** `ResourceCodec.encode(state)`: a fresh encoder writes the driver's calls
      followed by `close()`; the result is the bytes it wrote. A codec
      without an encoder class dereferences null. */
  function EncodeWith(c: ResourceCodec, state: ResourceState, encoders: Encoders): (r: Result<seq<Byte>, CodecError>)
    ensures r == Err(NullReference) <==> !HasEncoder(c)
    ensures HasEncoder(c) ==>
      (r.Ok? <==> EncodeState(JObject(state.fields)).Ok?) &&
      (r.Ok? ==> r.value == encoders(c.encoder.value, EncodeState(JObject(state.fields)).value + [Close])) &&
      (r.Err? ==> r.error == NotEncodable(EncodeState(JObject(state.fields)).error))
  {
    match c.encoder
    case None => Err(NullReference)
    case Some(e) =>
      match CodecEncode(JObject(state.fields), evts => encoders(e, evts))
      case Ok(bytes) => Ok(bytes)
      case Err(err) => Err(NotEncodable(err))
  }

  /** `registerResourceCodec`: appends a registration. */
  function Register(m: Registry, mediaType: MediaType, c: ResourceCodec): (r: Registry)
    ensures |r| == |m| + 1 && r[..|m|] == m
    ensures r[|m|] == Registration(mediaType, c)
  {
    m + [Registration(mediaType, c)]
  }

  /** `mediaTypes()`: the registered types in registration order. */
  function MediaTypes(m: Registry): (r: seq<MediaType>)
    ensures |r| == |m|
    ensures forall i :: 0 <= i < |m| ==> r[i] == m[i].mediaType
  {
    if |m| == 0 then [] else [m[0].mediaType] + MediaTypes(m[1..])
  }

  /** `getResourceCodec(t)`: the codec of the first registration whose type
      equals `t`; null when there is none or `t` is null. */
  function GetResourceCodec(m: Registry, t: Option<MediaType>): (r: Option<ResourceCodec>)
    ensures r.Some? <==> t.Some? && t.value in MediaTypes(m)
    ensures r.Some? ==> exists i :: (0 <= i < |m| && m[i] == Registration(t.value, r.value) &&
      t.value !in MediaTypes(m[..i]))
  {
    if t.None? || |m| == 0 then None
    else if m[0].mediaType == t.value then
      assert m[0] == Registration(t.value, m[0].codec);
      assert MediaTypes(m[..0]) == [];
      Some(m[0].codec)
    else
      var r := GetResourceCodec(m[1..], t);
      assert MediaTypes(m) == [m[0].mediaType] + MediaTypes(m[1..]);
      if r.Some? then
        var i :| 0 <= i < |m[1..]| && m[1..][i] == Registration(t.value, r.value) && t.value !in MediaTypes(m[1..][..i]);
        FirstMatchShift(m, t.value, r.value, i);
        r
      else r
  }

  /** A first match in the tail, behind a head of another type, is a first
      match of the whole registry one place further on. */
  lemma FirstMatchShift(m: Registry, t: MediaType, c: ResourceCodec, i: nat)
    requires 0 < |m| && m[0].mediaType != t
    requires i < |m| - 1 && m[1..][i] == Registration(t, c) && t !in MediaTypes(m[1..][..i])
    ensures m[i + 1] == Registration(t, c) && t !in MediaTypes(m[..i + 1])
  {
    assert m[..i + 1] == [m[0]] + m[1..][..i];
    assert MediaTypes(m[..i + 1]) == [m[0].mediaType] + MediaTypes(m[1..][..i]);
  }

  /** Registering a type never changes the codec found for a type that was
      already registered: the first registration wins. */
  lemma RegisterKeepsFirst(m: Registry, mediaType: MediaType, c: ResourceCodec, t: MediaType)
    requires t in MediaTypes(m)
    ensures GetResourceCodec(Register(m, mediaType, c), Some(t)) == GetResourceCodec(m, Some(t))
  {
    var r := Register(m, mediaType, c);
    var g := GetResourceCodec(m, Some(t));
    var i :| 0 <= i < |m| && m[i] == Registration(t, g.value) && t !in MediaTypes(m[..i]);
    assert r[..i] == m[..i];
    FirstMatchAt(r, t, i);
  }

  /** A registration is found only for a type seen for the first time, and
      its type is listed last. */
  lemma RegisterAddsNew(m: Registry, mediaType: MediaType, c: ResourceCodec, t: MediaType)
    requires t !in MediaTypes(m)
    ensures t == mediaType ==> GetResourceCodec(Register(m, mediaType, c), Some(t)) == Some(c)
    ensures t != mediaType ==> GetResourceCodec(Register(m, mediaType, c), Some(t)).None?
    ensures MediaTypes(Register(m, mediaType, c)) == MediaTypes(m) + [mediaType]
  {
    var r := Register(m, mediaType, c);
    assert r[..|m|] == m;
    var ts := MediaTypes(m) + [mediaType];
    assert forall i :: 0 <= i < |r| ==> MediaTypes(r)[i] == ts[i];
    assert MediaTypes(r) == ts;
    if t == mediaType {
      FirstMatchAt(r, t, |m|);
    }
  }

  /** A registration that carries `t` and is preceded by none carrying it
      is the one `getResourceCodec` returns. */
  lemma {:induction false} FirstMatchAt(m: Registry, t: MediaType, i: nat)
    requires i < |m| && m[i].mediaType == t && t !in MediaTypes(m[..i])
    ensures GetResourceCodec(m, Some(t)) == Some(m[i].codec)
  {
    if i > 0 {
      var p := m[..i];
      assert MediaTypes(p) == [p[0].mediaType] + MediaTypes(p[1..]);
      assert p[1..] == m[1..][..i - 1];
      FirstMatchAt(m[1..], t, i - 1);
    }
  }

  /** `decode(type, buf)`. A null buffer is read as an empty one. An
      octet-stream body becomes a binary state holding the buffer, without
      looking at the registry. Otherwise the codec registered first for the
      type decodes it, and a missing codec or decoder is unsupported. */
  function Decode(m: Registry, t: Option<MediaType>, buf: Option<seq<Byte>>, decoders: Decoders): (r: Result<ResourceState, CodecError>)
    ensures t == Some(OctetStream) ==> r == Ok(NewBinary(Some(buf.GetOr([]))))
    ensures t != Some(OctetStream) ==>
      (r == Err(UnsupportedMediaType) <==> GetResourceCodec(m, t).None? || !HasDecoder(GetResourceCodec(m, t).value))
    ensures t != Some(OctetStream) && r.Ok? ==> exists i :: (0 <= i < |m| && m[i].mediaType == t.value &&
      HasDecoder(m[i].codec) && decoders(m[i].codec.decoder.value, buf.GetOr([])) == Ok(r.value))
    ensures t != Some(OctetStream) && GetResourceCodec(m, t).Some? && HasDecoder(GetResourceCodec(m, t).value) ==>
      var d := decoders(GetResourceCodec(m, t).value.decoder.value, buf.GetOr([]));
      (d.Ok? ==> r == Ok(d.value)) && (d.Err? ==> r == Err(DecoderFailure(d.error)))
  {
    var bytes := buf.GetOr([]);
    if t == Some(OctetStream) then Ok(NewBinary(Some(bytes)))
    else
      match GetResourceCodec(m, t)
      case None => Err(UnsupportedMediaType)
      case Some(c) =>
        if !HasDecoder(c) then Err(UnsupportedMediaType)
        else DecodeWith(c, bytes, decoders)
  }

  /** A null body decodes exactly like an empty one. */
  lemma NullBufferIsEmpty(m: Registry, t: Option<MediaType>, decoders: Decoders)
    ensures Decode(m, t, None, decoders) == Decode(m, t, Some([]), decoders)
  {
  }

  /** A text/html codec registered with an encoder but no decoder cannot
      decode an HTML body. */
  lemma DecodeWithoutDecoder(html: ResourceCodec, buf: seq<Byte>, decoders: Decoders)
    requires html.encoder.Some? && html.decoder.None?
    ensures Decode([Registration(HtmlType, html)], Some(HtmlType), Some(buf), decoders) == Err(UnsupportedMediaType)
  {
    assert MediaTypes([Registration(HtmlType, html)]) == [HtmlType];
  }

  /** What `encode` needs to know about a response: the media type of its
      resource when that resource is a `BinaryResource`, whether it is an
      error response, and its state. */
  datatype Outgoing = Outgoing(binaryType: Option<MediaType>, isError: bool, state: ResourceState)

  /** An `EncodingResult`: the negotiated type and the encoded bytes, null
      for a binary resource, whose content is streamed separately. */
  datatype EncodingResult = EncodingResult(mediaType: MediaType, encoded: Option<seq<Byte>>)

  /** The type and codec used for a negotiated type: its own codec when one is
      registered, otherwise the JSON codec under the JSON type (null when
      JSON is not registered either). */
  function ChosenCodec(m: Registry, best: Option<MediaType>): (r: (MediaType, Option<ResourceCodec>))
    ensures GetResourceCodec(m, best).Some? ==> r == (best.value, GetResourceCodec(m, best))
    ensures GetResourceCodec(m, best).None? ==> r == (JsonType, GetResourceCodec(m, Some(JsonType)))
  {
    match GetResourceCodec(m, best)
    case Some(c) => (best.value, Some(c))
    case None => (JsonType, GetResourceCodec(m, Some(JsonType)))
  }

  /** `encode(ctx, matcher, response)`. A binary resource is negotiated only
      against its own type and is never encoded here. Otherwise the best of
      the registered types is chosen; lacking one, only an error response
      goes on, falling back to JSON like any type without a codec. */
  function Encode(m: Registry, matcher: Matcher, resp: Outgoing, encoders: Encoders): (r: Result<EncodingResult, CodecError>)
    ensures resp.binaryType.Some? ==>
      (r.Ok? <==> matcher([resp.binaryType.value]).Some?) &&
      (r.Ok? ==> r.value == EncodingResult(matcher([resp.binaryType.value]).value, None)) &&
      (r.Err? ==> r.error == IncompatibleMediaType)
    ensures resp.binaryType.None? && matcher(MediaTypes(m)).None? && !resp.isError ==>
      r == Err(UnsupportedMediaType)
    ensures resp.binaryType.None? && r.Ok? ==>
      r.value.encoded.Some? &&
      (r.value.mediaType == JsonType || matcher(MediaTypes(m)) == Some(r.value.mediaType)) &&
      r.value.mediaType in MediaTypes(m)
    ensures resp.binaryType.None? && (resp.isError || matcher(MediaTypes(m)).Some?) ==>
      (r == Err(NullReference) <==> ChosenCodec(m, matcher(MediaTypes(m))).1.None?)
    ensures r.Ok? && r.value.encoded.Some? ==>
      var c := ChosenCodec(m, matcher(MediaTypes(m)));
      c.1.Some? && c.0 == r.value.mediaType &&
      EncodeWith(c.1.value, resp.state, encoders) == Ok(r.value.encoded.value)
    ensures (resp.binaryType.None? && (resp.isError || matcher(MediaTypes(m)).Some?) &&
             ChosenCodec(m, matcher(MediaTypes(m))).1.Some?) ==>
      var c := ChosenCodec(m, matcher(MediaTypes(m)));
      var w := EncodeWith(c.1.value, resp.state, encoders);
      (!HasEncoder(c.1.value) ==> r == Err(UnsupportedMediaType)) &&
      (HasEncoder(c.1.value) && w.Ok? ==> r == Ok(EncodingResult(c.0, Some(w.value)))) &&
      (HasEncoder(c.1.value) && w.Err? ==> r == Err(w.error))
  {
    if resp.binaryType.Some? then
      match matcher([resp.binaryType.value])
      case Some(t) => Ok(EncodingResult(t, None))
      case None => Err(IncompatibleMediaType)
    else
      var best := matcher(MediaTypes(m));
      if best.None? && !resp.isError then Err(UnsupportedMediaType)
      else
        var chosen := ChosenCodec(m, best);
        match chosen.1
        case None => Err(NullReference)
        case Some(c) =>
          if !HasEncoder(c) then Err(UnsupportedMediaType)
          else
            var bytes :- EncodeWith(c, resp.state, encoders);
            Ok(EncodingResult(chosen.0, Some(bytes)))
  }

  /** An error response for which no acceptable type exists is still encoded,
      as JSON, when a JSON codec with an encoder is registered. */
  lemma ErrorResponseFallsBackToJson(m: Registry, matcher: Matcher, resp: Outgoing, encoders: Encoders)
    requires resp.binaryType.None? && resp.isError && matcher(MediaTypes(m)).None?
    requires GetResourceCodec(m, Some(JsonType)).Some? && HasEncoder(GetResourceCodec(m, Some(JsonType)).value)
    requires EncodeState(JObject(resp.state.fields)).Ok?
    ensures Encode(m, matcher, resp, encoders).Ok?
    ensures Encode(m, matcher, resp, encoders).value.mediaType == JsonType
  {
  }

  /** A JSON codec registered without an encoder cannot encode a read
      response, even when the client accepts JSON. */
  lemma EncodeWithoutEncoder(json: ResourceCodec, matcher: Matcher, s: ResourceState, encoders: Encoders)
    requires json.encoder.None?
    requires matcher([JsonType]) == Some(JsonType)
    ensures Encode([Registration(JsonType, json)], matcher, Outgoing(None, false, s), encoders) == Err(UnsupportedMediaType)
  {
    assert MediaTypes([Registration(JsonType, json)]) == [JsonType];
  }

  /** `determineMediaType(accept, extension)`: JSON when neither is given,
      otherwise the best registered type for a matcher built from them. */
  function DetermineMediaType(m: Registry, accept: Option<string>, extension: Option<string>,
                              matcherOf: (Option<string>, Option<string>) -> Matcher): (r: Option<MediaType>)
    ensures accept.None? && extension.None? ==> r == Some(JsonType)
    ensures accept.Some? || extension.Some? ==> r == matcherOf(accept, extension)(MediaTypes(m))
  {
    if accept.None? && extension.None? then Some(JsonType)
    else matcherOf(accept, extension)(MediaTypes(m))
  }

  /** With neither an Accept header nor an extension the answer is JSON,
      whatever is registered, even when no JSON codec exists. */
  lemma DefaultMediaTypeIsJson(m1: Registry, m2: Registry, matcherOf: (Option<string>, Option<string>) -> Matcher)
    ensures DetermineMediaType(m1, None, None, matcherOf) == DetermineMediaType(m2, None, None, matcherOf) == Some(JsonType)
  {
  }
}

=== FILE: encoding.dfy ===
/** `StateEncodingDriver`: walks a resource state and emits the sequence of
    encoder calls that a concrete encoder (JSON, HTML, ...) turns into bytes.
    The encoder itself is outside this model; its calls are recorded as events. */
module Encoding {
  import opened Wrappers
  import opened JavaInt
  import opened Json
  import opened State

  /** One call on the `StateEncoder`. A `Map` value is known by reference only. */
  datatype Event =
    | StartResource(fields: Fields)
    | EndResource(fields: Fields)
    | StartProperties
    | EndProperties
    | StartProperty(name: string)
    | EndProperty(name: string)
    | StartMembers
    | EndMembers
    | StartList
    | EndList
    | WriteText(text: string)
    | WriteInt(i: int)
    | WriteDouble(num: int, den: Positive, printed: string)
    | WriteLong(l: int)
    | WriteBool(b: bool)
    | WriteDate(millis: int)
    | WriteMap(ref: nat)
    | WriteNull
    | Close

  /** `NonEncodableValueException`, or the cast failure `members()` raises on
      a malformed "_members" array. */
  datatype EncodeError = NonEncodable | CastFailure

  /** A Java value handed to `encodeValue`: a state, a JSON node, a Date (as
      epoch milliseconds), a URI (as its path), a Map, a Collection, null, or
      an object of any other class. */
  datatype JavaValue =
    | VState(obj: Json)
    | VNode(node: Json)
    | VDate(millis: int)
    | VUri(path: string)
    | VMap(ref: nat)
    | VCollection(items: seq<JavaValue>)
    | VNull
    | VOther

  /** The node kinds `encodeValue` can write. */
  predicate Encodable(j: Json) {
    IsTextual(j) || CanConvertToInt(j) || IsDouble(j) || CanConvertToLong(j) || IsBoolean(j)
  }

  /** The JSON-node branch of `encodeValue`: text, then int-convertible, then
      double, then long-convertible, then boolean; any other node (object,
      array, null) is not encodable. */
  function EncodeNode(j: Json): (r: Result<Event, EncodeError>)
    ensures r.Ok? <==> Encodable(j)
    ensures r.Err? ==> r.error == NonEncodable
    ensures r.Ok? && r.value.WriteInt? ==> InInt32(r.value.i)
    ensures r.Ok? && r.value.WriteLong? ==> InInt64(r.value.l)
    ensures IsTextual(j) ==> r == Ok(WriteText(AsText(j)))
    ensures IsBoolean(j) ==> r == Ok(WriteBool(j.b))
  {
    if IsTextual(j) then Ok(WriteText(AsText(j)))
    else if CanConvertToInt(j) then TruncatedInRange(j); Ok(WriteInt(Truncated(j)))
    else if IsDouble(j) then Ok(WriteDouble(j.num, j.den, j.printed))
    else if CanConvertToLong(j) then TruncatedInRange(j); Ok(WriteLong(Truncated(j)))
    else if IsBoolean(j) then Ok(WriteBool(j.b))
    else Err(NonEncodable)
  }

  /** The int branch comes before the double branch: a double within the int
      range is written as an int, rounded toward zero, while one beyond the
      long range is written as a double. */
  lemma IntBranchShadowsDouble()
    ensures EncodeNode(JFraction(DoubleNode, 3, 2, "1.5")) == Ok(WriteInt(1))
    ensures EncodeNode(JFraction(DoubleNode, -7, 2, "-3.5")) == Ok(WriteInt(-3))
    ensures EncodeNode(JFraction(DoubleNode, MaxLong * 2, 1, "1.8446744073709552E19")).Ok?
    ensures EncodeNode(JFraction(DoubleNode, MaxLong * 2, 1, "1.8446744073709552E19")).value.WriteDouble?
  {
  }

  /** A long beyond the int range is written as a long; a float beyond the
      long range cannot be written at all. */
  lemma LongAndFloatBranches()
    ensures EncodeNode(JIntegral(LongNode, MaxInt + 1)) == Ok(WriteLong(MaxInt + 1))
    ensures EncodeNode(JFraction(FloatNode, MaxLong * 2, 1, "1.8446744E19")) == Err(NonEncodable)
    ensures EncodeNode(JNull) == Err(NonEncodable)
  {
  }

  /** Property encoding: `startProperties`, then for each field from position
      `i` on `startProperty(n)`, its value, `endProperty(n)`. With `skip`, the
      "_members" field is passed over. */
  function EncodeFields(f: Fields, i: nat, skip: bool): (r: Result<seq<Event>, EncodeError>)
    requires i <= |f|
    ensures r.Ok? <==> forall k :: i <= k < |f| && !(skip && f[k].0 == MembersField) ==> Encodable(f[k].1)
    ensures r.Err? ==> r.error == NonEncodable
    decreases |f| - i
  {
    if i == |f| then Ok([])
    else if skip && f[i].0 == MembersField then EncodeFields(f, i + 1, skip)
    else
      match EncodeNode(f[i].1)
      case Err(e) => Err(e)
      case Ok(w) =>
        match EncodeFields(f, i + 1, skip)
        case Err(e) => Err(e)
        case Ok(rest) => Ok([StartProperty(f[i].0), w, EndProperty(f[i].0)] + rest)
  }

  /** The names of the properties an event sequence opens, in order. */
  function PropertyNames(evts: seq<Event>): seq<string>
  {
    if |evts| == 0 then []
    else (if evts[0].StartProperty? then [evts[0].name] else []) + PropertyNames(evts[1..])
  }

  lemma PropertyNamesAppend(a: seq<Event>, b: seq<Event>)
    ensures PropertyNames(a + b) == PropertyNames(a) + PropertyNames(b)
  {
    if |a| > 0 {
      assert (a + b)[1..] == a[1..] + b;
    } else {
      assert a + b == b;
    }
  }

  /** The field names of `f` from position `i` on, omitting "_members" when
      `skip` holds. */
  function VisitedNames(f: Fields, i: nat, skip: bool): seq<string>
    requires i <= |f|
    decreases |f| - i
  {
    if i == |f| then []
    else if skip && f[i].0 == MembersField then VisitedNames(f, i + 1, skip)
    else [f[i].0] + VisitedNames(f, i + 1, skip)
  }

  /** The properties block visits the fields in field order, each once. */
  lemma {:induction false} FieldsVisitedInOrder(f: Fields, i: nat, skip: bool)
    requires i <= |f| && EncodeFields(f, i, skip).Ok?
    ensures PropertyNames(EncodeFields(f, i, skip).value) == VisitedNames(f, i, skip)
    decreases |f| - i
  {
    if i < |f| {
      FieldsVisitedInOrder(f, i + 1, skip);
      if !(skip && f[i].0 == MembersField) {
        var w := EncodeNode(f[i].1).value;
        var rest := EncodeFields(f, i + 1, skip).value;
        assert !w.StartProperty?;
        PropertyNamesAppend([StartProperty(f[i].0), w, EndProperty(f[i].0)], rest);
        PropertyTripleNames(f[i].0, w);
      }
    }
  }

  /** One property's events open exactly that property. */
  lemma PropertyTripleNames(n: string, w: Event)
    requires !w.StartProperty?
    ensures PropertyNames([StartProperty(n), w, EndProperty(n)]) == [n]
  {
    var triple := [StartProperty(n), w, EndProperty(n)];
    PropertyNamesAppend([StartProperty(n)], [w, EndProperty(n)]);
    PropertyNamesAppend([w], [EndProperty(n)]);
    assert triple == [StartProperty(n)] + [w, EndProperty(n)];
    assert [w, EndProperty(n)] == [w] + [EndProperty(n)];
    PropertyNamesSingle(StartProperty(n));
    PropertyNamesSingle(w);
    PropertyNamesSingle(EndProperty(n));
  }

  lemma PropertyNamesSingle(e: Event)
    ensures PropertyNames([e]) == if e.StartProperty? then [e.name] else []
  {
    assert [e][1..] == [];
  }

  /** `encodeProperties`: nothing when no field is visited, otherwise the
      visited fields wrapped in `startProperties` / `endProperties`. */
  function PropertiesBlock(f: Fields, skip: bool): (r: Result<seq<Event>, EncodeError>)
    ensures |VisitedNames(f, 0, skip)| == 0 ==> r == Ok([])
    ensures r.Ok? <==> EncodeFields(f, 0, skip).Ok?
    ensures r.Ok? && |VisitedNames(f, 0, skip)| > 0 ==>
      r.value == [StartProperties] + EncodeFields(f, 0, skip).value + [EndProperties]
  {
    if |VisitedNames(f, 0, skip)| == 0 then
      NothingVisited(f, 0, skip);
      Ok([])
    else
      var body :- EncodeFields(f, 0, skip);
      Ok([StartProperties] + body + [EndProperties])
  }

  lemma {:induction false} NothingVisited(f: Fields, i: nat, skip: bool)
    requires i <= |f| && |VisitedNames(f, i, skip)| == 0
    ensures EncodeFields(f, i, skip) == Ok([])
    decreases |f| - i
  {
    if i < |f| {
      NothingVisited(f, i + 1, skip);
    }
  }

  /** As written, every field is visited, so the block is present exactly
      when the object has a field. */
  lemma {:induction false} AllFieldsVisited(f: Fields, i: nat)
    requires i <= |f|
    ensures |VisitedNames(f, i, false)| == |f| - i
    decreases |f| - i
  {
    if i < |f| {
      AllFieldsVisited(f, i + 1);
    }
  }

  /** The position of the "_members" array among the fields, if the field
      exists and is an array. */
  function MembersArrayAt(f: Fields): (r: Option<nat>)
    ensures r.Some? ==> r.value < |f| && f[r.value].0 == MembersField && f[r.value].1.JArray?
  {
    match IndexOf(f, MembersField)
    case Some(k) => if f[k].1.JArray? then Some(k) else None
    case None => None
  }

  /** `encodeState`: `startResource`, the properties, the members (only when
      `members()` is non-empty, each as a nested resource in order),
      `endResource`. `skip` selects the corrected property walk. */
  function Drive(obj: Json, skip: bool): (r: Result<seq<Event>, EncodeError>)
    requires obj.JObject?
    ensures r.Ok? ==> (|r.value| >= 2 && r.value[0] == StartResource(obj.fields) &&
      r.value[|r.value| - 1] == EndResource(obj.fields))
    ensures r.Ok? <==> PropertiesBlock(obj.fields, skip).Ok? && MembersBlock(obj, skip).Ok?
    ensures r.Ok? ==> (r.value ==
      [StartResource(obj.fields)] + PropertiesBlock(obj.fields, skip).value + MembersBlock(obj, skip).value +
      [EndResource(obj.fields)])
    decreases obj, 1
  {
    var f := obj.fields;
    var props :- PropertiesBlock(f, skip);
    var members :- MembersBlock(obj, skip);
    Ok([StartResource(f)] + props + members + [EndResource(f)])
  }

  /** `encodeMembers`: nothing when `members()` is empty, otherwise the
      members between `startMembers` and `endMembers`; a "_members" array
      holding a non-object fails the cast in `members()`. */
  function MembersBlock(obj: Json, skip: bool): (r: Result<seq<Event>, EncodeError>)
    requires obj.JObject?
    ensures Members(Plain(obj.fields)).Err? ==> r == Err(CastFailure)
    ensures Members(Plain(obj.fields)) == Ok([]) ==> r == Ok([])
    ensures r.Ok? && r.value != [] ==>
      |r.value| >= 2 && r.value[0] == StartMembers && r.value[|r.value| - 1] == EndMembers
    decreases obj, 0
  {
    match Members(Plain(obj.fields))
    case Err(_) => Err(CastFailure)
    case Ok(ms) =>
      if |ms| == 0 then Ok([])
      else
        var k := MembersArrayAt(obj.fields).value;
        var body :- EncodeItems(obj, k, 0, skip);
        Ok([StartMembers] + body + [EndMembers])
  }

  /** The member loop of `encodeMembers` from member `i` on: each member
      written as a resource of its own. */
  function EncodeItems(obj: Json, k: nat, i: nat, skip: bool): (r: Result<seq<Event>, EncodeError>)
    requires obj.JObject? && k < |obj.fields| && obj.fields[k].1.JArray?
    requires forall j :: 0 <= j < |obj.fields[k].1.items| ==> obj.fields[k].1.items[j].JObject?
    ensures i >= |obj.fields[k].1.items| ==> r == Ok([])
    ensures r.Ok? && i < |obj.fields[k].1.items| ==>
      |r.value| >= 2 && r.value[0] == StartResource(obj.fields[k].1.items[i].fields)
    decreases obj, 0, |obj.fields[k].1.items| - i
  {
    var items := obj.fields[k].1.items;
    if i >= |items| then Ok([])
    else
      assert items[i] < obj.fields[k].1;
      assert obj.fields[k].1 < obj.fields[k];
      var first :- Drive(items[i], skip);
      var rest :- EncodeItems(obj, k, i + 1, skip);
      Ok(first + rest)
  }

  /** The driver as written: `encodeProperties` walks every field, the
      "_members" array included. */
  function EncodeState(obj: Json): (r: Result<seq<Event>, EncodeError>)
    requires obj.JObject?
    ensures r.Ok? ==> forall k :: 0 <= k < |obj.fields| ==> Encodable(obj.fields[k].1)
    ensures r.Ok? ==> |r.value| >= 2 && r.value[0] == StartResource(obj.fields)
  {
    Drive(obj, false)
  }

  /** The driver with the property walk passing over "_members", so members
      are written only through `encodeMembers`. */
  function EncodeStateCorrected(obj: Json): (r: Result<seq<Event>, EncodeError>)
    requires obj.JObject?
    ensures r.Ok? ==> forall k :: 0 <= k < |obj.fields| && obj.fields[k].0 != MembersField ==> Encodable(obj.fields[k].1)
    ensures r.Ok? ==> |r.value| >= 2 && r.value[0] == StartResource(obj.fields)
  {
    Drive(obj, true)
  }

  /** As written, a state that has a member can never be encoded: the
      property walk reaches the "_members" array first and an array node is
      not encodable. */
  lemma {:induction false} MembersBreakEncoding(s: ResourceState, m: ResourceState)
    requires s.Valid() && AddMember(s, m).Ok?
    ensures EncodeState(JObject(AddMember(s, m).value.fields)) == Err(NonEncodable)
  {
    var t := AddMember(s, m).value;
    var node := Get(t.fields, MembersField).value;
    assert node.JArray?;
    var k := IndexOf(t.fields, MembersField).value;
    assert t.fields[k].1 == node;
    assert !Encodable(t.fields[k].1);
  }

  lemma {:induction false} VisitedAllNames(f: Fields, i: nat)
    requires i <= |f|
    ensures VisitedNames(f, i, false) == Names(f[i..])
    decreases |f| - i
  {
    if i < |f| {
      VisitedAllNames(f, i + 1);
      assert f[i..][1..] == f[i + 1..];
    } else {
      assert f[i..] == [];
    }
  }

  /** A state whose fields all hold encodable scalars has no members block:
      "_members", if present, is a scalar, so `members()` is empty. */
  lemma ScalarMembersEmpty(obj: Json)
    requires obj.JObject? && forall k :: 0 <= k < |obj.fields| ==> Encodable(obj.fields[k].1)
    ensures MembersBlock(obj, false) == Ok([])
  {
    var f := obj.fields;
    if IndexOf(f, MembersField).Some? {
      assert !f[IndexOf(f, MembersField).value].1.JArray?;
    }
    assert Members(Plain(f)) == Ok([]);
  }

  /** The plain properties block names every field, in field order. */
  lemma PropertiesBlockNames(f: Fields)
    requires PropertiesBlock(f, false).Ok?
    ensures PropertyNames(PropertiesBlock(f, false).value) == Names(f)
  {
    FieldsVisitedInOrder(f, 0, false);
    VisitedAllNames(f, 0);
    assert f[0..] == f;
    if |VisitedNames(f, 0, false)| > 0 {
      var body := EncodeFields(f, 0, false).value;
      var props := PropertiesBlock(f, false).value;
      assert props == [StartProperties] + (body + [EndProperties]);
      PropertyNamesAppend([StartProperties], body + [EndProperties]);
      PropertyNamesAppend(body, [EndProperties]);
      PropertyNamesSingle(StartProperties);
      PropertyNamesSingle(EndProperties);
    }
  }

  /** As written, a state whose fields all hold encodable scalars encodes
      successfully, with no members block, and its properties appear in
      field order. */
  lemma ScalarStateEncoding(obj: Json)
    requires obj.JObject? && forall k :: 0 <= k < |obj.fields| ==> Encodable(obj.fields[k].1)
    ensures EncodeState(obj).Ok?
    ensures PropertyNames(EncodeState(obj).value) == Names(obj.fields)
  {
    var f := obj.fields;
    assert EncodeFields(f, 0, false).Ok?;
    ScalarMembersEmpty(obj);
    var props := PropertiesBlock(f, false).value;
    var none: seq<Event> := [];
    var evts := EncodeState(obj).value;
    assert evts == [StartResource(f)] + props + none + [EndResource(f)];
    assert evts == [StartResource(f)] + (props + [EndResource(f)]);
    PropertyNamesAppend([StartResource(f)], props + [EndResource(f)]);
    PropertyNamesAppend(props, [EndResource(f)]);
    PropertyNamesSingle(StartResource(f));
    PropertyNamesSingle(EndResource(f));
    PropertiesBlockNames(f);
  }

  /** The corrected driver writes a state holding one empty member as a
      resource containing one nested resource. */
  lemma CorrectedEncodesMembers()
    ensures var s := AddMember(Empty(), Empty()).value;
      EncodeStateCorrected(JObject(s.fields)) ==
        Ok([StartResource(s.fields), StartMembers, StartResource([]), EndResource([]), EndMembers, EndResource(s.fields)])
  {
    var s := AddMember(Empty(), Empty()).value;
    var f := s.fields;
    assert f == [(MembersField, JArray([JObject([])]))];
    var obj := JObject(f);
    assert VisitedNames(f, 1, true) == [];
    assert VisitedNames(f, 0, true) == [];
    assert PropertiesBlock(f, true) == Ok([]);
    assert StatesOf([]) == Ok([]);
    assert [JObject([])][1..] == [];
    assert StatesOf([JObject([])]) == Ok([Plain([])] + []);
    assert [Plain([])] + [] == [Plain([])];
    assert Members(Plain(f)) == Ok([Plain([])]);
    assert MembersArrayAt(f) == Some(0);
    var none: seq<Event> := [];
    assert Members(Plain([])) == Ok([]);
    assert MembersBlock(JObject([]), true) == Ok([]);
    assert PropertiesBlock([], true) == Ok([]);
    assert Drive(JObject([]), true) == Ok([StartResource([])] + none + none + [EndResource([])]);
    assert [StartResource([])] + none + none + [EndResource([])] == [StartResource([]), EndResource([])];
    assert EncodeItems(obj, 0, 1, true) == Ok([]);
    assert EncodeItems(obj, 0, 0, true) == Ok([StartResource([]), EndResource([])] + none);
    assert [StartResource([]), EndResource([])] + none == [StartResource([]), EndResource([])];
    var inner := [StartMembers] + [StartResource([]), EndResource([])] + [EndMembers];
    assert MembersBlock(obj, true) == Ok(inner);
    assert Drive(obj, true) == Ok([StartResource(f)] + none + inner + [EndResource(f)]);
    assert [StartResource(f)] + none + inner + [EndResource(f)] ==
      [StartResource(f), StartMembers, StartResource([]), EndResource([]), EndMembers, EndResource(f)];
  }

  /** `encodeValue` on an arbitrary Java value. */
  function EncodeValue(v: JavaValue, skip: bool): (r: Result<seq<Event>, EncodeError>)
    ensures v.VDate? ==> r == Ok([WriteDate(v.millis)])
    ensures v.VUri? ==> r == Ok([WriteText(v.path)])
    ensures v.VMap? ==> r == Ok([WriteMap(v.ref)])
    ensures v.VNull? ==> r == Ok([WriteNull])
    ensures v.VOther? ==> r == Err(NonEncodable)
    ensures v.VNode? ==> (r.Ok? <==> Encodable(v.node))
    ensures v.VCollection? && r.Ok? ==> |r.value| >= 2 && r.value[0] == StartList && r.value[|r.value| - 1] == EndList
    ensures v.VCollection? ==> (r.Ok? <==> EncodeList(v, 0, skip).Ok?)
    ensures v.VState? && v.obj.JObject? ==> r == Drive(v.obj, skip)
    ensures v.VState? && !v.obj.JObject? ==> r == Err(NonEncodable)
    decreases v, 1
  {
    match v
    case VState(obj) => if obj.JObject? then Drive(obj, skip) else Err(NonEncodable)
    case VNode(j) => var w :- EncodeNode(j); Ok([w])
    case VDate(d) => Ok([WriteDate(d)])
    case VUri(p) => Ok([WriteText(p)])
    case VMap(m) => Ok([WriteMap(m)])
    case VCollection(xs) => var body :- EncodeList(v, 0, skip); Ok([StartList] + body + [EndList])
    case VNull => Ok([WriteNull])
    case VOther => Err(NonEncodable)
  }

  /** The element loop of `encodeList` from element `i` on; it fails when
      some element cannot be encoded. */
  function EncodeList(v: JavaValue, i: nat, skip: bool): (r: Result<seq<Event>, EncodeError>)
    requires v.VCollection?
    ensures i >= |v.items| ==> r == Ok([])
    ensures r.Ok? ==> forall j :: i <= j < |v.items| ==> EncodeValue(v.items[j], skip).Ok?
    decreases v, 0, |v.items| - i
  {
    if i >= |v.items| then Ok([])
    else
      var first :- EncodeValue(v.items[i], skip);
      var rest :- EncodeList(v, i + 1, skip);
      Ok(first + rest)
  }

  /** A list of nulls writes one null per element between `startList` and
      `endList`. */
  lemma {:induction false} NullListEncoding(v: JavaValue, i: nat)
    requires v.VCollection? && i <= |v.items|
    requires forall j :: 0 <= j < |v.items| ==> v.items[j] == VNull
    ensures EncodeList(v, i, false) == Ok(seq(|v.items| - i, _ => WriteNull))
    decreases |v.items| - i
  {
    if i < |v.items| {
      NullListEncoding(v, i + 1);
      var rest := seq(|v.items| - (i + 1), _ => WriteNull);
      assert EncodeValue(v.items[i], false) == Ok([WriteNull]);
      assert EncodeList(v, i, false) == Ok([WriteNull] + rest);
      assert [WriteNull] + rest == seq(|v.items| - i, _ => WriteNull);
    } else {
      var none: seq<Event> := [];
      assert seq(|v.items| - i, _ => WriteNull) == none;
    }
  }

  /** Event sequences written one after another. */
  function Concat(parts: seq<seq<Event>>): (r: seq<Event>)
    decreases |parts|
  {
    if |parts| == 0 then [] else parts[0] + Concat(parts[1..])
  }

  /** The events of an encoding that succeeded; none for one that failed. */
  function EventsOf(r: Result<seq<Event>, EncodeError>): seq<Event> {
    if r.Ok? then r.value else []
  }

  /** Each value's own encoding, in list order. */
  function ValueEncodings(xs: seq<JavaValue>, skip: bool): (r: seq<seq<Event>>)
    ensures |r| == |xs| && forall j :: 0 <= j < |xs| ==> r[j] == EventsOf(EncodeValue(xs[j], skip))
  {
    seq(|xs|, j requires 0 <= j < |xs| => EventsOf(EncodeValue(xs[j], skip)))
  }

  /** Each member's own encoding as a resource, in member order. */
  function MemberEncodings(ms: seq<ResourceState>, skip: bool): (r: seq<seq<Event>>)
    ensures |r| == |ms| && forall j :: 0 <= j < |ms| ==> r[j] == EventsOf(Drive(JObject(ms[j].fields), skip))
  {
    seq(|ms|, j requires 0 <= j < |ms| => EventsOf(Drive(JObject(ms[j].fields), skip)))
  }

  /** The element loop succeeds exactly when every remaining element can be
      encoded, and then writes their encodings in list order. */
  lemma {:induction false} EncodeListInOrder(v: JavaValue, i: nat, skip: bool)
    requires v.VCollection? && i <= |v.items|
    ensures EncodeList(v, i, skip).Ok? <==> forall j :: i <= j < |v.items| ==> EncodeValue(v.items[j], skip).Ok?
    ensures EncodeList(v, i, skip).Ok? ==> EncodeList(v, i, skip).value == Concat(ValueEncodings(v.items[i..], skip))
    decreases |v.items| - i
  {
    if i < |v.items| {
      EncodeListInOrder(v, i + 1, skip);
      ValueEncodingsSplit(v.items, i, skip);
      var first := EncodeValue(v.items[i], skip);
      var rest := EncodeList(v, i + 1, skip);
      assert EncodeList(v, i, skip) ==
        if first.Err? then Err(first.error) else if rest.Err? then Err(rest.error) else Ok(first.value + rest.value);
    } else {
      assert ValueEncodings(v.items[i..], skip) == [];
    }
  }

  /** The encodings from element `i` on are element `i`'s, then the rest. */
  lemma ValueEncodingsSplit(xs: seq<JavaValue>, i: nat, skip: bool)
    requires i < |xs|
    ensures Concat(ValueEncodings(xs[i..], skip)) ==
      EventsOf(EncodeValue(xs[i], skip)) + Concat(ValueEncodings(xs[i + 1..], skip))
  {
    var es := ValueEncodings(xs[i..], skip);
    assert es[1..] == ValueEncodings(xs[i + 1..], skip);
  }

  /** `encodeList`: a collection is written as `startList`, each element's
      encoding in list order, then `endList`; it fails exactly when some
      element cannot be encoded. */
  lemma EncodeCollectionInOrder(v: JavaValue, skip: bool)
    requires v.VCollection?
    ensures EncodeValue(v, skip).Ok? <==> forall j :: 0 <= j < |v.items| ==> EncodeValue(v.items[j], skip).Ok?
    ensures EncodeValue(v, skip).Ok? ==>
      EncodeValue(v, skip).value == [StartList] + Concat(ValueEncodings(v.items, skip)) + [EndList]
  {
    EncodeListInOrder(v, 0, skip);
    assert v.items[0..] == v.items;
  }

  /** The member loop succeeds exactly when every remaining member can be
      encoded, and then writes their encodings in member order. */
  lemma {:induction false} EncodeItemsInOrder(obj: Json, k: nat, i: nat, skip: bool, ms: seq<ResourceState>)
    requires obj.JObject? && k < |obj.fields| && obj.fields[k].1.JArray?
    requires |ms| == |obj.fields[k].1.items| && i <= |ms|
    requires forall j :: 0 <= j < |ms| ==> obj.fields[k].1.items[j] == JObject(ms[j].fields)
    ensures EncodeItems(obj, k, i, skip).Ok? <==> forall j :: i <= j < |ms| ==> Drive(JObject(ms[j].fields), skip).Ok?
    ensures EncodeItems(obj, k, i, skip).Ok? ==> EncodeItems(obj, k, i, skip).value == Concat(MemberEncodings(ms[i..], skip))
    decreases |ms| - i
  {
    if i < |ms| {
      EncodeItemsInOrder(obj, k, i + 1, skip, ms);
      MemberEncodingsSplit(ms, i, skip);
    } else {
      assert MemberEncodings(ms[i..], skip) == [];
    }
  }

  /** The encodings from member `i` on are member `i`'s, then the rest. */
  lemma MemberEncodingsSplit(ms: seq<ResourceState>, i: nat, skip: bool)
    requires i < |ms|
    ensures Concat(MemberEncodings(ms[i..], skip)) ==
      EventsOf(Drive(JObject(ms[i].fields), skip)) + Concat(MemberEncodings(ms[i + 1..], skip))
  {
    var es := MemberEncodings(ms[i..], skip);
    assert es[1..] == MemberEncodings(ms[i + 1..], skip);
  }

  /** `encodeMembers` over all inputs: the cast failure of `members()`,
      nothing for no members, and otherwise each member of `members()` as a
      nested resource, in member order, between `startMembers` and
      `endMembers`. */
  lemma MembersBlockInOrder(obj: Json, skip: bool)
    requires obj.JObject?
    ensures Members(Plain(obj.fields)).Err? ==> MembersBlock(obj, skip) == Err(CastFailure)
    ensures Members(Plain(obj.fields)).Ok? && |Members(Plain(obj.fields)).value| == 0 ==> MembersBlock(obj, skip) == Ok([])
    ensures Members(Plain(obj.fields)).Ok? && |Members(Plain(obj.fields)).value| > 0 ==>
      var ms := Members(Plain(obj.fields)).value;
      (MembersBlock(obj, skip).Ok? <==> forall j :: 0 <= j < |ms| ==> Drive(JObject(ms[j].fields), skip).Ok?) &&
      (MembersBlock(obj, skip).Ok? ==>
        MembersBlock(obj, skip).value == [StartMembers] + Concat(MemberEncodings(ms, skip)) + [EndMembers])
  {
    var m := Members(Plain(obj.fields));
    if m.Ok? && |m.value| > 0 {
      MembersOfArray(obj, skip, m.value);
    }
  }

  /** `encodeMembers` when `members()` is not empty: the members come from
      the "_members" array, which the loop walks in order. */
  lemma MembersOfArray(obj: Json, skip: bool, ms: seq<ResourceState>)
    requires obj.JObject? && Members(Plain(obj.fields)) == Ok(ms) && |ms| > 0
    ensures MembersBlock(obj, skip).Ok? <==> forall j :: 0 <= j < |ms| ==> Drive(JObject(ms[j].fields), skip).Ok?
    ensures MembersBlock(obj, skip).Ok? ==>
      MembersBlock(obj, skip).value == [StartMembers] + Concat(MemberEncodings(ms, skip)) + [EndMembers]
  {
    var f := obj.fields;
    var k := IndexOf(f, MembersField).value;
    assert Get(f, MembersField) == Some(f[k].1);
    assert f[k].1.JArray?;
    assert MembersArrayAt(f) == Some(k);
    EncodeItemsInOrder(obj, k, 0, skip, ms);
    assert ms[0..] == ms;
  }

  /** The corrected driver writes any state that has members as its
      properties, "_members" passed over, then each member as a nested
      resource in member order; it succeeds exactly when those properties
      can be encoded and the corrected driver accepts every member. */
  lemma CorrectedEncodesMembersInOrder(s: ResourceState)
    requires Members(s).Ok? && |Members(s).value| > 0
    ensures var ms := Members(s).value; var r := EncodeStateCorrected(JObject(s.fields));
      (r.Ok? <==> (EncodeFields(s.fields, 0, true).Ok? &&
        forall j :: 0 <= j < |ms| ==> Drive(JObject(ms[j].fields), true).Ok?)) &&
      (r.Ok? ==> (r.value == [StartResource(s.fields)] + PropertiesBlock(s.fields, true).value +
        [StartMembers] + Concat(MemberEncodings(ms, true)) + [EndMembers] + [EndResource(s.fields)]))
  {
    var obj := JObject(s.fields);
    var ms := Members(s).value;
    assert Members(Plain(s.fields)) == Ok(ms);
    CorrectedMembersAccepted(obj, ms);
    if EncodeStateCorrected(obj).Ok? {
      CorrectedMembersWritten(obj, ms);
    }
  }

  /** When the corrected driver accepts a state with members. */
  lemma CorrectedMembersAccepted(obj: Json, ms: seq<ResourceState>)
    requires obj.JObject? && Members(Plain(obj.fields)) == Ok(ms) && |ms| > 0
    ensures EncodeStateCorrected(obj).Ok? <==> (EncodeFields(obj.fields, 0, true).Ok? &&
      forall j :: 0 <= j < |ms| ==> Drive(JObject(ms[j].fields), true).Ok?)
  {
    MembersBlockInOrder(obj, true);
  }

  /** What the corrected driver writes for a state with members. */
  lemma CorrectedMembersWritten(obj: Json, ms: seq<ResourceState>)
    requires obj.JObject? && Members(Plain(obj.fields)) == Ok(ms) && |ms| > 0
    requires EncodeStateCorrected(obj).Ok?
    ensures EncodeStateCorrected(obj).value == [StartResource(obj.fields)] + PropertiesBlock(obj.fields, true).value +
      [StartMembers] + Concat(MemberEncodings(ms, true)) + [EndMembers] + [EndResource(obj.fields)]
  {
    var f := obj.fields;
    MembersBlockInOrder(obj, true);
    var head := [StartResource(f)] + PropertiesBlock(f, true).value;
    var body := Concat(MemberEncodings(ms, true));
    var block := MembersBlock(obj, true).value;
    assert block == [StartMembers] + body + [EndMembers];
    assert EncodeStateCorrected(obj).value == head + block + [EndResource(f)];
    EventsRegroup(head, [StartMembers] + body, [EndMembers]);
    EventsRegroup(head, [StartMembers], body);
  }

  lemma EventsRegroup(a: seq<Event>, b: seq<Event>, c: seq<Event>)
    ensures a + (b + c) == a + b + c
  {
  }

  /** `ResourceCodec.encode`: the driver's events followed by `close()`,
      handed to the encoder `write`; an exception in the driver skips the
      close and produces no bytes. */
  function CodecEncode<B>(obj: Json, write: seq<Event> -> B): (r: Result<B, EncodeError>)
    requires obj.JObject?
    ensures r.Ok? <==> EncodeState(obj).Ok?
    ensures r.Ok? ==> r.value == write(EncodeState(obj).value + [Close])
  {
    var evts :- EncodeState(obj);
    Ok(write(evts + [Close]))
  }
}

=== FILE: javaint.dfy ===
/** Java's 32- and 64-bit integer ranges, `Integer.parseInt`, `String.valueOf(int)`
    and the truncating integer conversion of fractional numbers. */
module JavaInt {
  import opened Wrappers

  const MinInt: int := -0x8000_0000
  const MaxInt: int := 0x7fff_ffff
  const MinLong: int := -0x8000_0000_0000_0000
  const MaxLong: int := 0x7fff_ffff_ffff_ffff

  predicate InInt32(v: int) {
    MinInt <= v <= MaxInt
  }

  predicate InInt64(v: int) {
    MinLong <= v <= MaxLong
  }

  predicate IsDigit(c: char) {
    '0' <= c <= '9'
  }

  predicate AllDigits(s: string) {
    forall i :: 0 <= i < |s| ==> IsDigit(s[i])
  }

  /** The value of a non-empty run of decimal digits, most significant first. */
  function DigitsValue(s: string): nat
    requires AllDigits(s)
  {
    if |s| == 0 then 0
    else DigitsValue(s[..|s| - 1]) * 10 + (s[|s| - 1] as int - '0' as int)
  }

  /** `Integer.parseInt(s)`: an optional '+' or '-' followed by at least one
      decimal digit, whose value lies in the int range; anything else raises
      NumberFormatException, modelled as None. Digits are the ASCII digits
      '0' to '9'. */
  function ParseInt(s: string): (r: Option<int>)
    ensures r.Some? ==> InInt32(r.value)
    ensures r.Some? ==> |s| > 0 && forall i :: 0 < i < |s| ==> IsDigit(s[i])
    ensures |s| > 0 && !IsDigit(s[0]) && s[0] != '-' && s[0] != '+' ==> r.None?
    ensures |s| == 1 && !IsDigit(s[0]) ==> r.None?
    ensures |s| > 0 && IsDigit(s[0]) ==>
      (r.Some? <==> AllDigits(s) && InInt32(DigitsValue(s))) &&
      (r.Some? ==> r.value == DigitsValue(s))
    ensures |s| > 1 && s[0] == '-' ==>
      (r.Some? <==> AllDigits(s[1..]) && InInt32(-(DigitsValue(s[1..]) as int))) &&
      (r.Some? ==> r.value == -(DigitsValue(s[1..]) as int))
    ensures |s| > 1 && s[0] == '+' ==>
      (r.Some? <==> AllDigits(s[1..]) && InInt32(DigitsValue(s[1..]))) &&
      (r.Some? ==> r.value == DigitsValue(s[1..]))
  {
    if |s| == 0 then None
    else if s[0] == '-' || s[0] == '+' then
      if |s| == 1 || !AllDigits(s[1..]) then None
      else
        var v: int := if s[0] == '-' then -(DigitsValue(s[1..]) as int) else DigitsValue(s[1..]);
        if InInt32(v) then Some(v) else None
    else if AllDigits(s) && InInt32(DigitsValue(s)) then Some(DigitsValue(s))
    else None
  }

  function DigitChar(d: nat): char
    requires d < 10
  {
    ('0' as int + d) as char
  }

  /** Decimal digits of a natural number, without leading zeros. */
  function NatToDigits(n: nat): string
  {
    if n < 10 then [DigitChar(n)] else NatToDigits(n / 10) + [DigitChar(n % 10)]
  }

  /** `String.valueOf(n)` for an int or long value. */
  function IntToString(n: int): string
  {
    if n < 0 then "-" + NatToDigits(-n) else NatToDigits(n)
  }

  lemma {:induction false} NatToDigitsValue(n: nat)
    ensures |NatToDigits(n)| > 0
    ensures AllDigits(NatToDigits(n))
    ensures DigitsValue(NatToDigits(n)) == n
  {
    var s := NatToDigits(n);
    if n >= 10 {
      NatToDigitsValue(n / 10);
      var p := NatToDigits(n / 10);
      assert s == p + [DigitChar(n % 10)];
      assert s[..|s| - 1] == p;
    }
  }

  /** Printing an int and parsing it back gives the same int. */
  lemma ParseIntRoundTrip(n: int)
    requires InInt32(n)
    ensures ParseInt(IntToString(n)) == Some(n)
  {
    var s := IntToString(n);
    if n < 0 {
      NatToDigitsValue(-n);
      assert s[0] == '-';
      assert s[1..] == NatToDigits(-n);
      assert AllDigits(s[1..]);
    } else {
      NatToDigitsValue(n);
      assert IsDigit(s[0]);
      assert AllDigits(s);
    }
  }

  /** A leading plus sign is accepted; a bare sign, an empty string and a
      trailing non-digit are rejected. */
  lemma ParseIntExamples()
    ensures ParseInt("+7") == Some(7)
    ensures ParseInt("-") == None
    ensures ParseInt("") == None
    ensures ParseInt("1a") == None
  {
    assert "+7"[1..] == "7";
    assert !IsDigit("1a"[1]);
  }

  /** The quotient num/den rounded toward zero, as Java's `(int)` / `(long)`
      casts and `BigDecimal.intValue` compute it. */
  function TruncQuot(num: int, den: int): (q: int)
    requires den > 0
    ensures num >= 0 ==> q * den <= num < (q + 1) * den
    ensures num < 0 ==> (q - 1) * den < num <= q * den
  {
    if num >= 0 then num / den else -((-num) / den)
  }
}

=== FILE: json.dfy ===
/** The Jackson tree nodes resource states are made of. An object keeps its
    fields in insertion order, each name at most once. Fractional numbers are
    kept as their exact value `num / den` together with Java's printed form. */
module Json {
  import opened Wrappers
  import opened JavaInt

  type Positive = n: int | n > 0 witness 1

  /** The Java type behind an integral node. */
  datatype IntegralKind = ShortNode | IntNode | LongNode | BigIntegerNode

  /** The Java type behind a fractional node. */
  datatype FractionKind = FloatNode | DoubleNode | DecimalNode

  datatype Json =
    | JNull
    | JBool(b: bool)
    | JText(s: string)
    | JIntegral(ikind: IntegralKind, n: int)
    | JFraction(fkind: FractionKind, num: int, den: Positive, printed: string)
    | JArray(items: seq<Json>)
    | JObject(fields: seq<(string, Json)>)

  type Fields = seq<(string, Json)>

  predicate UniqueKeys(f: Fields) {
    forall i, j :: 0 <= i < j < |f| ==> f[i].0 != f[j].0
  }

  /** The field names in order. */
  function Names(f: Fields): (r: seq<string>)
    ensures |r| == |f| && forall i :: 0 <= i < |f| ==> r[i] == f[i].0
  {
    if |f| == 0 then [] else [f[0].0] + Names(f[1..])
  }

  /** The position of field `k`, if present. */
  function IndexOf(f: Fields, k: string): (r: Option<nat>)
    ensures r.Some? ==> r.value < |f| && f[r.value].0 == k
    ensures r.Some? ==> forall i :: 0 <= i < r.value ==> f[i].0 != k
    ensures r.None? ==> forall i :: 0 <= i < |f| ==> f[i].0 != k
    decreases |f|
  {
    if |f| == 0 then None
    else if f[0].0 == k then Some(0)
    else match IndexOf(f[1..], k)
      case None => None
      case Some(i) => Some(i + 1)
  }

  /** `get(k)`: the value of field `k`, or null. */
  function Get(f: Fields, k: string): (r: Option<Json>)
    ensures r.Some? <==> k in Names(f)
  {
    match IndexOf(f, k)
    case None => None
    case Some(i) => Some(f[i].1)
  }

  /** `put(k, v)`: replaces the value of an existing field where it stands,
      or appends a new field. */
  function Put(f: Fields, k: string, v: Json): (r: Fields)
    requires UniqueKeys(f)
    ensures UniqueKeys(r)
    ensures Get(r, k) == Some(v)
    ensures forall k' :: k' != k ==> Get(r, k') == Get(f, k')
    ensures k in Names(f) ==> Names(r) == Names(f)
    ensures k !in Names(f) ==> Names(r) == Names(f) + [k]
  {
    match IndexOf(f, k)
    case Some(i) =>
      ReplacedAt(f, i, v);
      f[i := (k, v)]
    case None =>
      AppendedNew(f, k, v);
      f + [(k, v)]
  }

  /** Replacing the value at position `i` keeps every name where it stands
      and changes only that name's value. */
  lemma ReplacedAt(f: Fields, i: nat, v: Json)
    requires UniqueKeys(f) && i < |f|
    ensures var r := f[i := (f[i].0, v)];
      && UniqueKeys(r) && Names(r) == Names(f) && Get(r, f[i].0) == Some(v)
      && forall k' :: k' != f[i].0 ==> Get(r, k') == Get(f, k')
  {
    var r := f[i := (f[i].0, v)];
    assert Names(r) == Names(f);
    forall k' | k' != f[i].0 ensures Get(r, k') == Get(f, k') {
      GetByUniqueIndex(f, k');
      GetByUniqueIndex(r, k');
    }
    GetAt(r, i);
  }

  /** Appending a field under a new name adds that name last and changes
      no other name's value. */
  lemma AppendedNew(f: Fields, k: string, v: Json)
    requires UniqueKeys(f) && IndexOf(f, k).None?
    ensures var r := f + [(k, v)];
      && UniqueKeys(r) && Names(r) == Names(f) + [k] && Get(r, k) == Some(v)
      && forall k' :: k' != k ==> Get(r, k') == Get(f, k')
  {
    var r := f + [(k, v)];
    assert Names(r) == Names(f) + [k];
    forall k' | k' != k ensures Get(r, k') == Get(f, k') {
      GetByUniqueIndex(f, k');
      GetByUniqueIndex(r, k');
    }
    GetAt(r, |f|);
  }

  /** In a field list with unique names, `Get` of the name at position `i`
      is the value at position `i`. */
  lemma GetAt(f: Fields, i: nat)
    requires UniqueKeys(f) && i < |f|
    ensures Get(f, f[i].0) == Some(f[i].1)
  {
    var j := IndexOf(f, f[i].0);
  }

  /** A name held by no field is absent. */
  lemma GetAbsent(f: Fields, k: string)
    requires forall i :: 0 <= i < |f| ==> f[i].0 != k
    ensures Get(f, k).None?
  {
  }

  /** `Get` on unique names agrees with any position holding the name. */
  lemma GetByUniqueIndex(f: Fields, k: string)
    requires UniqueKeys(f)
    ensures forall i :: 0 <= i < |f| && f[i].0 == k ==> Get(f, k) == Some(f[i].1)
    ensures (forall i :: 0 <= i < |f| ==> f[i].0 != k) ==> Get(f, k).None?
  {
    forall i | 0 <= i < |f| && f[i].0 == k ensures Get(f, k) == Some(f[i].1) {
      GetAt(f, i);
    }
  }

  /** Dropping the field at position `i` removes exactly its name. */
  lemma RemovedAt(f: Fields, i: nat)
    requires UniqueKeys(f) && i < |f|
    ensures var rest := f[..i] + f[i + 1..];
      && UniqueKeys(rest)
      && Get(rest, f[i].0).None?
      && forall k' :: k' != f[i].0 ==> Get(rest, k') == Get(f, k')
  {
    var rest := f[..i] + f[i + 1..];
    assert forall j :: 0 <= j < |rest| ==> rest[j] == (if j < i then f[j] else f[j + 1]);
    GetAbsent(rest, f[i].0);
    forall k' | k' != f[i].0 ensures Get(rest, k') == Get(f, k') {
      RemovedKeeps(f, i, k');
    }
  }

  /** Dropping the field at position `i` keeps the value of every other name. */
  lemma RemovedKeeps(f: Fields, i: nat, k': string)
    requires UniqueKeys(f) && i < |f| && k' != f[i].0
    requires UniqueKeys(f[..i] + f[i + 1..])
    ensures Get(f[..i] + f[i + 1..], k') == Get(f, k')
  {
    var rest := f[..i] + f[i + 1..];
    if j :| 0 <= j < |f| && f[j].0 == k' {
      GetAt(f, j);
      var jr := if j < i then j else j - 1;
      assert rest[jr] == f[j];
      GetAt(rest, jr);
    } else {
      GetAbsent(f, k');
      assert forall j :: 0 <= j < |rest| ==> rest[j] == (if j < i then f[j] else f[j + 1]);
      GetAbsent(rest, k');
    }
  }

  /** `remove(k)`: drops field `k`, keeping the others in order, and returns
      its previous value. */
  function Remove(f: Fields, k: string): (r: (Fields, Option<Json>))
    requires UniqueKeys(f)
    ensures UniqueKeys(r.0)
    ensures r.1 == Get(f, k)
    ensures Get(r.0, k).None?
    ensures forall k' :: k' != k ==> Get(r.0, k') == Get(f, k')
    ensures r.1.None? ==> r.0 == f
    ensures r.1.Some? ==> |r.0| == |f| - 1
  {
    match IndexOf(f, k)
    case None => GetAbsent(f, k); (f, None)
    case Some(i) =>
      RemovedAt(f, i);
      GetAt(f, i);
      (f[..i] + f[i + 1..], Some(f[i].1))
  }

  /** Putting a field and removing it again restores an object that did not
      have it. */
  lemma PutThenRemove(f: Fields, k: string, v: Json)
    requires UniqueKeys(f) && k !in Names(f)
    ensures Remove(Put(f, k, v), k) == (f, Some(v))
  {
    var p := Put(f, k, v);
    assert p == f + [(k, v)] by {
      assert IndexOf(f, k).None?;
    }
    IndexOfAppended(f, k, v);
    assert p[..|f|] + p[|f| + 1..] == f;
  }

  /** A name absent from `f` is found at the end of `f + [(k, v)]`. */
  lemma {:induction false} IndexOfAppended(f: Fields, k: string, v: Json)
    requires k !in Names(f)
    ensures IndexOf(f + [(k, v)], k) == Some(|f|)
    decreases |f|
  {
    var p := f + [(k, v)];
    if |f| > 0 {
      assert Names(f) == [f[0].0] + Names(f[1..]);
      assert p[1..] == f[1..] + [(k, v)];
      IndexOfAppended(f[1..], k, v);
    } else {
      assert p == [(k, v)];
    }
  }

  /** `asText()`: the text of a text node, the decimal form of an integral
      node, Java's printed form of a fraction, "true"/"false", "null", and the
      empty string for arrays and objects. */
  function AsText(j: Json): (r: string)
    ensures j.JText? ==> r == j.s
    ensures j.JIntegral? ==> ParseInt(r) == (if InInt32(j.n) then Some(j.n) else None)
    ensures j.JArray? || j.JObject? ==> r == ""
  {
    match j
    case JNull => "null"
    case JBool(b) => if b then "true" else "false"
    case JText(s) => s
    case JIntegral(_, n) =>
      if InInt32(n) then ParseIntRoundTrip(n); IntToString(n)
      else LongTextNotInt(n); IntToString(n)
    case JFraction(_, _, _, p) => p
    case JArray(_) => ""
    case JObject(_) => ""
  }

  /** A number outside the int range does not parse back as an int. */
  lemma LongTextNotInt(n: int)
    requires !InInt32(n)
    ensures ParseInt(IntToString(n)).None?
  {
    var s := IntToString(n);
    if n < 0 {
      NatToDigitsValue(-n);
      assert s[0] == '-' && s[1..] == NatToDigits(-n);
    } else {
      NatToDigitsValue(n);
      assert IsDigit(s[0]);
    }
  }

  // ---------------------------------------------------------------------
  // Number conversions used by the encoder
  // ---------------------------------------------------------------------

  predicate IsTextual(j: Json) { j.JText? }

  predicate IsBoolean(j: Json) { j.JBool? }

  /** `isDouble()`: only a double node. */
  predicate IsDouble(j: Json) { j.JFraction? && j.fkind == DoubleNode }

  /** The integral part of a number node, rounded toward zero. */
  function Truncated(j: Json): int
    requires j.JIntegral? || j.JFraction?
  {
    if j.JIntegral? then j.n else TruncQuot(j.num, j.den)
  }

  /** `canConvertToInt()`: a number whose value lies in the int range. */
  predicate CanConvertToInt(j: Json) {
    match j
    case JIntegral(_, n) => InInt32(n)
    case JFraction(_, num, den, _) => MinInt * den <= num <= MaxInt * den
    case _ => false
  }

  /** `canConvertToLong()`: a number whose value lies in the long range. */
  predicate CanConvertToLong(j: Json) {
    match j
    case JIntegral(_, n) => InInt64(n)
    case JFraction(_, num, den, _) => MinLong * den <= num <= MaxLong * den
    case _ => false
  }

  lemma MulMonotone(a: int, b: int, den: int)
    requires den > 0 && a <= b
    ensures a * den <= b * den
  {
    assert b * den - a * den == (b - a) * den;
  }

  lemma MulLeCancel(a: int, b: int, den: int)
    requires den > 0
    ensures a * den <= b * den ==> a <= b
  {
    if a > b {
      MulMonotone(b + 1, a, den);
      assert (b + 1) * den == b * den + den;
    }
  }

  lemma MulLtCancel(a: int, b: int, den: int)
    requires den > 0
    ensures a * den < b * den ==> a < b
  {
    if a >= b {
      MulMonotone(b, a, den);
    }
  }

  /** A quotient rounded toward zero stays below any bound its dividend
      stays below, scaled by the divisor. */
  lemma TruncBelow(num: int, den: int, hi: int)
    requires den > 0 && num <= hi * den
    ensures TruncQuot(num, den) <= hi
  {
    var q := TruncQuot(num, den);
    if num >= 0 {
      MulLeCancel(q, hi, den);
    } else {
      MulLtCancel(q - 1, hi, den);
    }
  }

  /** Likewise for a lower bound. */
  lemma TruncAbove(num: int, den: int, lo: int)
    requires den > 0 && lo * den <= num
    ensures lo <= TruncQuot(num, den)
  {
    var q := TruncQuot(num, den);
    if num >= 0 {
      MulLtCancel(lo, q + 1, den);
    } else {
      MulLeCancel(lo, q, den);
    }
  }

  /** `intValue()` / `asLong()` of a convertible node: the value rounded
      toward zero, which then lies in the range checked. */
  lemma TruncatedInRange(j: Json)
    requires j.JIntegral? || j.JFraction?
    ensures CanConvertToInt(j) ==> InInt32(Truncated(j))
    ensures CanConvertToLong(j) ==> InInt64(Truncated(j))
  {
    if j.JFraction? {
      if CanConvertToInt(j) {
        TruncBelow(j.num, j.den, MaxInt);
        TruncAbove(j.num, j.den, MinInt);
      }
      if CanConvertToLong(j) {
        TruncBelow(j.num, j.den, MaxLong);
        TruncAbove(j.num, j.den, MinLong);
      }
    }
  }

  // ---------------------------------------------------------------------
  // Structural equality
  // ---------------------------------------------------------------------

  /** Jackson's `equals`: objects compare as maps (field order does not
      matter), arrays element-wise, scalars by node type and value. A float
      or double node compares its numeric value, so fractions written with
      different denominators are equal; a decimal node compares as
      `BigDecimal.equals` does, by value and scale, the scale showing in
      its printed text. */
  predicate Equal(a: Json, b: Json)
    decreases a
  {
    match a
    case JFraction(k, n, d, p) =>
      b.JFraction? && b.fkind == k && n * b.den == b.num * d &&
      (k == DecimalNode ==> p == b.printed)
    case JArray(xs) =>
      b.JArray? && |xs| == |b.items| &&
      forall i :: 0 <= i < |xs| ==> Equal(xs[i], b.items[i])
    case JObject(fa) =>
      b.JObject? && SameNames(fa, b.fields) &&
      forall i :: 0 <= i < |fa| ==>
        (fa[i].0 in Names(b.fields) && Equal(fa[i].1, Get(b.fields, fa[i].0).value))
    case _ => a == b
  }

  /** Two field lists name the same fields, each once. */
  predicate SameNames(fa: Fields, fb: Fields) {
    |fa| == |fb| && (forall k :: k in Names(fa) ==> k in Names(fb)) && (forall k :: k in Names(fb) ==> k in Names(fa))
  }

  lemma {:induction false} EqualReflexive(a: Json)
    requires WellFormed(a)
    ensures Equal(a, a)
    decreases a
  {
    match a
    case JArray(xs) =>
      forall i | 0 <= i < |xs| ensures Equal(xs[i], xs[i]) {
        EqualReflexive(xs[i]);
      }
    case JObject(fa) =>
      forall i | 0 <= i < |fa|
        ensures fa[i].0 in Names(fa) && Equal(fa[i].1, Get(fa, fa[i].0).value)
      {
        GetByUniqueIndex(fa, fa[i].0);
        assert Names(fa)[i] == fa[i].0;
        EqualReflexive(fa[i].1);
      }
    case _ =>
  }

  /** Two fraction nodes are equal exactly when they are of the same kind
      and denote the same rational number (a decimal also keeping its
      printed scale), however the fraction is written. */
  lemma FractionsCompareByValue(a: Json, b: Json)
    requires a.JFraction? && b.JFraction?
    ensures Equal(a, b) <==>
      (a.fkind == b.fkind && Value(a) == Value(b) &&
       (a.fkind == DecimalNode ==> a.printed == b.printed))
  {
    CrossMultiply(a.num, a.den, b.num, b.den);
  }

  /** The rational number a fraction node denotes. */
  ghost function Value(j: Json): (r: real)
    requires j.JFraction?
    ensures r * (j.den as real) == j.num as real
  {
    (j.num as real) / (j.den as real)
  }

  /** Equal fractions are equal cross products. */
  lemma CrossMultiply(n1: int, d1: Positive, n2: int, d2: Positive)
    ensures n1 * d2 == n2 * d1 <==> (n1 as real) / (d1 as real) == (n2 as real) / (d2 as real)
  {
  }

  /** The same double written as 1/2 and as 2/4 makes equal objects. */
  lemma HalfEqualsTwoQuarters()
    ensures WellFormed(JObject([("x", JFraction(DoubleNode, 1, 2, "0.5"))]))
    ensures WellFormed(JObject([("x", JFraction(DoubleNode, 2, 4, "0.5"))]))
    ensures Equal(JObject([("x", JFraction(DoubleNode, 1, 2, "0.5"))]),
                  JObject([("x", JFraction(DoubleNode, 2, 4, "0.5"))]))
    ensures !Equal(JFraction(DoubleNode, 1, 2, "0.5"), JFraction(FloatNode, 1, 2, "0.5"))
  {
    var fa := [("x", JFraction(DoubleNode, 1, 2, "0.5"))];
    var fb := [("x", JFraction(DoubleNode, 2, 4, "0.5"))];
    assert Names(fa)[0] == "x" && Names(fb)[0] == "x";
    GetByUniqueIndex(fb, "x");
  }

  /** Every object in the tree has unique field names. */
  predicate WellFormed(a: Json)
    decreases a
  {
    match a
    case JArray(xs) => forall i :: 0 <= i < |xs| ==> WellFormed(xs[i])
    case JObject(fa) => UniqueKeys(fa) && forall i :: 0 <= i < |fa| ==> WellFormed(fa[i].1)
    case _ => true
  }

  /** Two field lists holding the same (name, value) pairs in any order
      give equal objects. */
  lemma FieldOrderIrrelevant(fa: Fields, fb: Fields)
    requires UniqueKeys(fa) && UniqueKeys(fb) && multiset(fa) == multiset(fb)
    requires forall i :: 0 <= i < |fa| ==> WellFormed(fa[i].1)
    ensures Equal(JObject(fa), JObject(fb))
  {
    assert |fa| == |multiset(fa)| == |multiset(fb)| == |fb|;
    forall k | k in Names(fa) ensures k in Names(fb) {
      var i :| 0 <= i < |fa| && Names(fa)[i] == k;
      assert fa[i] in multiset(fb);
      var j :| 0 <= j < |fb| && fb[j] == fa[i];
      assert Names(fb)[j] == k;
    }
    forall k | k in Names(fb) ensures k in Names(fa) {
      var j :| 0 <= j < |fb| && Names(fb)[j] == k;
      assert fb[j] in multiset(fa);
      var i :| 0 <= i < |fa| && fa[i] == fb[j];
      assert Names(fa)[i] == k;
    }
    forall i | 0 <= i < |fa|
      ensures fa[i].0 in Names(fb) && Equal(fa[i].1, Get(fb, fa[i].0).value)
    {
      assert fa[i] in multiset(fb);
      var j :| 0 <= j < |fb| && fb[j] == fa[i];
      assert Names(fb)[j] == fa[i].0;
      GetAt(fb, j);
      EqualReflexive(fa[i].1);
    }
  }

  /** The two-field instance: swapping two fields gives an equal object. */
  lemma SwapTwoFields(k1: string, v1: Json, k2: string, v2: Json)
    requires k1 != k2 && WellFormed(v1) && WellFormed(v2)
    ensures Equal(JObject([(k1, v1), (k2, v2)]), JObject([(k2, v2), (k1, v1)]))
  {
    var fa, fb := [(k1, v1), (k2, v2)], [(k2, v2), (k1, v1)];
    assert multiset(fa) == multiset(fb);
    FieldOrderIrrelevant(fa, fb);
  }
}

=== FILE: lazystate.dfy ===
/** `DefaultLazyResourceState`: a request body held as raw bytes plus the
    media type it arrived with, decoded through the codec registry the first
    time any state accessor needs it. */
module LazyState {
  import opened Wrappers
  import opened Json
  import opened State
  import opened Codecs

  const FailurePrefix: string := "Failed to decode message: "

  /** The lazy state: the registry it decodes with, the media type, the
      body set by `content(b)` (null until then), and the decoded delegate
      (null until the first accessor). */
  datatype Lazy = Lazy(mgr: Registry, mediaType: Option<MediaType>, buffer: Option<seq<Byte>>,
                       delegate: Option<ResourceState>)

  /** The `RuntimeException` raised when decoding fails: its message and the
      exception it wraps. */
  datatype LazyError = DecodeFailed(message: string, cause: CodecError)

  /** Both constructors: nothing set, nothing decoded. */
  function NewLazy(mgr: Registry, mediaType: Option<MediaType>): (l: Lazy)
    ensures l.buffer.None? && l.delegate.None?
    ensures ContentLength(l) == 0 && ContentType(l) == mediaType
  {
    Lazy(mgr, mediaType, None, None)
  }

  /** The buffer as text for the failure message, one character per byte
      (exact for ASCII bodies); "null" when there is no buffer. */
  function BufferText(buffer: Option<seq<Byte>>): (r: string)
    ensures buffer.None? ==> r == "null"
    ensures buffer.Some? ==> (|r| == |buffer.value| &&
      forall i :: 0 <= i < |r| ==> r[i] as int == buffer.value[i])
  {
    match buffer
    case None => "null"
    case Some(b) => seq(|b|, i requires 0 <= i < |b| => b[i] as char)
  }

  /** `delegate()`: the decoded state, decoding on first use only. The
      returned lazy state remembers the delegate; a failure leaves it
      undecoded and reports the body. */
  function Delegate(l: Lazy, decoders: Decoders): (r: Result<(Lazy, ResourceState), LazyError>)
    ensures l.delegate.Some? ==> r == Ok((l, l.delegate.value))
    ensures l.delegate.None? ==>
      (r.Ok? <==> Decode(l.mgr, l.mediaType, l.buffer, decoders).Ok?) &&
      (r.Ok? ==> r.value.1 == Decode(l.mgr, l.mediaType, l.buffer, decoders).value)
    ensures r.Ok? ==> r.value.0 == l.(delegate := Some(r.value.1))
    ensures r.Err? ==> r.error.message == FailurePrefix + BufferText(l.buffer)
  {
    match l.delegate
    case Some(d) => Ok((l, d))
    case None =>
      match Decode(l.mgr, l.mediaType, l.buffer, decoders)
      case Ok(s) => Ok((l.(delegate := Some(s)), s))
      case Err(e) => Err(DecodeFailed(FailurePrefix + BufferText(l.buffer), e))
  }

  /** Decoding happens at most once: asking again returns the same delegate
      without touching the lazy state, whatever the decoders now answer. */
  lemma DecodeAtMostOnce(l: Lazy, decoders: Decoders, later: Decoders)
    requires Delegate(l, decoders).Ok?
    ensures Delegate(Delegate(l, decoders).value.0, later) == Delegate(l, decoders)
  {
  }

  /** `content(b)`: replaces the buffer. */
  function SetContent(l: Lazy, b: Option<seq<Byte>>): (r: Lazy)
    ensures r.buffer == b
    ensures r.mgr == l.mgr && r.mediaType == l.mediaType && r.delegate == l.delegate
  {
    l.(buffer := b)
  }

  /** Setting the content after the first decode does not change the decoded
      state; before it, the next accessor decodes the new content. */
  lemma ContentAfterDecode(l: Lazy, b: Option<seq<Byte>>, decoders: Decoders)
    ensures l.delegate.Some? ==> (Delegate(SetContent(l, b), decoders).Ok? &&
      Delegate(SetContent(l, b), decoders).value.1 == l.delegate.value)
    ensures l.delegate.None? ==> (Delegate(SetContent(l, b), decoders).Ok? <==>
      Decode(l.mgr, l.mediaType, b, decoders).Ok?)
  {
  }

  /** A read-only accessor (`id()`, `uri()`, `getProperty`, `members()`,
      `getPropertyNames()`): the delegate's answer. */
  function Read<T>(l: Lazy, decoders: Decoders, f: ResourceState -> T): (r: Result<(Lazy, T), LazyError>)
    ensures r.Ok? <==> Delegate(l, decoders).Ok?
    ensures r.Ok? ==> r.value == (Delegate(l, decoders).value.0, f(Delegate(l, decoders).value.1))
  {
    var (l', d) :- Delegate(l, decoders);
    Ok((l', f(d)))
  }

  /** A mutator (`id(x)`, `uri(u)`, `putProperty`, `removeProperty`,
      `addMember`): applied to the delegate, which the lazy state keeps. */
  function Modify(l: Lazy, decoders: Decoders, f: ResourceState -> ResourceState): (r: Result<Lazy, LazyError>)
    ensures r.Ok? <==> Delegate(l, decoders).Ok?
    ensures r.Ok? ==> r.value.delegate == Some(f(Delegate(l, decoders).value.1))
    ensures r.Ok? ==> r.value.buffer == l.buffer && r.value.mediaType == l.mediaType
  {
    var (l', d) :- Delegate(l, decoders);
    Ok(l'.(delegate := Some(f(d))))
  }

  /** `id(x)` then `id()` through the lazy state answers `x`, exactly as on
      the decoded state. */
  lemma LazyIdAfterSetId(l: Lazy, decoders: Decoders, id: string)
    requires Delegate(l, decoders).Ok? && Delegate(l, decoders).value.1.Valid()
    ensures Modify(l, decoders, (s: ResourceState) => if s.Valid() then SetId(s, id) else s).Ok?
    ensures Read(Modify(l, decoders, (s: ResourceState) => if s.Valid() then SetId(s, id) else s).value, decoders, Id) ==
      Ok((Modify(l, decoders, (s: ResourceState) => if s.Valid() then SetId(s, id) else s).value, Ok(id)))
  {
    var s := Delegate(l, decoders).value.1;
    IdAfterSetId(s, id);
  }

  /** `getContentLength()`: the buffer's length, 0 without one. */
  function ContentLength(l: Lazy): (r: nat)
    ensures l.buffer.Some? ==> r == |l.buffer.value|
    ensures l.buffer.None? ==> r == 0
  {
    match l.buffer
    case Some(b) => |b|
    case None => 0
  }

  /** `getContentType()`: the constructor's media type. */
  function ContentType(l: Lazy): (r: Option<MediaType>)
    ensures r == l.mediaType
  {
    l.mediaType
  }

  /** `contentAsByteBuffer()`: the buffer, or an empty array. */
  function ContentAsBytes(l: Lazy): (r: seq<Byte>)
    ensures |r| == ContentLength(l)
    ensures l.buffer.Some? ==> r == l.buffer.value
  {
    l.buffer.GetOr([])
  }

  /** `contentAsStream()`: the bytes a reader gets before end of stream, the
      buffer or nothing. */
  function ContentAsStream(l: Lazy): (r: seq<Byte>)
    ensures r == ContentAsBytes(l)
  {
    match l.buffer
    case Some(b) => b
    case None => []
  }

  /** `hasBigContent()`: the body always fits in memory. */
  function HasBigContent(l: Lazy): (r: bool)
    ensures !r
  {
    false
  }

  /** `contentAsFile()`: never backed by a file. */
  function ContentAsFile(l: Lazy): (r: Option<string>)
    ensures r.None?
  {
    None
  }

  /** Setting the content is seen at once by every content accessor, and by
      none of the state accessors once decoded. */
  lemma ContentAccessorsFollowContent(l: Lazy, b: seq<Byte>)
    ensures ContentAsBytes(SetContent(l, Some(b))) == b
    ensures ContentLength(SetContent(l, Some(b))) == |b|
    ensures ContentType(SetContent(l, Some(b))) == ContentType(l)
  {
  }
}

=== FILE: params.dfy ===
/** Query parameters of a request: a map from name to the list of values
    given for it, in order of appearance. */
module Params {
  import opened Wrappers
  import opened JavaInt

  /** Exceptions the accessors can throw. */
  datatype ParamsError = NullPointer | NumberFormat(text: string)

  /** `DefaultResourceParams`; the shared `NONE` instance is the one with no names. */
  datatype ResourceParams = ResourceParams(params: map<string, seq<string>>)

  const NoParams: ResourceParams := ResourceParams(map[])

  /** `instance(params)`: a null or empty map yields the shared empty instance. */
  function Instance(params: Option<map<string, seq<string>>>): (r: ResourceParams)
    ensures params.None? ==> r == NoParams
    ensures params.Some? ==> r.params == params.value
  {
    if params.None? || |params.value| == 0 then NoParams else ResourceParams(params.value)
  }

  /** `names()`. */
  function Names(p: ResourceParams): (r: set<string>)
    ensures forall n :: n in r <==> n in p.params
  {
    p.params.Keys
  }

  /** `value(name)`: the first value given for `name`, or null when the name is
      absent or has no values. */
  function Value(p: ResourceParams, name: string): (r: Option<string>)
    ensures r.Some? <==> name in p.params && |p.params[name]| > 0
    ensures r.Some? ==> r.value == p.params[name][0]
  {
    if name in p.params && |p.params[name]| > 0 then Some(p.params[name][0]) else None
  }

  /** `contains(name)`: whether `value(name)` is non-null. */
  function Contains(p: ResourceParams, name: string): (r: bool)
    ensures r <==> name in p.params && |p.params[name]| > 0
  {
    Value(p, name).Some?
  }

  /** `values(name)`: a copy of all values; copying the null list of an absent
      name throws NullPointerException. */
  function Values(p: ResourceParams, name: string): (r: Result<seq<string>, ParamsError>)
    ensures r.Err? <==> name !in p.params
    ensures r.Err? ==> r.error == NullPointer
    ensures r.Ok? ==> r.value == p.params[name]
  {
    if name in p.params then Ok(p.params[name]) else Err(NullPointer)
  }

  /** `intValue(name, def)`: `def` when `value(name)` is null, otherwise
      `Integer.parseInt` of it, which throws on malformed text. */
  function IntValue(p: ResourceParams, name: string, def: int): (r: Result<int, ParamsError>)
    ensures Value(p, name).None? ==> r == Ok(def)
    ensures Value(p, name).Some? ==>
      (r.Ok? <==> ParseInt(Value(p, name).value).Some?)
    ensures Value(p, name).Some? && r.Ok? ==> r.value == ParseInt(Value(p, name).value).value
    ensures r.Err? ==> r.error == NumberFormat(Value(p, name).value)
  {
    match Value(p, name)
    case None => Ok(def)
    case Some(v) =>
      match ParseInt(v)
      case None => Err(NumberFormat(v))
      case Some(i) => Ok(i)
  }

  /** A name is contained exactly when `values` succeeds with a non-empty list,
      and then `value` is the head of that list. */
  lemma ContainsAgreesWithValues(p: ResourceParams, name: string)
    ensures Contains(p, name) <==> Values(p, name).Ok? && |Values(p, name).value| > 0
    ensures Contains(p, name) ==> Value(p, name).value == Values(p, name).value[0]
  {
  }

  /** An int written as the first value of a parameter is read back by
      `intValue`, whatever the default. */
  lemma IntValueRoundTrip(p: ResourceParams, name: string, k: int, more: seq<string>, def: int)
    requires InInt32(k)
    requires name in p.params && p.params[name] == [IntToString(k)] + more
    ensures IntValue(p, name, def) == Ok(k)
  {
    ParseIntRoundTrip(k);
  }
}

=== FILE: pgcatalog.dfy ===
/** The PostgreSQL catalog (`io.liveoak.pgsql.meta.Catalog`): the id each
    table is published under, lookup by reference and by id, and the list
    of ids. */
module PgCatalog {
  import opened Wrappers
  import opened PgTable

  // ---------------------------------------------------------------------
  // Table references as text
  // ---------------------------------------------------------------------

  /** `asUnquotedIdentifier`: `schema.name`, or the bare name without a
      schema. */
  function Qualified(r: TableRef): string {
    if r.schema.Some? then r.schema.value + "." + r.name else r.name
  }

  /** The position of the first '.', if any. */
  function FirstDot(s: string): (r: Option<nat>)
    ensures r.None? <==> '.' !in s
    ensures r.Some? ==> r.value < |s| && s[r.value] == '.' && '.' !in s[..r.value]
    decreases |s|
  {
    if |s| == 0 then None
    else if s[0] == '.' then Some(0)
    else
      var r := FirstDot(s[1..]);
      assert '.' in s <==> '.' in s[1..] by {
        assert s == [s[0]] + s[1..];
      }
      if r.None? then None
      else
        assert s[..r.value + 1] == [s[0]] + s[1..][..r.value];
        Some(r.value + 1)
  }

  /** `new TableRef(text)`: text before the first '.' is the schema, the
      rest is the name; text without a '.' is a bare name. */
  function ParseRef(s: string): (r: TableRef)
    ensures '.' !in s ==> r == TableRef(None, s)
    ensures r.schema.Some? ==> '.' !in r.schema.value && s == r.schema.value + "." + r.name
  {
    match FirstDot(s)
    case None => TableRef(None, s)
    case Some(k) =>
      assert s == s[..k] + "." + s[k + 1..];
      TableRef(Some(s[..k]), s[k + 1..])
  }

  /** Parsing a qualified identifier gives back the reference, provided the
      schema holds no '.'. */
  lemma ParseQualified(r: TableRef)
    requires r.schema.Some? && '.' !in r.schema.value
    ensures ParseRef(Qualified(r)) == r
  {
    var s := r.schema.value;
    var x := Qualified(r);
    assert x[|s|] == '.';
    var k := FirstDot(x).value;
    assert x[..k] == s;
    assert x[k + 1..] == r.name;
  }

  // ---------------------------------------------------------------------
  // The catalog
  // ---------------------------------------------------------------------

  /** The tables by reference, and the order the map hands back its values
      (a `HashMap`'s iteration order, which the program does not control). */
  datatype Catalog = Catalog(tables: map<TableRef, Table>, order: seq<TableRef>)

  /** The iteration order lists every key exactly once. */
  predicate Valid(c: Catalog) {
    (forall i, j :: 0 <= i < j < |c.order| ==> c.order[i] != c.order[j]) &&
    (forall k :: k in c.order ==> k in c.tables) && (forall k :: k in c.tables ==> k in c.order)
  }

  /** Another key carries the same table name. */
  predicate NameShared(keys: set<TableRef>, r: TableRef) {
    exists o :: o in keys && o != r && o.name == r.name
  }

  /** The id a table is published under: its bare name when no other table
      has that name, its qualified name otherwise. */
  function IdFor(keys: set<TableRef>, r: TableRef): string {
    if NameShared(keys, r) then Qualified(r) else r.name
  }

  /** The constructor: the same tables under the same keys, each given its
      id and otherwise unchanged. */
  function Build(tables: map<TableRef, Table>, order: seq<TableRef>): (c: Catalog)
    ensures c.tables.Keys == tables.Keys && c.order == order
    ensures forall r :: r in c.tables ==>
      c.tables[r].(id := tables[r].id) == tables[r] &&
      (c.tables[r].id == r.name <==> !NameShared(tables.Keys, r) || r.schema.None?)
  {
    Catalog(map r | r in tables :: tables[r].(id := IdFor(tables.Keys, r)), order)
  }

  /** The tables in iteration order. */
  function Values(tables: map<TableRef, Table>, order: seq<TableRef>): (vs: seq<Table>)
    ensures forall t :: t in vs ==> t in tables.Values
    decreases |order|
  {
    if |order| == 0 then []
    else (if order[0] in tables then [tables[order[0]]] else []) + Values(tables, order[1..])
  }

  /** The first of `ts` with the given name. */
  function FirstNamed(ts: seq<Table>, n: string): (r: Option<Table>)
    ensures r.None? <==> forall i :: 0 <= i < |ts| ==> ts[i].name != n
    ensures r.Some? ==> r.value in ts && r.value.name == n
    decreases |ts|
  {
    if |ts| == 0 then None
    else if ts[0].name == n then Some(ts[0])
    else
      var r := FirstNamed(ts[1..], n);
      assert forall i :: 1 <= i < |ts| ==> ts[i] == ts[1..][i - 1];
      r
  }

  /** `table(ref)`: with a schema, the table under exactly that reference;
      without one, the first table in iteration order whose name matches. */
  function Lookup(c: Catalog, ref: TableRef): (r: Option<Table>)
    ensures ref.schema.Some? ==> (r.Some? <==> ref in c.tables) && (r.Some? ==> r.value == c.tables[ref])
    ensures ref.schema.None? && r.Some? ==> r.value in c.tables.Values && r.value.name == ref.name
  {
    if ref.schema.Some? then
      (if ref in c.tables then Some(c.tables[ref]) else None)
    else
      FirstNamed(Values(c.tables, c.order), ref.name)
  }

  /** Every table is among the values the iteration visits. */
  lemma {:induction false} ValuesCover(tables: map<TableRef, Table>, order: seq<TableRef>, k: TableRef)
    requires k in tables && k in order
    ensures tables[k] in Values(tables, order)
    decreases |order|
  {
    if order[0] != k {
      assert k in order[1..] by {
        var i :| 0 <= i < |order| && order[i] == k;
        assert order[1..][i - 1] == k;
      }
      ValuesCover(tables, order[1..], k);
    }
  }

  /** A bare-name lookup finds a table exactly when some table has that
      name. */
  lemma BareLookupFinds(c: Catalog, n: string)
    requires Valid(c)
    ensures Lookup(c, TableRef(None, n)).Some? <==> exists k :: k in c.tables && c.tables[k].name == n
  {
    var vs := Values(c.tables, c.order);
    if k :| k in c.tables && c.tables[k].name == n {
      ValuesCover(c.tables, c.order, k);
      var i :| 0 <= i < |vs| && vs[i] == c.tables[k];
    }
  }

  /** `tableIds()`: one id per table, in iteration order. */
  function TableIds(c: Catalog): (ids: seq<string>)
    ensures |ids| == |Values(c.tables, c.order)|
    ensures forall i :: 0 <= i < |ids| ==> ids[i] == Values(c.tables, c.order)[i].id
  {
    var vs := Values(c.tables, c.order);
    seq(|vs|, i requires 0 <= i < |vs| => vs[i].id)
  }

  /** `tableById(id)`: the id read as a table reference, then looked up. */
  function TableById(c: Catalog, id: string): (r: Option<Table>)
    ensures '.' !in id ==> r == Lookup(c, TableRef(None, id))
    ensures ParseRef(id).schema.Some? ==> (r.Some? <==> ParseRef(id) in c.tables)
  {
    Lookup(c, ParseRef(id))
  }

  /** Keys and tables agree on names, every key names its schema, and
      neither schemas nor names contain a '.'. */
  predicate WellNamed(tables: map<TableRef, Table>) {
    forall r :: r in tables ==>
      tables[r].name == r.name && r.schema.Some? && '.' !in r.schema.value && '.' !in r.name
  }

  /** Distinct tables get distinct ids. */
  lemma IdsDistinct(tables: map<TableRef, Table>, r1: TableRef, r2: TableRef)
    requires WellNamed(tables) && r1 in tables && r2 in tables && r1 != r2
    ensures IdFor(tables.Keys, r1) != IdFor(tables.Keys, r2)
  {
    var keys := tables.Keys;
    var id1, id2 := IdFor(keys, r1), IdFor(keys, r2);
    if id1 == id2 {
      if NameShared(keys, r1) {
        ParseQualified(r1);
        if NameShared(keys, r2) {
          ParseQualified(r2);
        }
      } else if NameShared(keys, r2) {
        ParseQualified(r2);
      }
    }
  }

  /** Every table is found again by its own id: the id-to-table round trip
      the resource tree relies on. */
  lemma TableByIdFindsEachTable(tables: map<TableRef, Table>, order: seq<TableRef>, r: TableRef)
    requires WellNamed(tables) && r in tables && Valid(Catalog(tables, order))
    ensures TableById(Build(tables, order), Build(tables, order).tables[r].id) == Some(Build(tables, order).tables[r])
  {
    var c := Build(tables, order);
    assert Valid(c);
    var id := c.tables[r].id;
    if NameShared(tables.Keys, r) {
      ParseQualified(r);
    } else {
      BareLookupFinds(c, r.name);
      var found := Lookup(c, TableRef(None, r.name)).value;
      var k :| k in c.tables && c.tables[k] == found;
      assert k.name == r.name;
      assert k == r;
    }
  }
}

=== FILE: pgquery.dfy ===
/** The SELECT statements `io.liveoak.pgsql.meta.QueryBuilder` prepares:
    every row of a table, or the rows whose primary key matches one of a
    list of ids, with one JDBC parameter per key component. */
module PgQuery {
  import opened Wrappers
  import opened JavaInt
  import opened PgTable
  import opened PgCatalog

  /** `asQuotedIdentifier`: the quoted schema (when there is one), '.', and
      the quoted name. */
  function QuotedRef(r: TableRef): string {
    if r.schema.Some? then Quote(r.schema.value) + "." + Quote(r.name) else Quote(r.name)
  }

  /** `selectAllFromTable(table)`: the select-all prefix, then the table's
      quoted identifier. */
  function SelectAll(table: string): (r: string)
    ensures |r| >= 14 && r[..14] == "SELECT * FROM "
    ensures r[14..] == QuotedRef(ParseRef(table))
  {
    "SELECT * FROM " + QuotedRef(ParseRef(table))
  }

  /** The two exceptions the builder throws. */
  datatype QueryError = IllegalArgument(message: string) | IllegalState(message: string)

  /** One `setString(index, value)` on the prepared statement. */
  datatype Binding = Binding(index: int, value: string)

  /** The statement text and the parameters bound to it, in call order. */
  datatype Prepared = Prepared(sql: string, bindings: seq<Binding>)

  const IdsMissing: string := "ids is null or empty"
  const NoSuchTable: string := "No such table: "

  function IncompatibleMessage(table: string, columns: nat, id: string, components: nat): string {
    "Id is incompatible with table definition: " + table + " contains " + IntToString(columns) +
      " columns, while id " + id + " contains " + IntToString(components) + " components"
  }

  /** `quotedName()` followed by the placeholder. */
  function Condition(c: Column): string {
    Quote(c.name) + "=?"
  }

  /** One condition per key column, joined by " AND ". */
  function Conditions(cols: seq<Column>): string {
    Join(" AND ", seq(|cols|, i requires 0 <= i < |cols| => Condition(cols[i])))
  }

  /** The conditions for one id; parenthesised when there are several ids
      (the opening parenthesis is written with the first column, the closing
      one even when there is none). */
  function Group(cols: seq<Column>, multi: bool): string {
    (if multi && |cols| > 0 then " (" else "") + Conditions(cols) + (if multi then ")" else "")
  }

  function Groups(cols: seq<Column>, count: nat, multi: bool): seq<string> {
    seq(count, _ => Group(cols, multi))
  }

  /** The components of every id, as `PrimaryKey.splitId` returns them. */
  function Splits(ids: seq<string>, split: string -> seq<string>): (r: seq<seq<string>>)
    ensures |r| == |ids| && forall i :: 0 <= i < |ids| ==> r[i] == split(ids[i])
  {
    seq(|ids|, i requires 0 <= i < |ids| => split(ids[i]))
  }

  function Flatten(ss: seq<seq<string>>): (r: seq<string>)
    decreases |ss|
  {
    if |ss| == 0 then [] else Flatten(ss[..|ss| - 1]) + ss[|ss| - 1]
  }

  /** The JDBC bindings: every component in order, numbered from 1. */
  function BindingsOf(parsed: seq<seq<string>>): (bs: seq<Binding>)
    ensures |bs| == |Flatten(parsed)|
    ensures forall k :: 0 <= k < |bs| ==> bs[k].index == k + 1
  {
    var flat := Flatten(parsed);
    seq(|flat|, k requires 0 <= k < |flat| => Binding(k + 1, flat[k]))
  }

  /** Every list of `ss` has `m` elements. */
  predicate Uniform(ss: seq<seq<string>>, m: nat) {
    forall i :: 0 <= i < |ss| ==> |ss[i]| == m
  }

  lemma {:induction false} FlattenLength(ss: seq<seq<string>>, m: nat)
    requires Uniform(ss, m)
    ensures |Flatten(ss)| == |ss| * m
    decreases |ss|
  {
    if |ss| > 0 {
      var n := |ss| - 1;
      assert Uniform(ss[..n], m);
      FlattenLength(ss[..n], m);
      assert |ss| * m == n * m + m;
    }
  }

  lemma {:induction false} RowFits(i: nat, n: nat, m: nat, j: nat)
    requires i < n && j < m
    ensures i * m + j < n * m
    decreases n
  {
    if i + 1 < n {
      RowFits(i, n - 1, m, j);
    }
    assert n * m == (n - 1) * m + m;
  }

  /** A uniform list of lists flattens to its lists laid end to end:
      element `j` of list `i` sits at `i * m + j`. */
  lemma {:induction false} FlattenAt(ss: seq<seq<string>>, m: nat, i: nat, j: nat)
    requires Uniform(ss, m) && i < |ss| && j < m
    ensures i * m + j < |Flatten(ss)| && Flatten(ss)[i * m + j] == ss[i][j]
    decreases |ss|
  {
    var n := |ss| - 1;
    assert Uniform(ss[..n], m);
    FlattenLength(ss[..n], m);
    FlattenLength(ss, m);
    if i < n {
      RowFits(i, n, m, j);
      FlattenAt(ss[..n], m, i, j);
      assert ss[..n][i] == ss[i];
    }
  }

  /** The first id whose component count differs from the key's. */
  function FirstIncompatible(ids: seq<string>, split: string -> seq<string>, n: nat): (r: Option<nat>)
    ensures r.None? <==> forall j :: 0 <= j < |ids| ==> |split(ids[j])| == n
    ensures r.Some? ==> (r.value < |ids| && |split(ids[r.value])| != n &&
      forall j :: 0 <= j < r.value ==> |split(ids[j])| == n)
    decreases |ids|
  {
    if |ids| == 0 then None
    else if |split(ids[0])| != n then Some(0)
    else
      var r := FirstIncompatible(ids[1..], split, n);
      assert forall j :: 1 <= j < |ids| ==> ids[j] == ids[1..][j - 1];
      if r.None? then None else Some(r.value + 1)
  }

  /** The statement `prepareSelectFromTableWhereIds` prepares, with `sep`
      written between the groups of consecutive ids. */
  function PrepareWith(c: Catalog, table: string, ids: seq<string>, split: string -> seq<string>, sep: string)
    : (r: Result<Prepared, QueryError>)
    ensures r == Err(IllegalArgument(IdsMissing)) <==> |ids| == 0
    ensures |ids| > 0 && Lookup(c, ParseRef(table)).None? ==> r == Err(IllegalState(NoSuchTable + table))
    ensures r.Ok? ==> (Lookup(c, ParseRef(table)).Some? &&
      Uniform(Splits(ids, split), |Lookup(c, ParseRef(table)).value.pk|) &&
      |r.value.bindings| == |ids| * |Lookup(c, ParseRef(table)).value.pk|)
    ensures r.Ok? ==> r.value.bindings == BindingsOf(Splits(ids, split))
  {
    if |ids| == 0 then Err(IllegalArgument(IdsMissing))
    else
      match Lookup(c, ParseRef(table))
      case None => Err(IllegalState(NoSuchTable + table))
      case Some(t) =>
        match FirstIncompatible(ids, split, |t.pk|)
        case Some(k) => Err(IllegalState(IncompatibleMessage(table, |t.pk|, ids[k], |split(ids[k])|)))
        case None =>
          FlattenLength(Splits(ids, split), |t.pk|);
          Ok(Prepared(SelectAll(table) + " WHERE " + Join(sep, Groups(t.pk, |ids|, |ids| > 1)),
                           BindingsOf(Splits(ids, split))))
  }

  /** The result when id `k` is the first whose components do not match
      the key. */
  lemma PrepareStopsAt(c: Catalog, table: string, ids: seq<string>, split: string -> seq<string>, sep: string,
                       t: Table, k: nat)
    requires Lookup(c, ParseRef(table)) == Some(t)
    requires k < |ids| && |split(ids[k])| != |t.pk| && forall j :: 0 <= j < k ==> |split(ids[j])| == |t.pk|
    ensures PrepareWith(c, table, ids, split, sep) ==
      Err(IllegalState(IncompatibleMessage(table, |t.pk|, ids[k], |split(ids[k])|)))
  {
    var f := FirstIncompatible(ids, split, |t.pk|);
    assert f.Some?;
    assert f.value == k;
  }

  /** The result when every id matches the key. */
  lemma PrepareBuilds(c: Catalog, table: string, ids: seq<string>, split: string -> seq<string>, sep: string, t: Table)
    requires |ids| > 0 && Lookup(c, ParseRef(table)) == Some(t)
    requires forall j :: 0 <= j < |ids| ==> |split(ids[j])| == |t.pk|
    ensures PrepareWith(c, table, ids, split, sep) ==
      Ok(Prepared(SelectAll(table) + " WHERE " + Join(sep, Groups(t.pk, |ids|, |ids| > 1)), BindingsOf(Splits(ids, split))))
  {
    assert FirstIncompatible(ids, split, |t.pk|).None?;
  }

  /** The builder as written: the id counter that should put " OR " between
      ids is never advanced, so nothing separates the groups. */
  function PrepareAsWritten(c: Catalog, table: string, ids: seq<string>, split: string -> seq<string>)
    : Result<Prepared, QueryError>
  {
    PrepareWith(c, table, ids, split, "")
  }

  /** The builder as intended: the groups are alternatives joined by " OR ". */
  function Prepare(c: Catalog, table: string, ids: seq<string>, split: string -> seq<string>)
    : Result<Prepared, QueryError>
  {
    PrepareWith(c, table, ids, split, " OR ")
  }

  // ---------------------------------------------------------------------
  // The builder's loops
  // ---------------------------------------------------------------------

  /** The column loop for one id. */
  method AppendGroup(prefix: string, cols: seq<Column>, multi: bool) returns (sb: string)
    ensures sb == prefix + Group(cols, multi)
  {
    sb := prefix;
    var conds := seq(|cols|, i requires 0 <= i < |cols| => Condition(cols[i]));
    var paren := if multi && |cols| > 0 then " (" else "";
    var j := 0;
    while j < |cols|
      invariant 0 <= j <= |cols|
      invariant sb == prefix + (if j > 0 then paren else "") + Join(" AND ", conds[..j])
    {
      var before := sb;
      if j > 0 {
        sb := sb + " AND ";
      } else if multi {
        sb := sb + " (";
      }
      sb := sb + "\"" + cols[j].name + "\"" + "=?";
      GroupLoopStep(prefix, paren, conds, j, multi, cols[j].name, before, sb);
      j := j + 1;
    }
    assert conds[..j] == conds;
    if multi {
      sb := sb + ")";
    }
  }

  /** One round of the column loop: the separator (or, first, the opening
      parenthesis) and the next condition extend the joined conditions. */
  lemma GroupLoopStep(prefix: string, paren: string, conds: seq<string>, j: nat, multi: bool, name: string,
                      before: string, after: string)
    requires j < |conds| && conds[j] == Quote(name) + "=?"
    requires paren == if multi then " (" else ""
    requires before == prefix + (if j > 0 then paren else "") + Join(" AND ", conds[..j])
    requires after == (if j > 0 then before + " AND " else if multi then before + " (" else before) + "\"" + name + "\"" + "=?"
    ensures after == prefix + paren + Join(" AND ", conds[..j + 1])
  {
    var piece := if j > 0 then " AND " else "";
    JoinStep(prefix + (if j > 0 then paren else ""), " AND ", conds, j, piece, conds[j]);
  }

  /** The binding loop: `setString(i, v)` for every component, `i` counting
      from 1. */
  method BindAll(parsed: seq<seq<string>>) returns (bs: seq<Binding>)
    ensures bs == BindingsOf(parsed)
  {
    bs := [];
    var flat: seq<string> := [];
    var i := 1;
    var p := 0;
    while p < |parsed|
      invariant 0 <= p <= |parsed|
      invariant flat == Flatten(parsed[..p]) && i == |bs| + 1 && |bs| == |flat|
      invariant forall k :: 0 <= k < |bs| ==> bs[k] == Binding(k + 1, flat[k])
    {
      var vals := parsed[p];
      var q := 0;
      while q < |vals|
        invariant 0 <= q <= |vals|
        invariant flat == Flatten(parsed[..p]) + vals[..q] && i == |bs| + 1 && |bs| == |flat|
        invariant forall k :: 0 <= k < |bs| ==> bs[k] == Binding(k + 1, flat[k])
      {
        bs := bs + [Binding(i, vals[q])];
        flat := flat + [vals[q]];
        assert vals[..q + 1] == vals[..q] + [vals[q]];
        i := i + 1;
        q := q + 1;
      }
      assert vals[..q] == vals;
      assert parsed[..p + 1][..p] == parsed[..p];
      p := p + 1;
    }
    assert parsed[..p] == parsed;
  }

  /** The WHERE clause after `k` ids: `k` groups, `sep` between them. */
  function WhereSoFar(cols: seq<Column>, multi: bool, sep: string, k: nat): string
    decreases k
  {
    if k == 0 then "" else WhereSoFar(cols, multi, sep, k - 1) + (if k > 1 then sep else "") + Group(cols, multi)
  }

  /** The clause built id by id is the groups joined by the separator. */
  lemma {:induction false} WhereSoFarJoins(cols: seq<Column>, multi: bool, sep: string, n: nat, k: nat)
    requires k <= n
    ensures WhereSoFar(cols, multi, sep, k) == Join(sep, Groups(cols, n, multi)[..k])
    decreases k
  {
    var groups := Groups(cols, n, multi);
    if k > 0 {
      WhereSoFarJoins(cols, multi, sep, n, k - 1);
      JoinSnoc(sep, groups, k - 1);
      if k == 1 {
        assert groups[..0] == [];
      }
    }
  }

  /** One round of the id loop extends the WHERE clause by one group. */
  lemma GroupStep(head: string, cols: seq<Column>, multi: bool, sep: string, k: nat, before: string, piece: string)
    requires before == head + WhereSoFar(cols, multi, sep, k)
    requires piece == if k > 0 then sep else ""
    ensures before + piece + Group(cols, multi) == head + WhereSoFar(cols, multi, sep, k + 1)
  {
    Regroup(before, piece, Group(cols, multi));
    Regroup(head, WhereSoFar(cols, multi, sep, k), piece + Group(cols, multi));
    Regroup(WhereSoFar(cols, multi, sep, k), piece, Group(cols, multi));
  }

  /** The id loop of `prepareSelectFromTableWhereIds`: for each id, " OR "
      when the counter `i` is positive, the split components, the
      component-count check, and the group. The counter is advanced only
      when `advance` holds; the code as written never advances it. The
      loop stops at the first id whose components do not fit the key. */
  method IdLoop(head: string, cols: seq<Column>, ids: seq<string>, split: string -> seq<string>, advance: bool)
    returns (sb: string, parsed: seq<seq<string>>, stop: Option<nat>)
    ensures stop.Some? ==> (stop.value < |ids| && |split(ids[stop.value])| != |cols| &&
      forall j :: 0 <= j < stop.value ==> |split(ids[j])| == |cols|)
    ensures stop.None? ==> ((forall j :: 0 <= j < |ids| ==> |split(ids[j])| == |cols|) &&
      parsed == Splits(ids, split) &&
      sb == head + Join(if advance then " OR " else "", Groups(cols, |ids|, |ids| > 1)))
  {
    var multi := |ids| > 1;
    ghost var sep := if advance then " OR " else "";
    ghost var splits := Splits(ids, split);
    sb := head;
    parsed := [];
    var i := 0;
    var k := 0;
    while k < |ids|
      invariant 0 <= k <= |ids| && i == (if advance then k else 0)
      invariant parsed == splits[..k]
      invariant forall j :: 0 <= j < k ==> |split(ids[j])| == |cols|
      invariant sb == head + WhereSoFar(cols, multi, sep, k)
    {
      var id := ids[k];
      var piece := if i > 0 then " OR " else "";
      ghost var before := sb;
      sb := sb + piece;
      var vals := split(id);
      parsed := parsed + [vals];
      if |cols| != |vals| {
        return sb, parsed, Some(k);
      }
      sb := AppendGroup(sb, cols, multi);
      assert piece == if k > 0 then sep else "";
      GroupStep(head, cols, multi, sep, k, before, piece);
      assert parsed == splits[..k + 1] by {
        assert splits[..k + 1] == splits[..k] + [vals];
      }
      if advance {
        i := i + 1;
      }
      k := k + 1;
    }
    WhereSoFarJoins(cols, multi, sep, |ids|, |ids|);
    assert Groups(cols, |ids|, multi)[..|ids|] == Groups(cols, |ids|, multi);
    assert parsed == splits;
    stop := None;
  }

  /** `prepareSelectFromTableWhereIds`, with the id counter advanced or, as
      written, not. */
  method PrepareSelectWith(c: Catalog, table: string, ids: seq<string>, split: string -> seq<string>, advance: bool)
    returns (r: Result<Prepared, QueryError>)
    ensures r == PrepareWith(c, table, ids, split, if advance then " OR " else "")
  {
    ghost var sep := if advance then " OR " else "";
    if |ids| == 0 {
      return Err(IllegalArgument(IdsMissing));
    }
    var head := SelectAll(table) + " WHERE ";
    var tableDef := Lookup(c, ParseRef(table));
    if tableDef.None? {
      return Err(IllegalState(NoSuchTable + table));
    }
    var cols := tableDef.value.pk;
    var sb, parsed, stop := IdLoop(head, cols, ids, split, advance);
    if stop.Some? {
      var k := stop.value;
      PrepareStopsAt(c, table, ids, split, sep, tableDef.value, k);
      return Err(IllegalState(IncompatibleMessage(table, |cols|, ids[k], |split(ids[k])|)));
    }
    var bs := BindAll(parsed);
    PrepareBuilds(c, table, ids, split, sep, tableDef.value);
    return Ok(Prepared(sb, bs));
  }

  /** The method as written. */
  method PrepareSelectAsWritten(c: Catalog, table: string, ids: seq<string>, split: string -> seq<string>)
    returns (r: Result<Prepared, QueryError>)
    ensures r == PrepareAsWritten(c, table, ids, split)
  {
    r := PrepareSelectWith(c, table, ids, split, false);
  }

  /** The method as intended. */
  method PrepareSelect(c: Catalog, table: string, ids: seq<string>, split: string -> seq<string>)
    returns (r: Result<Prepared, QueryError>)
    ensures r == Prepare(c, table, ids, split)
  {
    r := PrepareSelectWith(c, table, ids, split, true);
  }

  /** `querySelectFromTableWhereIds` as written: no ids selects the whole
      table with nothing bound; otherwise the id query as the code builds
      it, whose key groups are not separated. */
  function QueryFor(c: Catalog, table: string, ids: seq<string>, split: string -> seq<string>)
    : (r: Result<Prepared, QueryError>)
    ensures r != Err(IllegalArgument(IdsMissing))
    ensures |ids| == 0 ==> r.Ok? && r.value.bindings == [] && r.value.sql == SelectAll(table)
    ensures |ids| > 0 ==> r == PrepareAsWritten(c, table, ids, split)
  {
    if |ids| > 0 then PrepareAsWritten(c, table, ids, split) else Ok(Prepared(SelectAll(table), []))
  }

  /** `querySelectFromTableWhereIds` with the id query as intended, its key
      groups joined by " OR ". */
  function QueryForCorrected(c: Catalog, table: string, ids: seq<string>, split: string -> seq<string>)
    : (r: Result<Prepared, QueryError>)
    ensures r != Err(IllegalArgument(IdsMissing))
    ensures |ids| == 0 ==> r.Ok? && r.value.bindings == [] && r.value.sql == SelectAll(table)
    ensures |ids| > 0 ==> r == Prepare(c, table, ids, split)
  {
    if |ids| > 0 then Prepare(c, table, ids, split) else Ok(Prepared(SelectAll(table), []))
  }

  // ---------------------------------------------------------------------
  // Properties
  // ---------------------------------------------------------------------

  /** Component `j` of id `i` is bound at parameter `i * m + j + 1`, where
      `m` is the number of key columns. */
  lemma BindingsInOrder(c: Catalog, table: string, ids: seq<string>, split: string -> seq<string>, t: Table, i: nat, j: nat)
    requires Lookup(c, ParseRef(table)) == Some(t)
    requires Prepare(c, table, ids, split).Ok?
    requires i < |ids| && j < |t.pk|
    ensures var bs := Prepare(c, table, ids, split).value.bindings;
      var at: nat := i * |t.pk| + j;
      at < |bs| && j < |split(ids[i])| && bs[at] == Binding(at + 1, split(ids[i])[j])
  {
    var ss := Splits(ids, split);
    var bs := PrepareWith(c, table, ids, split, " OR ").value.bindings;
    assert bs == BindingsOf(ss) && Uniform(ss, |t.pk|);
    FlattenAt(ss, |t.pk|, i, j);
    var at: nat := i * |t.pk| + j;
    assert bs[at] == Binding(at + 1, Flatten(ss)[at]);
  }

  /** The number of '?' characters in a string. */
  function Placeholders(s: string): nat
    decreases |s|
  {
    if |s| == 0 then 0 else (if s[0] == '?' then 1 else 0) + Placeholders(s[1..])
  }

  lemma {:induction false} PlaceholdersAppend(a: string, b: string)
    ensures Placeholders(a + b) == Placeholders(a) + Placeholders(b)
    decreases |a|
  {
    if |a| > 0 {
      assert (a + b)[1..] == a[1..] + b;
      PlaceholdersAppend(a[1..], b);
    } else {
      assert a + b == b;
    }
  }

  lemma {:induction false} PlaceholdersNone(s: string)
    requires '?' !in s
    ensures Placeholders(s) == 0
    decreases |s|
  {
    if |s| > 0 {
      assert '?' !in s[1..] by {
        assert forall k :: 0 <= k < |s[1..]| ==> s[1..][k] == s[k + 1];
      }
      PlaceholdersNone(s[1..]);
    }
  }

  /** A join of parts with `m` placeholders each, by a separator with none,
      has `m` per part. */
  lemma {:induction false} PlaceholdersJoin(sep: string, parts: seq<string>, m: nat)
    requires Placeholders(sep) == 0
    requires forall i :: 0 <= i < |parts| ==> Placeholders(parts[i]) == m
    ensures Placeholders(Join(sep, parts)) == |parts| * m
    decreases |parts|
  {
    if |parts| > 1 {
      var n := |parts| - 1;
      PlaceholdersJoin(sep, parts[..n], m);
      PlaceholdersAppend(Join(sep, parts[..n]), sep);
      PlaceholdersAppend(Join(sep, parts[..n]) + sep, parts[n]);
      assert (n + 1) * m == n * m + m;
    }
  }

  /** A group has one placeholder per key column. */
  lemma PlaceholdersGroup(cols: seq<Column>, multi: bool)
    requires forall i :: 0 <= i < |cols| ==> '?' !in cols[i].name
    ensures Placeholders(Group(cols, multi)) == |cols|
  {
    var conds := seq(|cols|, i requires 0 <= i < |cols| => Condition(cols[i]));
    forall i | 0 <= i < |cols| ensures Placeholders(conds[i]) == 1 {
      PlaceholdersNone(Quote(cols[i].name));
      PlaceholdersAppend(Quote(cols[i].name), "=?");
    }
    PlaceholdersNone(" AND ");
    PlaceholdersJoin(" AND ", conds, 1);
    var pre := if multi && |cols| > 0 then " (" else "";
    var post := if multi then ")" else "";
    PlaceholdersNone(pre);
    PlaceholdersNone(post);
    PlaceholdersAppend(pre, Conditions(cols));
    PlaceholdersAppend(pre + Conditions(cols), post);
  }

  /** The table part of the statement carries no placeholder. */
  lemma PlaceholdersSelectAll(table: string)
    requires '?' !in table
    ensures Placeholders(SelectAll(table)) == 0
  {
    var r := ParseRef(table);
    RefPartsUnmarked(table);
    assert '?' !in QuotedRef(r);
    PlaceholdersNone(QuotedRef(r));
    PlaceholdersNone("SELECT * FROM ");
    PlaceholdersAppend("SELECT * FROM ", QuotedRef(r));
  }

  /** The parts of a reference parsed from a text without '?' have none. */
  lemma RefPartsUnmarked(table: string)
    requires '?' !in table
    ensures '?' !in ParseRef(table).name
    ensures ParseRef(table).schema.Some? ==> '?' !in ParseRef(table).schema.value
  {
    var r := ParseRef(table);
    if r.schema.Some? {
      var s := r.schema.value;
      assert table == s + "." + r.name;
      assert forall k :: 0 <= k < |s| ==> s[k] == table[k];
      assert forall k :: 0 <= k < |r.name| ==> r.name[k] == table[|s| + 1 + k];
    }
  }

  /** Whatever the separator, the statement has exactly one placeholder per
      binding, as long as neither the table nor the key columns' names
      contain a '?'. */
  lemma PlaceholdersMatchBindings(c: Catalog, table: string, ids: seq<string>, split: string -> seq<string>, sep: string)
    requires PrepareWith(c, table, ids, split, sep).Ok?
    requires '?' !in table && '?' !in sep
    requires forall col :: col in Lookup(c, ParseRef(table)).value.pk ==> '?' !in col.name
    ensures Placeholders(PrepareWith(c, table, ids, split, sep).value.sql) ==
      |PrepareWith(c, table, ids, split, sep).value.bindings|
  {
    var t := Lookup(c, ParseRef(table)).value;
    var groups := Groups(t.pk, |ids|, |ids| > 1);
    PlaceholdersGroup(t.pk, |ids| > 1);
    PlaceholdersNone(sep);
    PlaceholdersJoin(sep, groups, |t.pk|);
    PlaceholdersSelectAll(table);
    PlaceholdersNone(" WHERE ");
    PlaceholdersAppend(SelectAll(table), " WHERE ");
    PlaceholdersAppend(SelectAll(table) + " WHERE ", Join(sep, groups));
  }

  /** For a single id the separator never appears: the statement as written
      and as intended agree, and the conditions stand unparenthesised. */
  lemma SingleIdUnaffected(c: Catalog, table: string, id: string, split: string -> seq<string>)
    ensures PrepareAsWritten(c, table, [id], split) == Prepare(c, table, [id], split)
    ensures Prepare(c, table, [id], split).Ok? ==>
      Prepare(c, table, [id], split).value.sql ==
        SelectAll(table) + " WHERE " + Conditions(Lookup(c, ParseRef(table)).value.pk)
  {
    if Prepare(c, table, [id], split).Ok? {
      var t := Lookup(c, ParseRef(table)).value;
      assert Groups(t.pk, 1, false) == [Group(t.pk, false)];
      assert Group(t.pk, false) == Conditions(t.pk);
    }
  }

  /** With several ids the corrected statement is the table's select with a
      WHERE clause of parenthesised groups, and it puts " OR " before the
      group of every id after the first. */
  lemma CorrectedSeparatesGroups(c: Catalog, table: string, ids: seq<string>, split: string -> seq<string>, k: nat)
    requires Prepare(c, table, ids, split).Ok?
    requires 0 < k < |ids|
    ensures var cols := Lookup(c, ParseRef(table)).value.pk;
      Prepare(c, table, ids, split).value.sql == SelectAll(table) + " WHERE " + Join(" OR ", Groups(cols, |ids|, true))
    ensures var cols := Lookup(c, ParseRef(table)).value.pk;
      var groups := Groups(cols, |ids|, true);
      Join(" OR ", groups[..k + 1]) == Join(" OR ", groups[..k]) + " OR " + Group(cols, true)
  {
    var cols := Lookup(c, ParseRef(table)).value.pk;
    JoinSnoc(" OR ", Groups(cols, |ids|, true), k);
  }

  /** A one-table catalog: `public.items`, keyed by `id`. */
  function ItemsCatalog(): Catalog {
    var ref := TableRef(Some("public"), "items");
    Catalog(map[ref := ItemsTable], [ref])
  }

  /** The example table. */
  const ItemsTable: Table := Table("items", "public", "items", [ItemsKey], [ItemsKey], [])

  /** The key column of the example table. */
  const ItemsKey: Column := Column("id", "integer", false, true)

  /** `public.items` resolves to the one table of the example catalog. */
  lemma ItemsLookup(table: string)
    requires table == "public.items"
    ensures Lookup(ItemsCatalog(), ParseRef(table)) == Some(ItemsTable)
    ensures SelectAll(table) == "SELECT * FROM " + "\"public\"" + "." + "\"items\""
  {
    ItemsRef(table);
    ItemsFound(table);
    QuotedItems();
    var q := QuotedRef(TableRef(Some("public"), "items"));
    assert SelectAll(table) == "SELECT * FROM " + q;
    Regroup("SELECT * FROM ", "\"public\"" + ".", "\"items\"");
    Regroup("SELECT * FROM ", "\"public\"", ".");
  }

  /** A text naming `public.items` finds the example table. */
  lemma ItemsFound(table: string)
    requires ParseRef(table) == TableRef(Some("public"), "items")
    ensures Lookup(ItemsCatalog(), ParseRef(table)) == Some(ItemsTable)
  {
  }

  /** The quoted parts of the example table's reference. */
  lemma QuotedItems()
    ensures Quote("public") == "\"public\""
    ensures Quote("items") == "\"items\""
  {
  }

  /** "public.items" parses to schema "public" and name "items". */
  lemma ItemsRef(table: string)
    requires table == "public.items"
    ensures ParseRef(table) == TableRef(Some("public"), "items")
  {
    var ref := TableRef(Some("public"), "items");
    assert '.' !in "public";
    ParseQualified(ref);
    assert "public" + "." + "items" == "public.items";
    assert Qualified(ref) == "public" + "." + "items";
  }

  /** With two ids each group is the parenthesised condition on `id`. */
  lemma ItemsGroups()
    ensures Join("", Groups([ItemsKey], 2, true)) == " (\"id\"=?)" + " (\"id\"=?)"
    ensures Join(" OR ", Groups([ItemsKey], 2, true)) == " (\"id\"=?)" + " OR " + " (\"id\"=?)"
  {
    var g := Group([ItemsKey], true);
    ItemsGroup();
    var groups := Groups([ItemsKey], 2, true);
    assert groups == [g, g];
    JoinTwo("", g, g);
    JoinTwo(" OR ", g, g);
  }

  /** The group of the example key. */
  lemma ItemsGroup()
    ensures Group([ItemsKey], true) == " (\"id\"=?)"
  {
    assert Conditions([ItemsKey]) == "\"id\"=?";
  }

  /** Two parts joined by `sep`. */
  lemma JoinTwo(sep: string, a: string, b: string)
    ensures Join(sep, [a, b]) == a + sep + b
  {
    assert [a, b][..1] == [a];
  }

  /** The ids "1" and "2", each a single component, bind in order. */
  lemma ItemsBindings(split: string -> seq<string>)
    requires split("1") == ["1"] && split("2") == ["2"]
    ensures BindingsOf(Splits(["1", "2"], split)) == [Binding(1, "1"), Binding(2, "2")]
  {
    var parsed := Splits(["1", "2"], split);
    assert parsed == [["1"], ["2"]];
    assert parsed[..1] == [["1"]];
    assert parsed[..1][..0] == [];
    assert Flatten(parsed[..1]) == ["1"];
    assert Flatten(parsed) == ["1", "2"];
  }

  /** Two ids against a one-column key: as written, the two parenthesised
      groups abut with nothing between them; as intended, they are joined
      by " OR ". Either way two parameters are bound. */
  lemma TwoIdsLoseOr(table: string, split: string -> seq<string>)
    requires table == "public.items"
    requires split("1") == ["1"] && split("2") == ["2"]
    ensures PrepareAsWritten(ItemsCatalog(), table, ["1", "2"], split) ==
      Ok(Prepared("SELECT * FROM " + "\"public\"" + "." + "\"items\"" + " WHERE " + " (\"id\"=?)" + " (\"id\"=?)",
                  [Binding(1, "1"), Binding(2, "2")]))
    ensures Prepare(ItemsCatalog(), table, ["1", "2"], split) ==
      Ok(Prepared("SELECT * FROM " + "\"public\"" + "." + "\"items\"" + " WHERE " + " (\"id\"=?)" + " OR " + " (\"id\"=?)",
                  [Binding(1, "1"), Binding(2, "2")]))
  {
    ItemsRef(table);
    ItemsPrepare(table, split, "");
    ItemsPrepare(table, split, " OR ");
    ItemsLookup(table);
    ItemsGroups();
    var head := SelectAll(table) + " WHERE ";
    var g := " (\"id\"=?)";
    Regroup(head, g, g);
    Regroup(head, g + " OR ", g);
    Regroup(head, g, " OR ");
  }

  /** The ids "1" and "2" against the example table, with any separator. */
  lemma ItemsPrepare(table: string, split: string -> seq<string>, sep: string)
    requires ParseRef(table) == TableRef(Some("public"), "items")
    requires split("1") == ["1"] && split("2") == ["2"]
    ensures PrepareWith(ItemsCatalog(), table, ["1", "2"], split, sep) ==
      Ok(Prepared(SelectAll(table) + " WHERE " + Join(sep, Groups([ItemsKey], 2, true)), [Binding(1, "1"), Binding(2, "2")]))
  {
    ItemsFound(table);
    ItemsBindings(split);
    PrepareBuilds(ItemsCatalog(), table, ["1", "2"], split, sep, ItemsTable);
  }
}

=== FILE: pgtable.dfy ===
/** PostgreSQL table metadata (`io.liveoak.pgsql.meta.Table`): column and
    foreign-key lookup, and the `CREATE TABLE` statement a table is
    described by. */
module PgTable {
  import opened Wrappers

  /** A column: its name, its type as written in DDL, and its constraints. */
  datatype Column = Column(name: string, typeSpec: string, unique: bool, notNull: bool)

  /** A table reference; the schema may be absent (null). */
  datatype TableRef = TableRef(schema: Option<string>, name: string)

  /** A foreign key: its columns and the table they reference. */
  datatype ForeignKey = ForeignKey(columns: seq<Column>, ref: TableRef)

  /** A table: its catalog id, schema, name, columns, primary-key columns and
      foreign keys. */
  datatype Table = Table(id: string, schema: string, name: string, columns: seq<Column>,
                         pk: seq<Column>, foreignKeys: seq<ForeignKey>)

  /** Whether one of `cols` has the name `n`. */
  predicate HasColumnNamed(cols: seq<Column>, n: string) {
    exists i :: 0 <= i < |cols| && cols[i].name == n
  }

  /** `column(name)`: the first column with that name, or null. */
  function ColumnNamed(cols: seq<Column>, n: string): (r: Option<Column>)
    ensures r.None? <==> !HasColumnNamed(cols, n)
    ensures r.Some? ==> exists i :: (0 <= i < |cols| && cols[i] == r.value && cols[i].name == n &&
      forall j :: 0 <= j < i ==> cols[j].name != n)
    decreases |cols|
  {
    if |cols| == 0 then None
    else if cols[0].name == n then Some(cols[0])
    else
      var r := ColumnNamed(cols[1..], n);
      assert HasColumnNamed(cols[1..], n) ==> HasColumnNamed(cols, n) by {
        if HasColumnNamed(cols[1..], n) {
          var i :| 0 <= i < |cols[1..]| && cols[1..][i].name == n;
          assert cols[i + 1].name == n;
        }
      }
      assert HasColumnNamed(cols, n) ==> HasColumnNamed(cols[1..], n) by {
        if HasColumnNamed(cols, n) {
          var i :| 0 <= i < |cols| && cols[i].name == n;
          assert i > 0 && cols[1..][i - 1].name == n;
        }
      }
      assert r.Some? ==> exists i :: (0 <= i < |cols| && cols[i] == r.value && cols[i].name == n &&
        forall j :: 0 <= j < i ==> cols[j].name != n) by {
        if r.Some? {
          var i :| 0 <= i < |cols[1..]| && cols[1..][i] == r.value && cols[1..][i].name == n &&
            forall j :: 0 <= j < i ==> cols[1..][j].name != n;
          assert forall j :: 0 <= j < i + 1 ==> cols[j].name != n by {
            forall j | 0 <= j < i + 1 ensures cols[j].name != n {
              if j > 0 { assert cols[j] == cols[1..][j - 1]; }
            }
          }
          assert cols[i + 1] == r.value;
        }
      }
      r
  }

  /** `foreignKeyForColumnName(name)`: the first foreign key with a column
      of that name, or null. */
  function ForeignKeyFor(fks: seq<ForeignKey>, n: string): (r: Option<ForeignKey>)
    ensures r.None? <==> forall i :: 0 <= i < |fks| ==> !HasColumnNamed(fks[i].columns, n)
    ensures r.Some? ==> exists i :: (0 <= i < |fks| && fks[i] == r.value && HasColumnNamed(fks[i].columns, n) &&
      forall j :: 0 <= j < i ==> !HasColumnNamed(fks[j].columns, n))
    decreases |fks|
  {
    if |fks| == 0 then None
    else if ColumnNamed(fks[0].columns, n).Some? then Some(fks[0])
    else
      var r := ForeignKeyFor(fks[1..], n);
      assert r.Some? ==> exists i :: (0 <= i < |fks| && fks[i] == r.value && HasColumnNamed(fks[i].columns, n) &&
        forall j :: 0 <= j < i ==> !HasColumnNamed(fks[j].columns, n)) by {
        if r.Some? {
          var i :| 0 <= i < |fks[1..]| && fks[1..][i] == r.value && HasColumnNamed(fks[1..][i].columns, n) &&
            forall j :: 0 <= j < i ==> !HasColumnNamed(fks[1..][j].columns, n);
          forall j | 0 <= j < i + 1 ensures !HasColumnNamed(fks[j].columns, n) {
            if j > 0 { assert fks[j] == fks[1..][j - 1]; }
          }
          assert fks[i + 1] == r.value;
        }
      }
      assert (forall i :: 0 <= i < |fks[1..]| ==> !HasColumnNamed(fks[1..][i].columns, n)) ==>
        forall i :: 0 <= i < |fks| ==> !HasColumnNamed(fks[i].columns, n) by {
        if forall i :: 0 <= i < |fks[1..]| ==> !HasColumnNamed(fks[1..][i].columns, n) {
          forall i | 0 <= i < |fks| ensures !HasColumnNamed(fks[i].columns, n) {
            if i > 0 { assert fks[i] == fks[1..][i - 1]; }
          }
        }
      }
      r
  }

  // ---------------------------------------------------------------------
  // ddl
  // ---------------------------------------------------------------------

  /** `parts` with `sep` between consecutive parts. */
  function Join(sep: string, parts: seq<string>): string
    decreases |parts|
  {
    if |parts| == 0 then ""
    else if |parts| == 1 then parts[0]
    else Join(sep, parts[..|parts| - 1]) + sep + parts[|parts| - 1]
  }

  /** Joining one more part adds the separator only after the first. */
  lemma JoinSnoc(sep: string, parts: seq<string>, k: nat)
    requires k < |parts|
    ensures Join(sep, parts[..k + 1]) == if k == 0 then parts[0] else Join(sep, parts[..k]) + sep + parts[k]
  {
    assert parts[..k + 1][..k] == parts[..k];
  }

  function Quote(s: string): string {
    "\"" + s + "\""
  }

  const ColumnSep: string := ",\n    "

  function Header(t: Table): string {
    "CREATE TABLE \"" + t.schema + "\".\"" + t.name + "\" ( \n    "
  }

  /** One column definition: the quoted name and type, then UNIQUE and
      NOT NULL, neither of which is written for a key column. */
  function ColumnDef(c: Column, pk: seq<Column>): string {
    var inKey := HasColumnNamed(pk, c.name);
    Quote(c.name) + " " + c.typeSpec + (if c.unique && !inKey then " UNIQUE " else "") +
      (if c.notNull && !inKey then " NOT NULL" else "")
  }

  function ColumnDefs(t: Table): seq<string> {
    seq(|t.columns|, i requires 0 <= i < |t.columns| => ColumnDef(t.columns[i], t.pk))
  }

  /** Quoted column names separated by ", ". */
  function NameList(cols: seq<Column>): string {
    Join(", ", seq(|cols|, i requires 0 <= i < |cols| => Quote(cols[i].name)))
  }

  function PkClause(pk: seq<Column>): string {
    if |pk| > 0 then ",\n    PRIMARY KEY (" + NameList(pk) + ")" else ""
  }

  /** The schema as Java concatenation writes it: "null" when absent. */
  function SchemaText(r: TableRef): string {
    if r.schema.Some? then r.schema.value else "null"
  }

  /** One foreign key clause; the referenced columns are the key of the
      referenced table, or none when that table is unknown. */
  function FkClause(fk: ForeignKey, tables: map<TableRef, Table>): string {
    ",\n    FOREIGN KEY (" + NameList(fk.columns) + ") REFERENCES \"" + SchemaText(fk.ref) + "\".\"" +
      fk.ref.name + "\" (" + (if fk.ref in tables then NameList(tables[fk.ref].pk) else "") + ")"
  }

  function FkClauses(fks: seq<ForeignKey>, tables: map<TableRef, Table>): string
    decreases |fks|
  {
    if |fks| == 0 then "" else FkClauses(fks[..|fks| - 1], tables) + FkClause(fks[|fks| - 1], tables)
  }

  /** The `CREATE TABLE` statement, assembled part by part. */
  function Ddl(t: Table, tables: map<TableRef, Table>): string {
    Header(t) + Join(ColumnSep, ColumnDefs(t)) + PkClause(t.pk) + FkClauses(t.foreignKeys, tables) + "\n)\n"
  }

  /** Concatenation regroups freely. */
  lemma Regroup(a: string, b: string, c: string)
    ensures (a + b) + c == a + (b + c)
  {
  }

  /** One round of a separator-joining loop: appending the separator (not
      before the first part) and the next part extends the join by one. */
  lemma JoinStep(prefix: string, sep: string, parts: seq<string>, k: nat, piece: string, part: string)
    requires k < |parts| && part == parts[k]
    requires piece == if k > 0 then sep else ""
    ensures prefix + Join(sep, parts[..k]) + (piece + part) == prefix + Join(sep, parts[..k + 1])
  {
    JoinSnoc(sep, parts, k);
    var j := Join(sep, parts[..k]);
    if k == 0 {
      assert parts[..0] == [];
      assert j == "" && piece == "";
      assert prefix + j + (piece + part) == prefix + part;
    } else {
      assert piece == sep;
      Regroup(prefix, j, sep + part);
      Regroup(j, sep, part);
    }
  }

  /** `ddl(tables)`, built the way the string builder does. */
  method BuildDdl(t: Table, tables: map<TableRef, Table>) returns (sb: string)
    ensures sb == Ddl(t, tables)
  {
    sb := "CREATE TABLE \"" + t.schema + "\".\"" + t.name + "\" ( \n    ";
    assert sb == Header(t);
    sb := AppendColumnDefs(sb, t);
    var s1 := sb;
    var pkcols := t.pk;
    if |pkcols| > 0 {
      var clause := ",\n    PRIMARY KEY (";
      clause := AppendNames(clause, pkcols);
      clause := clause + ")";
      sb := sb + clause;
    }
    assert sb == s1 + PkClause(t.pk);
    var s2 := sb;
    sb := AppendForeignKeys(sb, t.foreignKeys, tables);
    assert sb == s2 + FkClauses(t.foreignKeys, tables);
    sb := sb + "\n)\n";
  }

  /** The column loop: each definition, the separator between them. */
  method AppendColumnDefs(prefix: string, t: Table) returns (sb: string)
    ensures sb == prefix + Join(ColumnSep, ColumnDefs(t))
  {
    sb := prefix;
    var defs := ColumnDefs(t);
    var i := 0;
    while i < |t.columns|
      invariant 0 <= i <= |t.columns|
      invariant sb == prefix + Join(ColumnSep, defs[..i])
    {
      var piece := if i > 0 then ColumnSep else "";
      var def := WriteColumn(t.columns[i], t.pk);
      JoinStep(prefix, ColumnSep, defs, i, piece, def);
      sb := sb + (piece + def);
      i := i + 1;
    }
    assert defs[..i] == defs;
  }

  /** One column's definition as the loop body writes it. */
  method WriteColumn(col: Column, pk: seq<Column>) returns (def: string)
    ensures def == ColumnDef(col, pk)
  {
    def := "\"" + col.name + "\" " + col.typeSpec;
    var partOfPk := ColumnNamed(pk, col.name).Some?;
    if col.unique && !partOfPk {
      def := def + " UNIQUE ";
    }
    if col.notNull && !partOfPk {
      def := def + " NOT NULL";
    }
  }

  /** The foreign-key loop: one clause per key, in order. */
  method AppendForeignKeys(prefix: string, fkeys: seq<ForeignKey>, tables: map<TableRef, Table>) returns (sb: string)
    ensures sb == prefix + FkClauses(fkeys, tables)
  {
    sb := prefix;
    var k := 0;
    while k < |fkeys|
      invariant 0 <= k <= |fkeys|
      invariant sb == prefix + FkClauses(fkeys[..k], tables)
    {
      var clause := AppendForeignKey(fkeys[k], tables);
      ghost var done := FkClauses(fkeys[..k], tables);
      FkClausesSnoc(fkeys, k, tables);
      Regroup(prefix, done, clause);
      sb := sb + clause;
      assert sb == prefix + FkClauses(fkeys[..k + 1], tables);
      k := k + 1;
    }
    assert fkeys[..k] == fkeys;
  }

  /** Taking one more key adds that key's clause at the end. */
  lemma FkClausesSnoc(fks: seq<ForeignKey>, k: nat, tables: map<TableRef, Table>)
    requires k < |fks|
    ensures FkClauses(fks[..k + 1], tables) == FkClauses(fks[..k], tables) + FkClause(fks[k], tables)
  {
    assert fks[..k + 1][..k] == fks[..k];
  }

  /** One foreign-key clause: the key's columns, the referenced table, and
      that table's key columns when the table is known. */
  method AppendForeignKey(fk: ForeignKey, tables: map<TableRef, Table>) returns (clause: string)
    ensures clause == FkClause(fk, tables)
  {
    clause := ",\n    FOREIGN KEY (";
    clause := AppendNames(clause, fk.columns);
    clause := clause + ") REFERENCES \"" + SchemaText(fk.ref) + "\".\"" + fk.ref.name + "\" (";
    if fk.ref in tables {
      clause := AppendNames(clause, tables[fk.ref].pk);
    }
    clause := clause + ")";
  }

  /** The inner loops: each quoted name, ", " between them. */
  method AppendNames(prefix: string, cols: seq<Column>) returns (sb: string)
    ensures sb == prefix + NameList(cols)
  {
    sb := prefix;
    var names := seq(|cols|, i requires 0 <= i < |cols| => Quote(cols[i].name));
    var i := 0;
    while i < |cols|
      invariant 0 <= i <= |cols|
      invariant sb == prefix + Join(", ", names[..i])
    {
      var piece := if i > 0 then ", " else "";
      var name := "\"" + cols[i].name + "\"";
      JoinStep(prefix, ", ", names, i, piece, name);
      sb := sb + (piece + name);
      i := i + 1;
    }
    assert names[..i] == names;
  }

  /** The statement opens with the table's quoted schema and name and closes
      with the parenthesis on a line of its own; a key column carries no
      UNIQUE or NOT NULL; the key clause is there exactly for a non-empty
      key. */
  lemma DdlFrame(t: Table, tables: map<TableRef, Table>)
    ensures Ddl(t, tables)[..|Header(t)|] == Header(t)
    ensures |Ddl(t, tables)| >= |Header(t)| + 3
    ensures Ddl(t, tables)[|Ddl(t, tables)| - 3..] == "\n)\n"
    ensures forall c :: c in t.columns && HasColumnNamed(t.pk, c.name) ==>
      ColumnDef(c, t.pk) == Quote(c.name) + " " + c.typeSpec
    ensures PkClause(t.pk) == "" <==> |t.pk| == 0
  {
    var rest := Join(ColumnSep, ColumnDefs(t)) + PkClause(t.pk) + FkClauses(t.foreignKeys, tables);
    Framed(Header(t), rest, "\n)\n");
    KeyColumnsPlain(t);
    PkClauseEmpty(t.pk);
  }

  /** A key column's definition is its quoted name and type only. */
  lemma KeyColumnsPlain(t: Table)
    ensures forall c :: c in t.columns && HasColumnNamed(t.pk, c.name) ==>
      ColumnDef(c, t.pk) == Quote(c.name) + " " + c.typeSpec
  {
  }

  /** The key clause is empty exactly for an empty key. */
  lemma PkClauseEmpty(pk: seq<Column>)
    ensures PkClause(pk) == "" <==> |pk| == 0
  {
    if |pk| > 0 {
      assert PkClause(pk)[0] == ',';
    }
  }

  /** A string built as head, middle and tail starts with the head and ends
      with the tail. */
  lemma Framed(head: string, mid: string, tail: string)
    ensures (head + mid + tail)[..|head|] == head
    ensures (head + mid + tail)[|head + mid + tail| - |tail|..] == tail
  {
  }
}

=== FILE: pipeline.dfy ===
/** The pipeline runner: a singly-linked chain of processors with a cursor.
    Processors are linked with `next(p)`; `proceed(v)` moves the cursor one
    processor forward and invokes it with `v`. The processors' own behaviour is
    outside this module: a run is recorded as the trace of invocations. */
module Pipeline {
  import opened Wrappers

  // ---------------------------------------------------------------------
  // Linking processors (`Processor.next(p)`)
  // ---------------------------------------------------------------------

  /** `tail.next(p)`: sets the successor of `tail` to `p` and returns `p`. */
  function Next<P(==)>(succ: map<P, P>, tail: P, p: P): (r: (map<P, P>, P))
    ensures r.1 == p
    ensures tail in r.0 && r.0[tail] == p
    ensures r.0.Keys == succ.Keys + {tail}
    ensures forall q :: q in succ && q != tail ==> r.0[q] == succ[q]
  {
    (succ[tail := p], p)
  }

  /** Repeated `tail = tail.next(p)` for each `p` of `rest`, starting at `tail`. */
  function Link<P(==)>(succ: map<P, P>, tail: P, rest: seq<P>): map<P, P>
    decreases |rest|
  {
    if |rest| == 0 then succ
    else
      var (succ', tail') := Next(succ, tail, rest[0]);
      Link(succ', tail', rest[1..])
  }

  /** The processors met by following `next()` from `start`, at most `n` of them. */
  function Walk<P(==)>(succ: map<P, P>, start: P, n: nat): seq<P>
    decreases n
  {
    if n == 0 then []
    else [start] + (if start in succ then Walk(succ, succ[start], n - 1) else [])
  }

  predicate Distinct<P(==)>(s: seq<P>) {
    forall i, j :: 0 <= i < j < |s| ==> s[i] != s[j]
  }

  lemma {:induction false} LinkSuccessors<P>(succ: map<P, P>, tail: P, rest: seq<P>)
    requires Distinct([tail] + rest)
    ensures var c := [tail] + rest; var r := Link(succ, tail, rest);
      && (forall i :: 0 <= i < |rest| ==> c[i] in r && r[c[i]] == c[i + 1])
      && (forall q :: q !in c[..|rest|] ==> (q in r <==> q in succ))
      && (forall q :: q !in c[..|rest|] && q in succ ==> r[q] == succ[q])
    decreases |rest|
  {
    var c := [tail] + rest;
    if |rest| > 0 {
      var succ' := succ[tail := rest[0]];
      assert Distinct([rest[0]] + rest[1..]) by {
        assert [rest[0]] + rest[1..] == c[1..];
      }
      LinkSuccessors(succ', rest[0], rest[1..]);
      var r := Link(succ, tail, rest);
      assert r == Link(succ', rest[0], rest[1..]);
      var c' := [rest[0]] + rest[1..];
      assert c' == c[1..];
      forall i | 0 <= i < |rest|
        ensures c[i] in r && r[c[i]] == c[i + 1]
      {
        if i > 0 {
          assert c[i] == c'[i - 1];
        } else {
          assert c[0] !in c'[..|rest| - 1] by {
            forall k | 0 <= k < |rest| - 1 ensures c'[k] != c[0] {
              assert c'[k] == c[k + 1];
            }
          }
        }
      }
      forall q | q !in c[..|rest|]
        ensures (q in r <==> q in succ) && (q in succ ==> r[q] == succ[q])
      {
        assert q != tail by { assert c[0] == tail; }
        assert q !in c'[..|rest| - 1] by {
          forall k | 0 <= k < |rest| - 1 ensures c'[k] != q {
            assert c'[k] == c[k + 1];
          }
        }
      }
    }
  }

  /** One step of a walk of positive length. */
  lemma WalkStep<P>(succ: map<P, P>, start: P, n: nat)
    requires n > 0
    ensures start in succ ==> Walk(succ, start, n) == [start] + Walk(succ, succ[start], n - 1)
    ensures start !in succ ==> Walk(succ, start, n) == [start]
  {
  }

  /** `succ` takes the processor at position `k` of `c` to the next one. */
  predicate LinksAt<P(==)>(succ: map<P, P>, c: seq<P>, k: int) {
    0 <= k < |c| - 1 && c[k] in succ && succ[c[k]] == c[k + 1]
  }

  lemma {:induction false} WalkFollowsChain<P>(succ: map<P, P>, c: seq<P>, extra: nat)
    requires |c| > 0
    requires forall k :: 0 <= k < |c| - 1 ==> LinksAt(succ, c, k)
    requires c[|c| - 1] !in succ
    ensures Walk(succ, c[0], |c| + extra) == c
    decreases |c|
  {
    WalkStep(succ, c[0], |c| + extra);
    if |c| > 1 {
      assert LinksAt(succ, c, 0);
      var tail := c[1..];
      forall k | 0 <= k < |tail| - 1 ensures LinksAt(succ, tail, k) {
        assert LinksAt(succ, c, k + 1);
      }
      WalkFollowsChain(succ, tail, extra);
      assert c == [c[0]] + tail;
    } else {
      assert c == [c[0]];
    }
  }

  /** Linking fresh, distinct processors one after another builds a linear
      chain: walking `next()` from the head meets them in insertion order and
      stops after the last one (one extra step finds no successor). */
  lemma BuildChainInOrder<P>(chain: seq<P>)
    requires |chain| > 0 && Distinct(chain)
    ensures Walk(Link(map[], chain[0], chain[1..]), chain[0], |chain| + 1) == chain
  {
    LinkedChainEnds(chain);
    WalkFollowsChain(Link(map[], chain[0], chain[1..]), chain, 1);
  }

  lemma LinkedChainEnds<P>(chain: seq<P>)
    requires |chain| > 0 && Distinct(chain)
    ensures var r := Link(map[], chain[0], chain[1..]);
      && (forall k :: 0 <= k < |chain| - 1 ==> LinksAt(r, chain, k))
      && chain[|chain| - 1] !in r
  {
    var rest := chain[1..];
    assert [chain[0]] + rest == chain;
    LinkSuccessors(map[], chain[0], rest);
    var last := chain[|chain| - 1];
    assert last !in chain[..|rest|] by {
      forall k | 0 <= k < |rest| ensures chain[..|rest|][k] != last {
        assert chain[..|rest|][k] == chain[k];
      }
    }
  }

  /** The processors of the HTTP request handler. */
  datatype HttpProcessor =
    | HttpRequestProcessor
    | ResourceRequestProcessor
    | ResourceResponseBodyProcessor
    | HttpResponseProcessor

  function HttpChain(): seq<HttpProcessor> {
    [HttpRequestProcessor, ResourceRequestProcessor, ResourceResponseBodyProcessor, HttpResponseProcessor]
  }

  /** The handler links request -> resource-request -> response-body ->
      http-response, and that is the order the pipeline walks them in. */
  lemma HttpChainOrder()
    ensures Walk(Link(map[], HttpRequestProcessor, HttpChain()[1..]), HttpRequestProcessor, 5) == HttpChain()
  {
    BuildChainInOrder(HttpChain());
  }

  // ---------------------------------------------------------------------
  // The runner
  // ---------------------------------------------------------------------

  /** A pipeline: the chain reachable from `head` (empty when head is null),
      whether `head` is still set, and the cursor `current` as an index. */
  datatype Runner<P> = Runner(chain: seq<P>, hasHead: bool, current: Option<nat>)
  {
    predicate Valid() {
      && (hasHead ==> |chain| > 0)
      && (current.Some? ==> current.value < |chain|)
    }

    /** The run is over: `head` was cleared and the cursor is gone. */
    predicate Finished() {
      !hasHead && current.None?
    }
  }

  /** One invocation `chain[index].process(input)`; `None` stands for null. */
  datatype Invocation<V> = Invocation(index: nat, input: Option<V>)

  /** A pipeline whose `head` is the first processor of `chain`. */
  function Fresh<P>(chain: seq<P>): (r: Runner<P>)
    ensures r.Valid() && r.current.None?
  {
    Runner(chain, |chain| > 0, None)
  }

  /** `proceed(v)`. */
  function Proceed<P, V>(r: Runner<P>, v: Option<V>): (res: (Runner<P>, Option<Invocation<V>>))
    requires r.Valid()
    ensures res.0.Valid() && res.0.chain == r.chain
    // the first call starts at the head
    ensures r.current.None? && r.hasHead ==> res.1 == Some(Invocation(0, v))
    // every later call invokes the successor of the last invoked processor
    ensures r.current.Some? && r.current.value + 1 < |r.chain| ==>
      res.1 == Some(Invocation(r.current.value + 1, v))
    ensures res.1.Some? ==> res.0.current == Some(res.1.value.index) && res.0.hasHead == r.hasHead
    // past the tail nothing runs and the head is cleared
    ensures res.1.None? ==> res.0.Finished()
    ensures r.Finished() ==> res.0 == r && res.1.None?
    // a call after the tail, or on a pipeline with no head, invokes nothing
    ensures r.current.Some? && r.current.value + 1 >= |r.chain| ==> res.1.None? && res.0.Finished()
    ensures r.current.None? && !r.hasHead ==> res.1.None? && res.0.Finished()
  {
    var next: Option<nat> :=
      if r.current.None? then (if r.hasHead then Some(0) else None)
      else if r.current.value + 1 < |r.chain| then Some(r.current.value + 1)
      else None;
    if next.Some? then (r.(current := next), Some(Invocation(next.value, v)))
    else (r.(current := None, hasHead := false), None)
  }

  /** What a processor leaves the pipeline to do when its `process` returns:
      one `proceed(input)`, or nothing because the run resumes elsewhere. */
  datatype Continuation<V> = ProceedWith(input: Option<V>) | Suspend

  /** `proceed()`, which is `proceed(null)`. */
  function ProceedEmpty<P, V>(r: Runner<P>): (res: (Runner<P>, Option<Invocation<V>>))
    requires r.Valid()
    ensures res == Proceed(r, None)
    ensures res.1.Some? ==> res.1.value.input.None?
  {
    Proceed(r, None)
  }

  /** A sequence of `proceed` calls, with the trace of invocations it causes. */
  function Run<P, V>(r: Runner<P>, inputs: seq<Option<V>>): (res: (Runner<P>, seq<Invocation<V>>))
    requires r.Valid()
    ensures res.0.Valid() && res.0.chain == r.chain
    decreases |inputs|
  {
    if |inputs| == 0 then (r, [])
    else
      var (r1, inv) := Proceed(r, inputs[0]);
      var (r2, trace) := Run(r1, inputs[1..]);
      (r2, (if inv.Some? then [inv.value] else []) + trace)
  }

  function Min(a: nat, b: nat): nat {
    if a < b then a else b
  }

  /** The cursor of a runner that has invoked the first `k` processors. */
  function CursorAfter(k: nat): Option<nat> {
    if k == 0 then None else Some(k - 1)
  }

  lemma {:induction false} RunFrom<P, V>(r: Runner<P>, k: nat, inputs: seq<Option<V>>)
    requires r.Valid() && r.hasHead && k <= |r.chain| && r.current == CursorAfter(k)
    ensures var (r', trace) := Run(r, inputs);
      && |trace| == Min(|inputs|, |r.chain| - k)
      && (forall j :: 0 <= j < |trace| ==> trace[j] == Invocation(k + j, inputs[j]))
      && (|inputs| <= |r.chain| - k ==> r'.hasHead && r'.current == CursorAfter(k + |inputs|))
      && (|inputs| > |r.chain| - k ==> r'.Finished())
    decreases |inputs|
  {
    if |inputs| > 0 {
      var (r1, inv) := Proceed(r, inputs[0]);
      if k < |r.chain| {
        assert inv == Some(Invocation(k, inputs[0]));
        RunFrom(r1, k + 1, inputs[1..]);
      } else {
        assert r1.Finished();
        FinishedRunIsSilent(r1, inputs[1..]);
      }
    }
  }

  /** Once the run is over, every further `proceed` is a no-op. */
  lemma {:induction false} FinishedRunIsSilent<P, V>(r: Runner<P>, inputs: seq<Option<V>>)
    requires r.Valid() && r.Finished()
    ensures Run(r, inputs) == (r, [])
    decreases |inputs|
  {
    if |inputs| > 0 {
      assert Proceed(r, inputs[0]) == (r, None);
      FinishedRunIsSilent(r, inputs[1..]);
      var none: seq<Invocation<V>> := [];
      assert Run(r, inputs) == (Run(r, inputs[1..]).0, none + Run(r, inputs[1..]).1);
      assert none + [] == [];
    }
  }

  /** On a fresh pipeline the j-th `proceed` invokes processor j with the j-th
      input, so the cursor advances exactly one position per call; once it
      passes the tail the head is cleared and nothing more is invoked. */
  lemma FreshRunTrace<P, V>(chain: seq<P>, inputs: seq<Option<V>>)
    ensures var (r', trace) := Run(Fresh(chain), inputs);
      && |trace| == Min(|inputs|, |chain|)
      && (forall j :: 0 <= j < |trace| ==> trace[j] == Invocation(j, inputs[j]))
      && (|inputs| > |chain| ==> r'.Finished())
  {
    if |chain| > 0 {
      RunFrom(Fresh(chain), 0, inputs);
    } else {
      assert Fresh(chain).Finished();
      FinishedRunIsSilent(Fresh(chain), inputs);
    }
  }

  // ---------------------------------------------------------------------
  // Association with the request context (`associate` / `instance`)
  // ---------------------------------------------------------------------

  const PipelineAttribute: string := "Pipeline"

  /** `associate(ctx)`: stores the pipeline under the "Pipeline" request attribute. */
  function Associate<A>(attrs: map<string, A>, p: A): (r: map<string, A>)
    ensures Instance(r) == Some(p)
    ensures forall k :: k != PipelineAttribute ==> (k in r <==> k in attrs)
    ensures forall k :: k != PipelineAttribute && k in attrs ==> r[k] == attrs[k]
  {
    attrs[PipelineAttribute := p]
  }

  /** `instance(ctx)`: the pipeline stored under the "Pipeline" attribute, or null. */
  function Instance<A>(attrs: map<string, A>): (r: Option<A>)
    ensures r.Some? <==> PipelineAttribute in attrs
    ensures r.Some? ==> r.value == attrs[PipelineAttribute]
  {
    if PipelineAttribute in attrs then Some(attrs[PipelineAttribute]) else None
  }

  /** `instance` returns the pipeline of the most recent `associate`. */
  lemma InstanceIsLastAssociated<A>(attrs: map<string, A>, p1: A, p2: A)
    ensures Instance(Associate(Associate(attrs, p1), p2)) == Some(p2)
  {
  }
}

=== FILE: request.dfy ===
/** Decoding an HTTP exchange into a resource request: method to request
    type, path extension, the Accept default, and the READ-only pagination,
    return-fields and sorting parameters. */
module Request {
  import opened Wrappers
  import opened JavaInt
  import opened Params

  /** The kind of resource operation a request asks for. */
  datatype RequestType = Create | Read | Update | Delete

  /** A request header map; lookups use the canonical header names below. */
  type Headers = map<string, seq<string>>

  const AcceptHeader: string := "Accept"
  const ContentTypeHeader: string := "Content-Type"
  const AuthorizationHeader: string := "Authorization"
  const DefaultAccept: string := "application/json"

  /** The parts of an HTTP exchange the request decoder reads. */
  datatype Exchange = Exchange(
    verb: string,
    uri: string,
    headers: Headers,
    query: Option<map<string, seq<string>>>)

  /** `getFirst(name)`: the first value of a header, or null. */
  function FirstHeader(h: Headers, name: string): (r: Option<string>)
    ensures r.Some? <==> name in h && |h[name]| > 0
    ensures r.Some? ==> r.value == h[name][0]
  {
    if name in h && |h[name]| > 0 then Some(h[name][0]) else None
  }

  /** A character in upper case when it is an ASCII letter, and unchanged
      otherwise. */
  function UpperAscii(c: char): (u: char)
    ensures 'a' <= c <= 'z' ==> 'A' <= u <= 'Z' && u as int == c as int - 32
    ensures !('a' <= c <= 'z') ==> u == c
  {
    if 'a' <= c <= 'z' then (c as int - 32) as char else c
  }

  /** The text with its ASCII letters in upper case: the form under which
      `HttpString.equals` compares two method names. */
  function Upper(s: string): (r: string)
    ensures |r| == |s| && forall i :: 0 <= i < |s| ==> r[i] == UpperAscii(s[i])
  {
    seq(|s|, i requires 0 <= i < |s| => UpperAscii(s[i]))
  }

  /** Folding twice folds once. */
  lemma UpperIdempotent(s: string)
    ensures Upper(Upper(s)) == Upper(s)
  {
  }

  /** The request type of an HTTP method, compared with `Methods.X` as
      `HttpString.equals` does, ignoring the case of ASCII letters; other
      methods raise UnsupportedOperationException carrying the method name
      as it was sent. */
  function RequestTypeOf(verb: string): (r: Result<RequestType, string>)
    ensures r == Ok(Create) <==> Upper(verb) == "POST"
    ensures r == Ok(Read) <==> Upper(verb) == "GET"
    ensures r == Ok(Update) <==> Upper(verb) == "PUT"
    ensures r == Ok(Delete) <==> Upper(verb) == "DELETE"
    ensures r.Err? ==> r.error == verb
  {
    var m := Upper(verb);
    if m == "POST" then Ok(Create)
    else if m == "GET" then Ok(Read)
    else if m == "PUT" then Ok(Update)
    else if m == "DELETE" then Ok(Delete)
    else Err(verb)
  }

  /** The case of a method name never changes its request type: a name is
      accepted exactly when its upper-case form is, with the same type. */
  lemma MethodCaseIgnored(verb: string)
    ensures RequestTypeOf(Upper(verb)).Ok? <==> RequestTypeOf(verb).Ok?
    ensures RequestTypeOf(verb).Ok? ==> RequestTypeOf(Upper(verb)) == RequestTypeOf(verb)
  {
    UpperIdempotent(verb);
  }

  /** Lower- and mixed-case names are accepted; a name that is not one of
      the four, in any case, is refused with its own text. */
  lemma MethodCaseExamples()
    ensures RequestTypeOf("get") == Ok(Read)
    ensures RequestTypeOf("Delete") == Ok(Delete)
    ensures RequestTypeOf("patch") == Err("patch")
  {
    assert Upper("get") == "GET";
    assert Upper("Delete") == "DELETE";
    assert Upper("patch") == "PATCH";
  }

  /** `s.lastIndexOf(c)`: the greatest index holding `c`, or -1. */
  function LastIndexOf(s: string, c: char): (r: int)
    ensures -1 <= r < |s|
    ensures r == -1 <==> c !in s
    ensures r >= 0 ==> s[r] == c && forall j :: r < j < |s| ==> s[j] != c
    decreases |s|
  {
    if |s| == 0 then -1
    else if s[|s| - 1] == c then |s| - 1
    else
      assert s == s[..|s| - 1] + [s[|s| - 1]];
      LastIndexOf(s[..|s| - 1], c)
  }

  /** The path extension: what follows the last '.', provided that dot is not
      the first character; null otherwise. */
  function Extension(path: string): (r: Option<string>)
    ensures r.Some? <==> LastIndexOf(path, '.') > 0
    ensures r.Some? ==> '.' !in r.value && |r.value| + 1 < |path|
    ensures r.Some? ==> path == path[..|path| - |r.value| - 1] + "." + r.value
  {
    var dot := LastIndexOf(path, '.');
    if dot > 0 then
      var ext := path[dot + 1..];
      assert '.' !in ext by {
        forall j | 0 <= j < |ext| ensures ext[j] != '.' { assert ext[j] == path[dot + 1 + j]; }
      }
      assert path == path[..dot] + "." + ext;
      Some(ext)
    else None
  }

  /** A path made of a non-empty stem, a dot and a dot-free suffix has that
      suffix as its extension. */
  lemma ExtensionOfSuffix(stem: string, ext: string)
    requires |stem| > 0 && '.' !in ext
    ensures Extension(stem + "." + ext) == Some(ext)
  {
    var path := stem + "." + ext;
    assert path[|stem|] == '.';
    forall j | |stem| < j < |path| ensures path[j] != '.' {
      assert path[j] == ext[j - |stem| - 1];
    }
    assert LastIndexOf(path, '.') == |stem|;
    assert path[|stem| + 1..] == ext;
  }

  /** The Accept value given to the media-type matcher. */
  function EffectiveAccept(h: Headers): (r: string)
    ensures FirstHeader(h, AcceptHeader).Some? ==> r == FirstHeader(h, AcceptHeader).value
    ensures FirstHeader(h, AcceptHeader).None? ==> r == DefaultAccept
  {
    FirstHeader(h, AcceptHeader).GetOr(DefaultAccept)
  }

  /** `limit(value, lower, upper)`: clamps `value` into `[lower, upper]`. */
  function Limit(value: int, lower: int, upper: int): (r: int)
    ensures value < lower ==> r == lower
    ensures lower <= value <= upper ==> r == value
    ensures lower <= value && upper < value ==> r == upper
    ensures lower <= upper ==> lower <= r <= upper
  {
    if value < lower then lower else if value > upper then upper else value
  }

  /** Clamping twice is clamping once. */
  lemma LimitIdempotent(value: int, lower: int, upper: int)
    requires lower <= upper
    ensures Limit(Limit(value, lower, upper), lower, upper) == Limit(value, lower, upper)
  {
  }

  /** The processor's own `intValue`: the default for a null or malformed
      string, the parsed int otherwise. */
  function IntValueOr(value: Option<string>, def: int): (r: int)
    ensures value.None? ==> r == def
    ensures value.Some? && ParseInt(value.value).None? ==> r == def
    ensures value.Some? && ParseInt(value.value).Some? ==> r == ParseInt(value.value).value
  {
    match value
    case None => def
    case Some(s) => ParseInt(s).GetOr(def)
  }

  /** The processor's `intValue` is the parameters' `intValue` with the
      NumberFormatException caught and replaced by the default. */
  lemma IntValueOrCatchesFormatErrors(p: ResourceParams, name: string, def: int)
    ensures IntValueOr(Value(p, name), def) ==
      (match IntValue(p, name, def) case Ok(v) => v case Err(_) => def)
  {
  }

  datatype Pagination = Pagination(offset: int, limit: int)

  /** `decodePagination`. `Pagination.DEFAULT_LIMIT` and `MAX_LIMIT` are
      constants of a type outside this model and are parameters here. */
  function DecodePagination(p: ResourceParams, defaultLimit: int, maxLimit: int): (r: Pagination)
    ensures 0 <= r.offset <= MaxInt
    ensures 0 <= maxLimit ==> 0 <= r.limit <= maxLimit
    ensures Value(p, "offset").None? ==> r.offset == 0
    ensures Value(p, "limit").None? ==> r.limit == Limit(defaultLimit, 0, maxLimit)
  {
    Pagination(
      Limit(IntValueOr(Value(p, "offset"), 0), 0, MaxInt),
      Limit(IntValueOr(Value(p, "limit"), defaultLimit), 0, maxLimit))
  }

  /** A well-formed, in-range offset and limit are taken as given. */
  lemma PaginationKeepsValidValues(p: ResourceParams, defaultLimit: int, maxLimit: int, off: int, lim: int)
    requires 0 <= off <= MaxInt && 0 <= lim <= maxLimit && lim <= MaxInt
    requires Value(p, "offset") == Some(IntToString(off))
    requires Value(p, "limit") == Some(IntToString(lim))
    ensures DecodePagination(p, defaultLimit, maxLimit) == Pagination(off, lim)
  {
    ParseIntRoundTrip(off);
    ParseIntRoundTrip(lim);
  }

  /** `DefaultReturnFields`: the field selection and the optional expansion. */
  datatype ReturnFields = ReturnFields(fields: string, expand: Option<string>)

  predicate NonEmpty(v: Option<string>) {
    v.Some? && v.value != ""
  }

  /** `decodeReturnFields`: "*" unless `fields` is non-empty; `expand` is
      attached only when non-empty. */
  function DecodeReturnFields(p: ResourceParams): (r: ReturnFields)
    ensures NonEmpty(Value(p, "fields")) ==> r.fields == Value(p, "fields").value
    ensures !NonEmpty(Value(p, "fields")) ==> r.fields == "*"
    ensures r.expand.Some? <==> NonEmpty(Value(p, "expand"))
    ensures r.expand.Some? ==> r.expand == Value(p, "expand")
  {
    var fieldsValue := Value(p, "fields");
    var fields := if NonEmpty(fieldsValue) then fieldsValue.value else "*";
    var expandValue := Value(p, "expand");
    ReturnFields(fields, if NonEmpty(expandValue) then expandValue else None)
  }

  /** `Sorting`: the default order, or the one a `sort` value spells out. */
  datatype Sorting = DefaultSorting | SortBy(spec: string)

  function DecodeSorting(p: ResourceParams): (r: Sorting)
    ensures r.DefaultSorting? <==> Value(p, "sort").None?
    ensures r.SortBy? ==> Some(r.spec) == Value(p, "sort")
  {
    match Value(p, "sort")
    case None => DefaultSorting
    case Some(s) => SortBy(s)
  }

  /** The content type of a request body, and a body state that is decoded
      only when first read (the lazy state of the `LazyState` module). */
  datatype BodyInfo = BodyInfo(contentType: Option<string>)

  /** READ's query-derived settings. */
  datatype ReadSettings = ReadSettings(pagination: Pagination, returnFields: ReturnFields, sorting: Sorting)

  /** A `DefaultResourceRequest`. The matcher is kept as the Accept value and
      the extension it was built from. */
  datatype ResourceRequest = ResourceRequest(
    kind: RequestType,
    path: string,
    params: ResourceParams,
    accept: string,
    extension: Option<string>,
    authorization: Option<string>,
    body: Option<BodyInfo>,
    read: Option<ReadSettings>)

  /** What `process` does with the pipeline: associate the request context,
      then proceed with the request. */
  datatype PipelineEffect = AssociateContext(request: ResourceRequest) | ProceedWith(request: ResourceRequest)

  /** `HttpRequestProcessor.process`. */
  function Process(e: Exchange, defaultLimit: int, maxLimit: int): (r: Result<seq<PipelineEffect>, string>)
    ensures r.Err? <==> RequestTypeOf(e.verb).Err?
    ensures r.Err? ==> r.error == e.verb
    ensures r.Ok? ==>
      && |r.value| == 2
      && r.value[0].AssociateContext?
      && r.value[1] == ProceedWith(r.value[0].request)
    ensures r.Ok? ==> var req := r.value[0].request;
      && Ok(req.kind) == RequestTypeOf(e.verb)
      && req.path == e.uri
      && req.params == Instance(e.query)
      && req.accept == EffectiveAccept(e.headers)
      && req.extension == Extension(e.uri)
      && req.authorization == FirstHeader(e.headers, AuthorizationHeader)
      && (req.body.Some? <==> req.kind in {Create, Update})
      && (req.body.Some? ==> req.body.value.contentType == FirstHeader(e.headers, ContentTypeHeader))
      && (req.read.Some? <==> req.kind == Read)
      && (req.read.Some? ==> req.read.value.pagination == DecodePagination(req.params, defaultLimit, maxLimit))
      && (req.read.Some? ==> req.read.value.returnFields == DecodeReturnFields(req.params))
      && (req.read.Some? ==> req.read.value.sorting == DecodeSorting(req.params))
  {
    var kind :- RequestTypeOf(e.verb);
    var params := Instance(e.query);
    var body := if kind in {Create, Update} then Some(BodyInfo(FirstHeader(e.headers, ContentTypeHeader))) else None;
    var read :=
      if kind == Read then
        Some(ReadSettings(DecodePagination(params, defaultLimit, maxLimit), DecodeReturnFields(params), DecodeSorting(params)))
      else None;
    var req := ResourceRequest(kind, e.uri, params, EffectiveAccept(e.headers), Extension(e.uri),
      FirstHeader(e.headers, AuthorizationHeader), body, read);
    Ok([AssociateContext(req), ProceedWith(req)])
  }
}

=== FILE: resources.dfy ===
/** The default behaviour `SynchronousResource` and `BinaryResource` give a
    resource: how reading members and properties is turned into sink calls,
    how a member lookup is answered, and what a binary resource does with an
    upload it does not override. */
module Resources {
  import opened Wrappers
  import opened Json
  import opened Responder

  /** Which of the marker interfaces a resource implements. `BinaryResource`
      extends `BlockingResource`, so a binary resource is always blocking. */
  datatype Kind = BinaryKind | BlockingKind | PlainKind

  predicate IsBinary(k: Kind) {
    k == BinaryKind
  }

  predicate IsBlocking(k: Kind) {
    k == BinaryKind || k == BlockingKind
  }

  /** Every binary resource is a blocking one. */
  lemma BinaryIsBlocking(k: Kind)
    ensures IsBinary(k) ==> IsBlocking(k)
  {
  }

  /** A call on a `ResourceSink` or `PropertySink`. */
  datatype SinkCall<R> = Accept(resource: R) | AcceptProperty(name: string, value: Json) | CloseSink

  /** The hooks a `SynchronousResource` may override: `members()`,
      `member(id)` and `properties()`; each defaults to null. */
  datatype SyncResource<R> = SyncResource(
    members: Option<seq<R>>,
    member: string -> Option<R>,
    properties: Option<Fields>)

  /** A synchronous resource that overrides nothing. */
  function Defaults<R>(): (r: SyncResource<R>)
    ensures r.members.None? && r.properties.None?
    ensures forall id :: r.member(id).None?
  {
    SyncResource(None, _ => None, None)
  }

  /** `readMembers`: every member in order, then one close; a null
      collection gives the close alone. */
  function ReadMembers<R>(res: SyncResource<R>): (r: seq<SinkCall<R>>)
    ensures res.members.None? ==> r == [CloseSink]
    ensures res.members.Some? ==> (|r| == |res.members.value| + 1 &&
      forall i :: 0 <= i < |res.members.value| ==> r[i] == Accept(res.members.value[i]))
    ensures r[|r| - 1] == CloseSink
    ensures forall i :: 0 <= i < |r| - 1 ==> r[i].Accept?
  {
    match res.members
    case None => [CloseSink]
    case Some(ms) => seq(|ms|, i requires 0 <= i < |ms| => Accept(ms[i])) + [CloseSink]
  }

  /** `readMember(id)`: exactly one callback, `noSuchResource(id)` when the
      member hook answers null and `resourceRead(member)` otherwise. */
  function ReadMember<R>(res: SyncResource<R>, id: string): (r: Callback<R>)
    ensures r == OnNoSuchResource(id) <==> res.member(id).None?
    ensures res.member(id).Some? ==> r == OnResourceRead(res.member(id).value)
  {
    match res.member(id)
    case None => OnNoSuchResource(id)
    case Some(m) => OnResourceRead(m)
  }

  /** `readProperties`: one accept per field of `properties()` in field
      order, then one close; null properties give the close alone. */
  function ReadProperties<R>(res: SyncResource<R>): (r: seq<SinkCall<R>>)
    ensures res.properties.None? ==> r == [CloseSink]
    ensures res.properties.Some? ==> (|r| == |res.properties.value| + 1 &&
      forall i :: 0 <= i < |res.properties.value| ==>
        r[i] == AcceptProperty(res.properties.value[i].0, res.properties.value[i].1))
    ensures r[|r| - 1] == CloseSink
  {
    match res.properties
    case None => [CloseSink]
    case Some(f) => seq(|f|, i requires 0 <= i < |f| => AcceptProperty(f[i].0, f[i].1)) + [CloseSink]
  }

  /** Each property a field-ordered read reports carries the value
      `getProperty` returns for its name. */
  lemma ReadPropertiesAgreesWithGet<R>(res: SyncResource<R>, i: nat)
    requires res.properties.Some? && UniqueKeys(res.properties.value) && i < |res.properties.value|
    ensures ReadProperties(res)[i].AcceptProperty?
    ensures Get(res.properties.value, ReadProperties(res)[i].name) == Some(ReadProperties(res)[i].value)
  {
    GetAt(res.properties.value, i);
  }

  /** What `updateProperties` does, in order. */
  datatype UpdateEffect<R> = ApplyProperties(state: Fields) | Respond(cb: Callback<R>)

  /** `updateProperties(state)`: the `properties(state)` hook, then a single
      `resourceUpdated(this)`. */
  function UpdateProperties<R>(self: R, state: Fields): (r: seq<UpdateEffect<R>>)
    ensures |r| == 2 && r[0] == ApplyProperties(state)
    ensures r[1] == Respond(OnResourceUpdated(self))
  {
    [ApplyProperties(state), Respond(OnResourceUpdated(self))]
  }

  /** A resource that overrides nothing has no members and knows no member:
      every lookup is a miss and a member read is a bare close. */
  lemma DefaultsAnswerNoSuchResource<R>(id: string)
    ensures ReadMember(Defaults<R>(), id) == OnNoSuchResource(id)
    ensures ReadMembers(Defaults<R>()) == [CloseSink]
    ensures ReadProperties(Defaults<R>()) == [CloseSink]
  {
  }

  /** Default `updateContent`: refuses the chunk with one
      `updateNotSupported(this)`. */
  function UpdateContent<R>(self: R, content: seq<int>, offset: int, complete: bool): (r: seq<Callback<R>>)
    ensures r == [OnUpdateNotSupported(self)]
  {
    [OnUpdateNotSupported(self)]
  }

  /** Default `willProcessUpdate`: answers `updateNotSupported(this)` and
      declines the body. */
  function WillProcessUpdate<R>(self: R): (r: (bool, seq<Callback<R>>))
    ensures !r.0
    ensures r.1 == [OnUpdateNotSupported(self)]
  {
    (false, [OnUpdateNotSupported(self)])
  }

  /** A binary resource without overrides answers an upload with exactly one
      UPDATE_NOT_SUPPORTED response, whether it is asked up front or handed
      a chunk. */
  lemma DefaultBinaryRefusesUpload<Q, R>(q: Q, self: R, content: seq<int>, offset: int, complete: bool)
    ensures var b := BaseResponder(q);
      Deliver([], [(b, WillProcessUpdate(self).1[0])]) == [Failure(q, UpdateNotSupported, None, None)]
    ensures var b := BaseResponder(q);
      Deliver([], [(b, UpdateContent(self, content, offset, complete)[0])]) == [Failure(q, UpdateNotSupported, None, None)]
  {
    DeliverAppendsOnePerCall<Q, R>([], [(BaseResponder(q), OnUpdateNotSupported(self))]);
  }
}

=== FILE: responder.dfy ===
/** Responses and the base responder: every responder callback appends exactly
    one response, addressed to the request the responder was created for, to
    an output list shared by all responders of one request. */
module Responder {
  import opened Wrappers

  /** `ResourceResponse.ResponseType` of a successful response. */
  datatype ResponseType = Read | Created | Deleted | Updated

  /** `ResourceErrorResponse.ErrorType`. Kinds the HTTP status table does not
      list are kept by name. */
  datatype ErrorType =
    | NotAuthorized
    | Forbidden
    | NotAcceptable
    | NoSuchResource
    | ResourceAlreadyExists
    | CreateNotSupported
    | ReadNotSupported
    | UpdateNotSupported
    | DeleteNotSupported
    | InternalError
    | Unlisted(name: string)

  /** A response to request `Q` about a resource `R`: a successful
      `DefaultResourceResponse`, or a `DefaultResourceErrorResponse` with an
      optional message and cause. */
  datatype Response<Q, R> =
    | Success(inReplyTo: Q, kind: ResponseType, resource: Option<R>)
    | Failure(inReplyTo: Q, error: ErrorType, message: Option<string>, cause: Option<string>)

  /** One call on the `Responder` interface. A resource argument is `R`;
      a `Throwable` cause is described by a string. */
  datatype Callback<R> =
    | OnResourceRead(resource: R)
    | OnResourceCreated(resource: R)
    | OnResourceDeleted(resource: R)
    | OnResourceUpdated(resource: R)
    | OnCreateNotSupported(resource: R)
    | OnReadNotSupported(resource: R)
    | OnUpdateNotSupported(resource: R)
    | OnDeleteNotSupported(resource: R)
    | OnNoSuchResource(id: string)
    | OnResourceAlreadyExists(id: string)
    | OnInternalErrorMessage(message: string)
    | OnInternalErrorCause(cause: string)
    | OnInvalidRequestMessage(message: string)
    | OnInvalidRequestCause(cause: string)
    | OnInvalidRequest(message: string, cause: string)
    | OnError(errorType: ErrorType)
    | OnErrorMessage(errorType: ErrorType, message: string)
    | OnErrorFull(errorType: ErrorType, message: string, cause: string)

  /** Whether a callback reports success rather than an error. */
  predicate IsSuccessCallback<R>(cb: Callback<R>) {
    cb.OnResourceRead? || cb.OnResourceCreated? || cb.OnResourceDeleted? || cb.OnResourceUpdated?
  }

  /** The error kind a failure callback stands for. */
  function ErrorOf<R>(cb: Callback<R>): ErrorType
    requires !IsSuccessCallback(cb)
  {
    match cb
    case OnCreateNotSupported(_) => CreateNotSupported
    case OnReadNotSupported(_) => ReadNotSupported
    case OnUpdateNotSupported(_) => UpdateNotSupported
    case OnDeleteNotSupported(_) => DeleteNotSupported
    case OnNoSuchResource(_) => NoSuchResource
    case OnResourceAlreadyExists(_) => ResourceAlreadyExists
    case OnInternalErrorMessage(_) => InternalError
    case OnInternalErrorCause(_) => InternalError
    case OnInvalidRequestMessage(_) => NotAcceptable
    case OnInvalidRequestCause(_) => NotAcceptable
    case OnInvalidRequest(_, _) => NotAcceptable
    case OnError(t) => t
    case OnErrorMessage(t, _) => t
    case OnErrorFull(t, _, _) => t
  }

  /** The response `BaseResponder` builds for one callback. */
  function ResponseFor<Q, R>(q: Q, cb: Callback<R>): (r: Response<Q, R>)
    ensures r.inReplyTo == q
    ensures r.Success? <==> IsSuccessCallback(cb)
    ensures r.Failure? ==> r.error == ErrorOf(cb)
    ensures cb.OnResourceRead? ==> r == Success(q, Read, Some(cb.resource))
    ensures cb.OnResourceCreated? ==> r == Success(q, Created, Some(cb.resource))
    ensures cb.OnResourceDeleted? ==> r == Success(q, Deleted, Some(cb.resource))
    ensures cb.OnResourceUpdated? ==> r == Success(q, Updated, Some(cb.resource))
    // the message is kept only by the overloads that take one and store it
    ensures r.Failure? && r.message.Some? <==>
      cb.OnInternalErrorMessage? || cb.OnInvalidRequestMessage? || cb.OnErrorMessage? || cb.OnErrorFull?
    // `invalidRequest(message, cause)` records the cause only
    ensures cb.OnInvalidRequest? ==> r == Failure(q, NotAcceptable, None, Some(cb.cause))
  {
    match cb
    case OnResourceRead(res) => Success(q, Read, Some(res))
    case OnResourceCreated(res) => Success(q, Created, Some(res))
    case OnResourceDeleted(res) => Success(q, Deleted, Some(res))
    case OnResourceUpdated(res) => Success(q, Updated, Some(res))
    case OnCreateNotSupported(_) => Failure(q, CreateNotSupported, None, None)
    case OnReadNotSupported(_) => Failure(q, ReadNotSupported, None, None)
    case OnUpdateNotSupported(_) => Failure(q, UpdateNotSupported, None, None)
    case OnDeleteNotSupported(_) => Failure(q, DeleteNotSupported, None, None)
    case OnNoSuchResource(_) => Failure(q, NoSuchResource, None, None)
    case OnResourceAlreadyExists(_) => Failure(q, ResourceAlreadyExists, None, None)
    case OnInternalErrorMessage(m) => Failure(q, InternalError, Some(m), None)
    case OnInternalErrorCause(c) => Failure(q, InternalError, None, Some(c))
    case OnInvalidRequestMessage(m) => Failure(q, NotAcceptable, Some(m), None)
    case OnInvalidRequestCause(c) => Failure(q, NotAcceptable, None, Some(c))
    case OnInvalidRequest(_, c) => Failure(q, NotAcceptable, None, Some(c))
    case OnError(t) => Failure(q, t, None, None)
    case OnErrorMessage(t, m) => Failure(q, t, Some(m), None)
    case OnErrorFull(t, m, c) => Failure(q, t, Some(m), Some(c))
  }

  /** The id passed to `noSuchResource` and `resourceAlreadyExists` leaves no
      trace in the response. */
  lemma MissingIdNotRecorded<Q, R>(q: Q, a: string, b: string)
    ensures ResponseFor<Q, R>(q, OnNoSuchResource(a)) == ResponseFor<Q, R>(q, OnNoSuchResource(b))
    ensures ResponseFor<Q, R>(q, OnResourceAlreadyExists(a)) == ResponseFor<Q, R>(q, OnResourceAlreadyExists(b))
  {
  }

  /** A `BaseResponder`: the request it answers and the output list it
      appends to. `createBaseResponder` copies both, so the copy shares the
      list; here the list is the value returned along with each call. */
  datatype BaseResponder<Q> = BaseResponder(inReplyTo: Q)

  /** `createBaseResponder()`. */
  function CreateBaseResponder<Q>(b: BaseResponder<Q>): (r: BaseResponder<Q>)
    ensures r.inReplyTo == b.inReplyTo
  {
    BaseResponder(b.inReplyTo)
  }

  /** One callback: appends its response to `out` (`resumeRead` does nothing). */
  function Callback1<Q, R>(b: BaseResponder<Q>, out: seq<Response<Q, R>>, cb: Callback<R>): (r: seq<Response<Q, R>>)
    ensures |r| == |out| + 1
    ensures r[..|out|] == out
    ensures r[|out|] == ResponseFor(b.inReplyTo, cb)
  {
    out + [ResponseFor(b.inReplyTo, cb)]
  }

  /** A sequence of callbacks, each delivered to one of several responders
      that all share the same output list. */
  function Deliver<Q, R>(out: seq<Response<Q, R>>, calls: seq<(BaseResponder<Q>, Callback<R>)>): seq<Response<Q, R>>
    decreases |calls|
  {
    if |calls| == 0 then out
    else Deliver(Callback1(calls[0].0, out, calls[0].1), calls[1..])
  }

  /** The shared output holds exactly one response per callback, in call
      order, each addressed to the request of the responder that was called;
      what was there before is untouched. */
  lemma {:induction false} DeliverAppendsOnePerCall<Q, R>(out: seq<Response<Q, R>>, calls: seq<(BaseResponder<Q>, Callback<R>)>)
    ensures var r := Deliver(out, calls);
      && |r| == |out| + |calls|
      && r[..|out|] == out
      && forall i :: 0 <= i < |calls| ==> r[|out| + i] == ResponseFor(calls[i].0.inReplyTo, calls[i].1)
    decreases |calls|
  {
    if |calls| > 0 {
      var out' := Callback1(calls[0].0, out, calls[0].1);
      DeliverAppendsOnePerCall(out', calls[1..]);
      var r := Deliver(out, calls);
      assert r == Deliver(out', calls[1..]);
      assert r[..|out|] == r[..|out'|][..|out|];
      forall i | 0 <= i < |calls|
        ensures r[|out| + i] == ResponseFor(calls[i].0.inReplyTo, calls[i].1)
      {
        if i > 0 {
          assert calls[1..][i - 1] == calls[i];
          assert r[|out'| + (i - 1)] == r[|out| + i];
        } else {
          assert r[|out|] == r[..|out'|][|out|];
        }
      }
    }
  }

  /** Responses produced through a responder and its `createBaseResponder`
      copy all answer the original request. */
  lemma CopiesAnswerTheSameRequest<Q, R>(b: BaseResponder<Q>, out: seq<Response<Q, R>>, c1: Callback<R>, c2: Callback<R>)
    ensures var r := Deliver(out, [(b, c1), (CreateBaseResponder(b), c2)]);
      |r| == |out| + 2 && r[|out|].inReplyTo == b.inReplyTo && r[|out| + 1].inReplyTo == b.inReplyTo
  {
    DeliverAppendsOnePerCall(out, [(b, c1), (CreateBaseResponder(b), c2)]);
  }
}

=== FILE: responseprocessing.dfy ===
/** The two processors at the end of the HTTP pipeline.
    `ResourceResponseBodyProcessor` turns the resource a response carries into
    a state; `HttpResponseProcessor` picks the HTTP status, negotiates and
    encodes the body and fills in the exchange. */
module ResponseProcessing {
  import opened Wrappers
  import opened Json
  import opened State
  import opened Encoding
  import opened Codecs
  import opened Responder
  import opened Resources

  // ---------------------------------------------------------------------
  // ResourceResponseBodyProcessor
  // ---------------------------------------------------------------------

  /** How the root encoding driver, which is outside this model, ends when
      `encode()` returns: it has completed and produced a state, it has not
      completed yet, or it threw (with the exception's message and its
      `toString()`). */
  datatype DriverOutcome = Finished(state: ResourceState) | Pending | DriverThrew(message: string, description: string)

  /** What the body processor hands to the next processor. */
  datatype Outbound<Q, R> =
    | ClientOk(inReplyTo: Q, path: string)                     // an OK client response addressed to the request path
    | WithState(response: Response<Q, R>, state: ResourceState)  // the response, its state set by the driver
    | Unchanged(response: Response<Q, R>)                        // a response passed on as it is

  /** `encode(response, out)`: at most one output. A response without a
      resource gives the OK client response for the request path; otherwise
      the driver's completion adds the response with its state, and a driver
      failure a NOT_ACCEPTABLE error carrying the exception's message. */
  function EncodeBody<Q, R>(resp: Response<Q, R>, path: string, driver: DriverOutcome): (out: seq<Outbound<Q, R>>)
    requires resp.Success?
    ensures |out| <= 1
    ensures resp.resource.None? ==> out == [ClientOk(resp.inReplyTo, path)]
    ensures resp.resource.Some? ==> (|out| == 0 <==> driver.Pending?)
    ensures resp.resource.Some? && driver.Finished? ==> out == [WithState(resp, driver.state)]
    ensures forall i :: 0 <= i < |out| && out[i].Unchanged? ==>
      driver.DriverThrew? && out[i].response.Failure? && out[i].response.error == NotAcceptable &&
      out[i].response.message == Some(driver.message) && out[i].response.inReplyTo == resp.inReplyTo
  {
    if resp.resource.None? then [ClientOk(resp.inReplyTo, path)]
    else
      match driver
      case Finished(s) => [WithState(resp, s)]
      case Pending => []
      case DriverThrew(m, d) => [Unchanged(Failure(resp.inReplyTo, NotAcceptable, Some(m), Some(d)))]
  }

  /** An exception escaping the action: none, one thrown while encoding
      (outside the driver's own try), or one thrown by the next processor
      when the pipeline proceeds. Each carries its `toString()`. */
  datatype Escape = NoEscape | FromEncode(description: string) | FromProceed(description: string)

  /** A run of the body processor: whether its action was handed to the
      dispatcher rather than run inline, and the inputs of the `proceed`
      calls it made, in order (`None` is a proceed with null). */
  datatype BodyRun<Q, R> = BodyRun(dispatched: bool, proceeds: seq<Option<Outbound<Q, R>>>)

  /** The INTERNAL_ERROR response the action proceeds with after an escape. */
  function InternalErrorFor<Q, R>(q: Q, description: string): (r: Response<Q, R>)
    ensures r.Failure? && r.error == InternalError && r.inReplyTo == q && r.message == Some(description)
  {
    Failure(q, InternalError, Some(description), Some(description))
  }

  /** `process(response)`. A null input proceeds with null, an error
      response is passed on as it is, and a successful one is encoded and the
      pipeline proceeds with the first output or null; a resource that is
      blocking has this action dispatched. */
  function ProcessBody<Q, R>(input: Option<Response<Q, R>>, path: string, driver: DriverOutcome,
                             kindOf: R -> Kind, escape: Escape): (r: BodyRun<Q, R>)
    ensures 1 <= |r.proceeds| <= 2
    ensures input.None? ==> r == BodyRun(false, [None])
    ensures input.Some? && input.value.Failure? ==> r == BodyRun(false, [Some(Unchanged(input.value))])
    ensures r.dispatched <==>
      input.Some? && input.value.Success? && input.value.resource.Some? && IsBlocking(kindOf(input.value.resource.value))
    // without an escape there is exactly one proceed, with the first output or null
    ensures input.Some? && input.value.Success? && escape.NoEscape? ==>
      r.proceeds == [FirstOrNull(EncodeBody(input.value, path, driver))]
    // an escape ends in a proceed with an INTERNAL_ERROR response to the same request
    ensures input.Some? && input.value.Success? && !escape.NoEscape? ==>
      r.proceeds[|r.proceeds| - 1] == Some(Unchanged(InternalErrorFor(input.value.inReplyTo, escape.description)))
    ensures input.Some? && input.value.Success? && escape.FromProceed? ==>
      |r.proceeds| == 2 && r.proceeds[0] == FirstOrNull(EncodeBody(input.value, path, driver))
    ensures escape.FromEncode? ==> |r.proceeds| == 1
  {
    match input
    case None => BodyRun(false, [None])
    case Some(resp) =>
      if resp.Failure? then BodyRun(false, [Some(Unchanged(resp))])
      else
        var dispatched := resp.resource.Some? && IsBlocking(kindOf(resp.resource.value));
        match escape
        case NoEscape => BodyRun(dispatched, [FirstOrNull(EncodeBody(resp, path, driver))])
        case FromEncode(d) => BodyRun(dispatched, [Some(Unchanged(InternalErrorFor(resp.inReplyTo, d)))])
        case FromProceed(d) =>
          BodyRun(dispatched, [FirstOrNull(EncodeBody(resp, path, driver)), Some(Unchanged(InternalErrorFor(resp.inReplyTo, d)))])
  }

  /** Encoding that has not completed by the time `encode()` returns lets
      the pipeline go on with null, however the driver ends later. */
  lemma PendingEncodingProceedsWithNull<Q, R>(resp: Response<Q, R>, path: string, kindOf: R -> Kind)
    requires resp.Success? && resp.resource.Some?
    ensures ProcessBody(Some(resp), path, Pending, kindOf, NoEscape).proceeds == [None]
  {
  }

  // ---------------------------------------------------------------------
  // HttpResponseProcessor: status
  // ---------------------------------------------------------------------

  /** The response type as the HTTP processor switches on it: a successful
      type, an error response with its kind, or an ERROR-typed response that
      is not a `ResourceErrorResponse`. */
  datatype Outcome = Succeeded(kind: ResponseType) | Failed(error: ErrorType) | BareError

  function OutcomeOf<Q, R>(resp: Response<Q, R>): (o: Outcome)
    ensures o.Succeeded? <==> resp.Success?
    ensures resp.Success? ==> o.kind == resp.kind
    ensures resp.Failure? ==> o == Failed(resp.error)
  {
    match resp
    case Success(_, k, _) => Succeeded(k)
    case Failure(_, e, _, _) => Failed(e)
  }

  /** The four kinds saying the resource does not support an operation. */
  predicate NotSupported(e: ErrorType) {
    e == CreateNotSupported || e == ReadNotSupported || e == UpdateNotSupported || e == DeleteNotSupported
  }

  /** The status code set on the exchange (section 6 of RFC 7231, with 401
      from section 3.1 of RFC 7235); 0 for kinds the switch does not list. */
  function StatusFor(o: Outcome): (code: int)
    ensures 200 <= code < 300 <==> o.Succeeded?
    ensures code == 201 <==> o == Succeeded(Created)
    ensures code == 405 <==> o.Failed? && NotSupported(o.error)
    ensures code == 500 <==> o == Failed(InternalError)
    ensures code == 0 <==> o.BareError? || (o.Failed? && o.error.Unlisted?)
    ensures 400 <= code < 500 <==> o.Failed? && !o.error.Unlisted? && o.error != InternalError
  {
    match o
    case Succeeded(Created) => 201
    case Succeeded(_) => 200
    case BareError => 0
    case Failed(e) =>
      match e
      case NotAuthorized => 401
      case Forbidden => 403
      case NotAcceptable => 406
      case NoSuchResource => 404
      case ResourceAlreadyExists => 406
      case CreateNotSupported => 405
      case ReadNotSupported => 405
      case UpdateNotSupported => 405
      case DeleteNotSupported => 405
      case InternalError => 500
      case Unlisted(_) => 0
  }

  /** The status table, kind by kind, as a list a reader can check against
      the switch. */
  const ErrorStatuses: seq<(ErrorType, int)> := [
    (NotAuthorized, 401), (Forbidden, 403), (NotAcceptable, 406), (NoSuchResource, 404),
    (ResourceAlreadyExists, 406), (CreateNotSupported, 405), (ReadNotSupported, 405),
    (UpdateNotSupported, 405), (DeleteNotSupported, 405), (InternalError, 500)]

  /** Every listed kind gets its tabled status, and every listed status is
      the one of exactly those kinds. */
  lemma StatusMatchesTable(e: ErrorType)
    ensures forall i :: 0 <= i < |ErrorStatuses| ==> StatusFor(Failed(ErrorStatuses[i].0)) == ErrorStatuses[i].1
    ensures (forall i :: 0 <= i < |ErrorStatuses| ==> ErrorStatuses[i].0 != e) <==> e.Unlisted?
  {
    if !e.Unlisted? {
      var k := match e
        case NotAuthorized => 0
        case Forbidden => 1
        case NotAcceptable => 2
        case NoSuchResource => 3
        case ResourceAlreadyExists => 4
        case CreateNotSupported => 5
        case ReadNotSupported => 6
        case UpdateNotSupported => 7
        case DeleteNotSupported => 8
        case InternalError => 9;
      assert ErrorStatuses[k].0 == e;
    }
  }

  /** Through the base responder, a missing resource reads as 404, an
      invalid request as 406, a refused update as 405 and an internal error
      as 500; a read or an update answers 200 and a creation 201. */
  lemma CallbackStatuses<Q, R>(q: Q, res: R, id: string, m: string)
    ensures StatusFor(OutcomeOf(ResponseFor<Q, R>(q, OnNoSuchResource(id)))) == 404
    ensures StatusFor(OutcomeOf(ResponseFor<Q, R>(q, OnInvalidRequestMessage(m)))) == 406
    ensures StatusFor(OutcomeOf(ResponseFor<Q, R>(q, OnUpdateNotSupported(res)))) == 405
    ensures StatusFor(OutcomeOf(ResponseFor<Q, R>(q, OnInternalErrorMessage(m)))) == 500
    ensures StatusFor(OutcomeOf(ResponseFor<Q, R>(q, OnResourceRead(res)))) == 200
    ensures StatusFor(OutcomeOf(ResponseFor<Q, R>(q, OnResourceUpdated(res)))) == 200
    ensures StatusFor(OutcomeOf(ResponseFor<Q, R>(q, OnResourceCreated(res)))) == 201
  {
  }

  /** A driver failure in the body processor reaches the HTTP processor as a
      406 response carrying the exception's message. */
  lemma DriverFailureIsNotAcceptable<Q, R>(resp: Response<Q, R>, path: string, m: string, d: string, kindOf: R -> Kind)
    requires resp.Success? && resp.resource.Some?
    ensures var run := ProcessBody(Some(resp), path, DriverThrew(m, d), kindOf, NoEscape);
      run.proceeds == [Some(Unchanged(Failure(resp.inReplyTo, NotAcceptable, Some(m), Some(d))))] &&
      StatusFor(OutcomeOf(run.proceeds[0].value.response)) == 406
  {
  }

  // ---------------------------------------------------------------------
  // HttpResponseProcessor: the application of a resource
  // ---------------------------------------------------------------------

  /** An application and the path of its HTML front end, if it has one. */
  datatype Application = Application(htmlAppPath: Option<string>)

  /** A resource on the parent chain: an `ApplicationContext` (whose
      application may be null) or any other resource. */
  datatype Node = PlainNode | AppContext(app: Option<Application>)

  /** `findApplication`: the application of the nearest `ApplicationContext`
      on the chain that starts with the resource itself and follows
      `parent()`; null when there is none. */
  function FindApplication(chain: seq<Node>): (r: Option<Application>)
    ensures (forall i :: 0 <= i < |chain| ==> chain[i].PlainNode?) ==> r.None?
    ensures r.Some? ==> exists i :: 0 <= i < |chain| && chain[i] == AppContext(r)
    decreases |chain|
  {
    if |chain| == 0 then None
    else
      match chain[0]
      case AppContext(app) => app
      case PlainNode =>
        var r := FindApplication(chain[1..]);
        assert r.Some? ==> exists i :: 1 <= i < |chain| && chain[i] == AppContext(r) by {
          if r.Some? {
            var i :| 0 <= i < |chain[1..]| && chain[1..][i] == AppContext(r);
            assert chain[i + 1] == AppContext(r);
          }
        }
        r
  }

  /** The nearest context wins: contexts further up the chain are never
      consulted. */
  lemma {:induction false} NearestApplication(chain: seq<Node>, i: nat)
    requires i < |chain| && chain[i].AppContext?
    requires forall j :: 0 <= j < i ==> chain[j].PlainNode?
    ensures FindApplication(chain) == chain[i].app
    decreases i
  {
    if i > 0 {
      assert chain[0].PlainNode?;
      forall j | 0 <= j < i - 1
        ensures chain[1..][j].PlainNode?
      {
        assert chain[1..][j] == chain[j + 1];
      }
      NearestApplication(chain[1..], i - 1);
    }
  }

  // ---------------------------------------------------------------------
  // HttpResponseProcessor: process
  // ---------------------------------------------------------------------

  /** A `BinaryResource`: its media type and `contentLength()`. */
  datatype BinaryInfo = BinaryInfo(mediaType: MediaType, contentLength: int)

  /** The resource of a response: its URI, whether it is binary, and its
      parent chain starting with itself. */
  datatype Target = Target(uri: string, binary: Option<BinaryInfo>, chain: seq<Node>)

  /** What the HTTP processor reads from a response. */
  datatype HttpResponse = HttpResponse(outcome: Outcome, resource: Option<Target>, path: string, state: ResourceState)

  predicate IsBinaryResponse(resp: HttpResponse) {
    resp.resource.Some? && resp.resource.value.binary.Some?
  }

  /** What `encode` is told about the response. */
  function OutgoingOf(resp: HttpResponse): (o: Outgoing)
    ensures o.binaryType.Some? <==> IsBinaryResponse(resp)
    ensures o.binaryType.Some? ==> o.binaryType.value == resp.resource.value.binary.value.mediaType
    ensures o.isError <==> resp.outcome.Failed?
    ensures o.state == resp.state
  {
    Outgoing(if IsBinaryResponse(resp) then Some(resp.resource.value.binary.value.mediaType) else None,
             resp.outcome.Failed?, resp.state)
  }

  /** HTML was asked for and the resource's application has an HTML front
      end: the processor stops (the re-dispatch to that front end is not
      written in the code it models). */
  predicate HtmlAppRequested(resp: HttpResponse, m: Registry, matcher: Matcher) {
    && resp.resource.Some?
    && FindApplication(resp.resource.value.chain).Some?
    && !IsBinaryResponse(resp)
    && FindApplication(resp.resource.value.chain).value.htmlAppPath.Some?
    && matcher(MediaTypes(m)) == Some(HtmlType)
  }

  /** What the processor does to the exchange and the pipeline: the status
      and headers it sets, the bytes or text it sends, whether the binary
      content is streamed by the resource, whether the exchange is ended,
      and whether the pipeline proceeds. */
  datatype Reply = Reply(
    status: Option<int>,
    contentLength: Option<int>,
    location: Option<string>,
    contentType: Option<MediaType>,
    body: Option<seq<Byte>>,
    text: Option<string>,
    streamed: bool,
    ended: bool,
    proceeds: bool)

  const Untouched: Reply := Reply(None, None, None, None, None, None, false, false, false)

  /** `process(response)`. `incompatible` is the message of the
      incompatible-media-type exception. */
  function HttpProcess(input: Option<HttpResponse>, m: Registry, matcher: Matcher, encoders: Encoders,
                       incompatible: string): (r: Reply)
    // a null input proceeds and touches nothing
    ensures input.None? ==> r == Untouched.(proceeds := true)
    // the pipeline proceeds only after the exchange has ended
    ensures input.Some? && r.proceeds ==> r.ended
    // HTML for an application with an HTML front end: nothing at all happens
    ensures input.Some? && !input.value.outcome.BareError? ==>
      (r == Untouched <==> HtmlAppRequested(input.value, m, matcher))
    // encoding failures: 406 with the message for an incompatible type, 500 otherwise; no proceed
    ensures input.Some? && !input.value.outcome.BareError? && !HtmlAppRequested(input.value, m, matcher) ==>
      var e := Encode(m, matcher, OutgoingOf(input.value), encoders);
      (e == Err(IncompatibleMediaType) ==>
         r == Untouched.(status := Some(406), text := Some(incompatible), ended := true)) &&
      (e.Err? && e != Err(IncompatibleMediaType) ==> r == Untouched.(status := Some(500), ended := true)) &&
      (e.Ok? ==> r.status == Some(StatusFor(input.value.outcome)))
    // a sent body is counted exactly by Content-Length and nothing is sent for a binary resource
    ensures r.body.Some? ==> r.contentLength == Some(|r.body.value|) && r.location.Some? && r.contentType.Some?
    ensures input.Some? && IsBinaryResponse(input.value) ==> r.body.None?
    // a streamed binary response neither ends the exchange nor proceeds here
    ensures r.streamed ==> !r.ended && !r.proceeds && r.contentLength.Some? && r.contentLength.value != 0
  {
    if input.None? then Untouched.(proceeds := true)
    else
      var resp := input.value;
      var code := StatusFor(resp.outcome);
      if resp.outcome.BareError? then Untouched.(status := Some(code), ended := true, proceeds := true)
      else if HtmlAppRequested(resp, m, matcher) then Untouched
      else
        match Encode(m, matcher, OutgoingOf(resp), encoders)
        case Err(IncompatibleMediaType) => Untouched.(status := Some(406), text := Some(incompatible), ended := true)
        case Err(_) => Untouched.(status := Some(500), ended := true)
        case Ok(er) =>
          if IsBinaryResponse(resp) then
            var bin := resp.resource.value.binary.value;
            if bin.contentLength == 0 then
              Untouched.(status := Some(code), contentLength := Some(0), ended := true, proceeds := true)
            else
              Untouched.(status := Some(code), contentLength := Some(bin.contentLength),
                         location := Some(resp.resource.value.uri), contentType := Some(bin.mediaType),
                         streamed := true)
          else
            var content := er.encoded.GetOr([]);
            Reply(Some(code), Some(|content|),
                  Some(if resp.resource.Some? then resp.resource.value.uri else resp.path),
                  Some(er.mediaType), Some(content), None, false, true, true)
  }

  /** The headers of an encoded (non-binary) response: the negotiated type,
      the encoded bytes and their count, and the resource's URI or, without
      a resource, the request path. */
  lemma EncodedResponseHeaders(resp: HttpResponse, m: Registry, matcher: Matcher, encoders: Encoders, incompatible: string)
    requires !resp.outcome.BareError? && !IsBinaryResponse(resp) && !HtmlAppRequested(resp, m, matcher)
    requires Encode(m, matcher, OutgoingOf(resp), encoders).Ok?
    ensures var r := HttpProcess(Some(resp), m, matcher, encoders, incompatible);
      var er := Encode(m, matcher, OutgoingOf(resp), encoders).value;
      && er.encoded.Some?
      && r.body == er.encoded
      && r.contentLength == Some(|er.encoded.value|)
      && r.contentType == Some(er.mediaType)
      && r.location == Some(if resp.resource.Some? then resp.resource.value.uri else resp.path)
      && r.ended && r.proceeds
  {
  }

  /** A binary resource: only the status and a zero length for empty
      content; otherwise length, location and type are set and the resource
      streams its content. */
  lemma BinaryResponseHeaders(resp: HttpResponse, m: Registry, matcher: Matcher, encoders: Encoders, incompatible: string)
    requires !resp.outcome.BareError? && IsBinaryResponse(resp)
    requires matcher([resp.resource.value.binary.value.mediaType]).Some?
    ensures var r := HttpProcess(Some(resp), m, matcher, encoders, incompatible);
      var bin := resp.resource.value.binary.value;
      && r.status == Some(StatusFor(resp.outcome))
      && (bin.contentLength == 0 ==>
            r == Untouched.(status := r.status, contentLength := Some(0), ended := true, proceeds := true))
      && (bin.contentLength != 0 ==>
            r.contentLength == Some(bin.contentLength) && r.location == Some(resp.resource.value.uri) &&
            r.contentType == Some(bin.mediaType) && r.streamed)
  {
  }

  /** A read of a plain resource, negotiated to JSON with a JSON codec that
      has an encoder: status 200, and the body is what that codec writes for
      the state's events followed by the close. */
  lemma ReadAsJson(resp: HttpResponse, json: ResourceCodec, matcher: Matcher, encoders: Encoders, incompatible: string)
    requires resp.outcome == Succeeded(Read) && resp.resource.Some? && resp.resource.value.binary.None?
    requires json.encoder.Some? && matcher([JsonType]) == Some(JsonType)
    requires EncodeState(JObject(resp.state.fields)).Ok?
    ensures var r := HttpProcess(Some(resp), [Registration(JsonType, json)], matcher, encoders, incompatible);
      && r.status == Some(200)
      && r.contentType == Some(JsonType)
      && r.body == Some(encoders(json.encoder.value, EncodeState(JObject(resp.state.fields)).value + [Close]))
      && r.location == Some(resp.resource.value.uri)
  {
    var m := [Registration(JsonType, json)];
    assert MediaTypes(m) == [JsonType];
    assert !HtmlAppRequested(resp, m, matcher);
  }
}

=== FILE: script.dfy ===
/** `ResourceScript`: the resource a resource-triggered script is managed
    through. Its state is checked property by property, with exact class
    matching, when a script is created or replaced; its id cannot change on
    update; its one member is the uploaded script file. */
module Scripting {
  import opened Wrappers
  import opened Responder
  import opened Resources
  import State

  const NameProp: string := "name"
  const DescriptionProp: string := "description"
  const EnabledProp: string := "enabled"
  const LibrariesProp: string := "libraries"
  const TargetPathProp: string := "target-path"
  const PriorityProp: string := "priority"
  const ProvidesProp: string := "provides"

  const IdChangeMessage: string := "The resource ID cannot be changed during an update."
  const NotBinaryMessage: string := "The uploaded script must be a binary javascript file."

  /** Whether a list value is a `java.util.ArrayList` or another `List`. */
  datatype ListKind = ArrayListKind | OtherListKind

  /** A property value as the script resource receives it: a Java object.
      `Other` stands for any class not listed (a `Long`, a `Double`, a map,
      ...). */
  datatype Value =
    | VString(s: string)
    | VBool(b: bool)
    | VInt(i: int)
    | VList(kind: ListKind, elements: seq<Value>)
    | VOther(className: string)

  /** The classes the resource asks for, and everything else. */
  datatype JClass = StringClass | BooleanClass | IntegerClass | ArrayListClass | OtherClass

  /** `getClass()` of a value: exact, so a list that is not an `ArrayList`
      is not of class `ArrayList`. */
  function ClassOf(v: Value): (c: JClass)
    ensures c == StringClass <==> v.VString?
    ensures c == BooleanClass <==> v.VBool?
    ensures c == IntegerClass <==> v.VInt?
    ensures c == ArrayListClass <==> v.VList? && v.kind == ArrayListKind
  {
    match v
    case VString(_) => StringClass
    case VBool(_) => BooleanClass
    case VInt(_) => IntegerClass
    case VList(k, _) => if k == ArrayListKind then ArrayListClass else OtherClass
    case VOther(_) => OtherClass
  }

  /** The state a script is built from: its id, null when absent, and its
      properties (a property that is absent or null has no entry). */
  datatype ScriptState = ScriptState(id: Option<string>, props: map<string, Value>)

  /** `RequiredPropertyException` and `InvalidPropertyTypeException`: the
      property, the class asked for, and whether the fault is in an element
      of a list. */
  datatype PropertyError =
    | Required(name: string, requested: JClass)
    | InvalidType(name: string, requested: JClass, inList: bool)

  /** `getProperty(name, state, required, type)`. */
  function GetProperty(st: ScriptState, name: string, required: bool, cls: JClass): (r: Result<Option<Value>, PropertyError>)
    ensures r == Err(Required(name, cls)) <==> required && name !in st.props
    ensures r == Ok(None) <==> !required && name !in st.props
    ensures r.Ok? && r.value.Some? <==> name in st.props && ClassOf(st.props[name]) == cls
    ensures r.Ok? && r.value.Some? ==> r.value.value == st.props[name]
    ensures r == Err(InvalidType(name, cls, false)) <==> name in st.props && ClassOf(st.props[name]) != cls
  {
    if name !in st.props then (if required then Err(Required(name, cls)) else Ok(None))
    else if ClassOf(st.props[name]) == cls then Ok(Some(st.props[name]))
    else Err(InvalidType(name, cls, false))
  }

  /** A script as `Script.Builder` assembles it. Properties the builder was
      not given are unset (`None`); `provides` and the script buffer are never
      given to it here. */
  datatype Script = Script(
    id: string,
    target: string,
    name: Option<string>,
    description: Option<string>,
    enabled: Option<bool>,
    priority: Option<int>,
    libraries: Option<seq<string>>,
    provided: Option<Value>,
    buffer: Option<seq<State.Byte>>)

  /** The id of the script built from a state: the state's id, else the
      current script's, else a freshly generated one. */
  function ChooseId(stateId: Option<string>, current: Option<Script>, freshId: string): (id: string)
    ensures stateId.Some? ==> id == stateId.value
    ensures stateId.None? && current.Some? ==> id == current.value.id
    ensures stateId.None? && current.None? ==> id == freshId
  {
    match stateId
    case Some(i) => i
    case None => if current.Some? then current.value.id else freshId
  }

  /** The library names, when every element is a string. */
  function LibraryNames(elements: seq<Value>): (r: Option<seq<string>>)
    ensures r.Some? <==> forall i :: 0 <= i < |elements| ==> elements[i].VString?
    ensures r.Some? ==> |r.value| == |elements| && forall i :: 0 <= i < |elements| ==> elements[i] == VString(r.value[i])
    decreases |elements|
  {
    if |elements| == 0 then Some([])
    else if !elements[0].VString? then None
    else
      match LibraryNames(elements[1..])
      case None => None
      case Some(rest) => Some([elements[0].s] + rest)
  }

  /** An optional property is absent or of exactly the class asked for. */
  predicate OptionalOk(st: ScriptState, name: string, cls: JClass) {
    name in st.props ==> ClassOf(st.props[name]) == cls
  }

  /** The state a script can be built from: a string target path, every
      optional property absent or of its class, and only strings among the
      libraries. */
  predicate Acceptable(st: ScriptState) {
    && TargetPathProp in st.props && st.props[TargetPathProp].VString?
    && OptionalOk(st, NameProp, StringClass)
    && OptionalOk(st, DescriptionProp, StringClass)
    && OptionalOk(st, EnabledProp, BooleanClass)
    && OptionalOk(st, PriorityProp, IntegerClass)
    && OptionalOk(st, LibrariesProp, ArrayListClass)
    && (LibrariesProp in st.props ==>
          forall i :: 0 <= i < |st.props[LibrariesProp].elements| ==> st.props[LibrariesProp].elements[i].VString?)
  }

  /** The value `readProperties` reports for a property of a script (null
      for an unset one). */
  function Reported(s: Script, name: string): Option<Value>
  {
    if name == NameProp then (if s.name.Some? then Some(VString(s.name.value)) else None)
    else if name == DescriptionProp then (if s.description.Some? then Some(VString(s.description.value)) else None)
    else if name == EnabledProp then (if s.enabled.Some? then Some(VBool(s.enabled.value)) else None)
    else if name == TargetPathProp then Some(VString(s.target))
    else if name == PriorityProp then (if s.priority.Some? then Some(VInt(s.priority.value)) else None)
    else if name == LibrariesProp then
      (if s.libraries.Some? then
         Some(VList(ArrayListKind, seq(|s.libraries.value|, i requires 0 <= i < |s.libraries.value| => VString(s.libraries.value[i]))))
       else None)
    else if name == ProvidesProp then s.provided
    else None
  }

  /** The properties `createScript` reads. */
  const BuiltFrom: seq<string> := [TargetPathProp, NameProp, DescriptionProp, EnabledProp, PriorityProp, LibrariesProp]

  /** `createScript(state)`: the target path is required, the other
      properties are optional, each must have exactly its class, and the
      libraries must all be strings; the first failing check is reported. */
  function CreateScript(st: ScriptState, current: Option<Script>, freshId: string): (r: Result<Script, PropertyError>)
    ensures r.Ok? <==> Acceptable(st)
    ensures r == Err(Required(TargetPathProp, StringClass)) <==> TargetPathProp !in st.props
    ensures r.Err? && r.error.InvalidType? && r.error.inList ==> r.error.name == LibrariesProp
    ensures r.Ok? ==> r.value.id == ChooseId(st.id, current, freshId)
    // the script reports back exactly the properties it was built from
    ensures r.Ok? ==> forall n :: n in BuiltFrom ==>
      Reported(r.value, n) == (if n in st.props then Some(st.props[n]) else None)
    ensures r.Ok? ==> r.value.provided.None? && r.value.buffer.None?
  {
    var id := ChooseId(st.id, current, freshId);
    var target :- GetProperty(st, TargetPathProp, true, StringClass);
    var name :- GetProperty(st, NameProp, false, StringClass);
    var description :- GetProperty(st, DescriptionProp, false, StringClass);
    var enabled :- GetProperty(st, EnabledProp, false, BooleanClass);
    var priority :- GetProperty(st, PriorityProp, false, IntegerClass);
    var libraries :- GetProperty(st, LibrariesProp, false, ArrayListClass);
    var names :- match libraries
      case None => Ok(None)
      case Some(l) =>
        match LibraryNames(l.elements)
        case None => Err(InvalidType(LibrariesProp, StringClass, true))
        case Some(ns) => Ok(Some(ns));
    var r := Script(id, target.value.s,
      if name.Some? then Some(name.value.s) else None,
      if description.Some? then Some(description.value.s) else None,
      if enabled.Some? then Some(enabled.value.b) else None,
      if priority.Some? then Some(priority.value.i) else None,
      names, None, None);
    BuiltReports(st, r);
    Ok(r)
  }

  /** A script holding exactly the values of an acceptable state reports
      those values back, property by property. */
  lemma BuiltReports(st: ScriptState, s: Script)
    requires Acceptable(st)
    requires s.target == st.props[TargetPathProp].s
    requires s.name == (if NameProp in st.props then Some(st.props[NameProp].s) else None)
    requires s.description == (if DescriptionProp in st.props then Some(st.props[DescriptionProp].s) else None)
    requires s.enabled == (if EnabledProp in st.props then Some(st.props[EnabledProp].b) else None)
    requires s.priority == (if PriorityProp in st.props then Some(st.props[PriorityProp].i) else None)
    requires s.libraries.Some? <==> LibrariesProp in st.props
    requires s.libraries.Some? ==> (|s.libraries.value| == |st.props[LibrariesProp].elements| &&
      forall i :: 0 <= i < |s.libraries.value| ==> st.props[LibrariesProp].elements[i] == VString(s.libraries.value[i]))
    ensures forall n :: n in BuiltFrom ==>
      Reported(s, n) == (if n in st.props then Some(st.props[n]) else None)
  {
    if s.libraries.Some? {
      var e := st.props[LibrariesProp].elements;
      assert Reported(s, LibrariesProp).value.elements == e;
    }
  }

  /** Names in the order `readProperties` reports them. */
  const PropertyOrder: seq<string> :=
    [NameProp, DescriptionProp, EnabledProp, TargetPathProp, PriorityProp, LibrariesProp, ProvidesProp]

  /** A call on the property sink: one property (its value may be null), or
      the close. */
  datatype PropertyCall = Put(name: string, value: Option<Value>) | Closed

  /** `readProperties`: the seven properties in a fixed order, then one close. */
  function ReadProperties(s: Script): (r: seq<PropertyCall>)
    ensures |r| == |PropertyOrder| + 1 && r[|PropertyOrder|] == Closed
    ensures forall i :: 0 <= i < |PropertyOrder| ==> r[i] == Put(PropertyOrder[i], Reported(s, PropertyOrder[i]))
  {
    var lib := if s.libraries.Some? then
      Some(VList(ArrayListKind, seq(|s.libraries.value|, i requires 0 <= i < |s.libraries.value| => VString(s.libraries.value[i]))))
      else None;
    [Put(NameProp, if s.name.Some? then Some(VString(s.name.value)) else None),
     Put(DescriptionProp, if s.description.Some? then Some(VString(s.description.value)) else None),
     Put(EnabledProp, if s.enabled.Some? then Some(VBool(s.enabled.value)) else None),
     Put(TargetPathProp, Some(VString(s.target))),
     Put(PriorityProp, if s.priority.Some? then Some(VInt(s.priority.value)) else None),
     Put(LibrariesProp, lib),
     Put(ProvidesProp, s.provided),
     Closed]
  }

  /** The state a client gets back by reading a script's properties: the
      non-null ones, under the script's id. */
  function ReadBack(s: Script): ScriptState
  {
    ScriptState(Some(s.id), map n | n in PropertyOrder && Reported(s, n).Some? :: Reported(s, n).value)
  }

  /** Reading a script's properties and building a script from them gives
      the same script (without the parts the builder is never given). */
  lemma ReadBackRebuilds(s: Script, current: Option<Script>, freshId: string)
    ensures CreateScript(ReadBack(s), current, freshId) == Ok(s.(provided := None, buffer := None))
  {
    ReadBackAcceptable(s);
    var c := CreateScript(ReadBack(s), current, freshId).value;
    var s' := s.(provided := None, buffer := None);
    forall n | n in BuiltFrom ensures Reported(c, n) == Reported(s', n) {
      RebuiltReports(s, current, freshId, n);
    }
    ReportedDetermines(c, s');
  }

  /** The rebuilt script reports each built-from property as the original. */
  lemma RebuiltReports(s: Script, current: Option<Script>, freshId: string, n: string)
    requires n in BuiltFrom
    ensures CreateScript(ReadBack(s), current, freshId).Ok?
    ensures Reported(CreateScript(ReadBack(s), current, freshId).value, n) == Reported(s.(provided := None, buffer := None), n)
  {
    ReadBackProps(s);
    ReadBackAcceptable(s);
    assert n != ProvidesProp;
    assert Reported(s.(provided := None, buffer := None), n) == Reported(s, n);
  }

  /** The read-back state holds exactly the reported non-null values. */
  lemma ReadBackProps(s: Script)
    ensures forall n :: n in BuiltFrom ==>
      (if n in ReadBack(s).props then Some(ReadBack(s).props[n]) else None) == Reported(s, n)
  {
    var st := ReadBack(s);
    forall n | n in BuiltFrom
      ensures (if n in st.props then Some(st.props[n]) else None) == Reported(s, n)
    {
      assert n in PropertyOrder;
    }
  }

  /** What a script reports passes every check of `createScript`. */
  lemma ReadBackAcceptable(s: Script)
    ensures Acceptable(ReadBack(s))
  {
    var st := ReadBack(s);
    assert TargetPathProp in PropertyOrder;
    assert st.props[TargetPathProp] == VString(s.target);
    if s.libraries.Some? {
      assert LibrariesProp in PropertyOrder;
      assert st.props[LibrariesProp] == Reported(s, LibrariesProp).value;
    }
  }

  /** Two scripts that report the same built-from properties and agree on
      the rest are the same script. */
  lemma ReportedDetermines(a: Script, b: Script)
    requires forall n :: n in BuiltFrom ==> Reported(a, n) == Reported(b, n)
    requires a.id == b.id && a.provided == b.provided && a.buffer == b.buffer
    ensures a == b
  {
    assert Reported(a, TargetPathProp) == Reported(b, TargetPathProp);
    assert Reported(a, NameProp) == Reported(b, NameProp);
    assert Reported(a, DescriptionProp) == Reported(b, DescriptionProp);
    assert Reported(a, EnabledProp) == Reported(b, EnabledProp);
    assert Reported(a, PriorityProp) == Reported(b, PriorityProp);
    assert Reported(a, LibrariesProp) == Reported(b, LibrariesProp);
    if a.libraries.Some? {
      var x, y := a.libraries.value, b.libraries.value;
      assert |x| == |Reported(a, LibrariesProp).value.elements| == |y|;
      forall i | 0 <= i < |x| ensures x[i] == y[i] {
        assert Reported(a, LibrariesProp).value.elements[i] == VString(x[i]);
        assert Reported(b, LibrariesProp).value.elements[i] == VString(y[i]);
      }
      assert x == y;
    }
  }

  // ---------------------------------------------------------------------
  // The resource's callbacks
  // ---------------------------------------------------------------------

  /** The resources a script resource answers about: itself and its script
      file member. */
  datatype ScriptResource = ScriptItself | ScriptFile

  /** The outcome of `updateProperties`: the script afterwards, whether the
      parent was told of the new child, and the single responder call. */
  datatype ScriptUpdate = ScriptUpdate(script: Option<Script>, childUpdated: bool, response: Callback<ScriptResource>)

  /** `updateProperties(state)`. A different non-null id is refused. Otherwise
      the script is rebuilt from the state, the parent is told, and the
      update is answered; a property error is an invalid request (its
      message given by `messageOf`), and `childError`, the message of an
      exception from the parent, an internal error. */
  function UpdateProperties(current: Option<Script>, st: ScriptState, freshId: string,
                            childError: Option<string>, messageOf: PropertyError -> string): (r: ScriptUpdate)
    ensures current.Some? && st.id.Some? && st.id.value != current.value.id ==>
      r == ScriptUpdate(current, false, OnInvalidRequestMessage(IdChangeMessage))
    ensures r.script != current ==> r.script.Some? && r.childUpdated && CreateScript(st, current, freshId) == Ok(r.script.value)
    ensures r.response == OnResourceUpdated(ScriptItself) <==> r.childUpdated && childError.None?
    ensures r.response.OnInvalidRequestMessage? <==> !r.childUpdated
    // an id that is kept or not given: the built script, or the property error's message
    ensures !(current.Some? && st.id.Some? && st.id.value != current.value.id) ==>
      match CreateScript(st, current, freshId)
      case Err(pe) => r == ScriptUpdate(current, false, OnInvalidRequestMessage(messageOf(pe)))
      case Ok(built) =>
        r.script == Some(built) && r.childUpdated &&
        r.response == (if childError.None? then OnResourceUpdated(ScriptItself) else OnInternalErrorMessage(childError.value))
  {
    if current.Some? && st.id.Some? && st.id.value != current.value.id then
      ScriptUpdate(current, false, OnInvalidRequestMessage(IdChangeMessage))
    else
      match CreateScript(st, current, freshId)
      case Err(pe) => ScriptUpdate(current, false, OnInvalidRequestMessage(messageOf(pe)))
      case Ok(s) =>
        match childError
        case None => ScriptUpdate(Some(s), true, OnResourceUpdated(ScriptItself))
        case Some(m) => ScriptUpdate(Some(s), true, OnInternalErrorMessage(m))
  }

  /** An update never changes the id of an existing script, and an accepted
      one makes the script report exactly the properties it was given. */
  lemma UpdateKeepsId(current: Script, st: ScriptState, freshId: string,
                      childError: Option<string>, messageOf: PropertyError -> string)
    ensures UpdateProperties(Some(current), st, freshId, childError, messageOf).script.Some?
    ensures UpdateProperties(Some(current), st, freshId, childError, messageOf).script.value.id == current.id
    ensures UpdateProperties(Some(current), st, freshId, childError, messageOf).childUpdated ==>
      forall n :: n in BuiltFrom ==>
        Reported(UpdateProperties(Some(current), st, freshId, childError, messageOf).script.value, n) ==
        (if n in st.props then Some(st.props[n]) else None)
  {
  }

  /** `createMember(state)`: only a lazy state (`upload` holds its bytes)
      is taken as the script's source. The buffer is set, then the parent
      writes the source file: when that raises (`writeError`, its message)
      the exception leaves the method unanswered (`Err`), with the buffer
      already set; otherwise the script file is answered as created.
      Anything else is an invalid request and leaves the script as it is. */
  function CreateMember(s: Script, upload: Option<seq<State.Byte>>, writeError: Option<string>)
    : (r: (Script, Result<Callback<ScriptResource>, string>))
    ensures upload.Some? ==> r.0 == s.(buffer := upload)
    ensures upload.Some? && writeError.None? ==> r.1 == Ok(OnResourceCreated(ScriptFile))
    ensures upload.Some? && writeError.Some? ==> r.1 == Err(writeError.value)
    ensures upload.None? ==> r == (s, Ok(OnInvalidRequestMessage(NotBinaryMessage)))
  {
    match upload
    case Some(b) =>
      var s' := s.(buffer := Some(b));
      (s', match writeError case None => Ok(OnResourceCreated(ScriptFile)) case Some(m) => Err(m))
    case None => (s, Ok(OnInvalidRequestMessage(NotBinaryMessage)))
  }

  /** `readMembers`: the script file when the script has a buffer, then the
      close. */
  function ReadMembers(s: Script): (r: seq<SinkCall<ScriptResource>>)
    ensures 1 <= |r| <= 2 && r[|r| - 1] == CloseSink
    ensures Accept(ScriptFile) in r <==> s.buffer.Some?
  {
    if s.buffer.Some? then [Accept(ScriptFile), CloseSink] else [CloseSink]
  }

  /** `readMember(id)`: the script file under its id (`fileId`) while the
      script has a buffer; no such resource otherwise. */
  function ReadMember(s: Script, fileId: string, id: string): (r: Callback<ScriptResource>)
    ensures r == OnResourceRead(ScriptFile) <==> id == fileId && s.buffer.Some?
    ensures r != OnResourceRead(ScriptFile) ==> r == OnNoSuchResource(id)
  {
    if id == fileId && s.buffer.Some? then OnResourceRead(ScriptFile) else OnNoSuchResource(id)
  }

  /** After an upload the script file is listed and can be read, even when
      writing the source file failed; a refused upload changes neither. */
  lemma UploadedFileIsListed(s: Script, fileId: string, upload: Option<seq<State.Byte>>, writeError: Option<string>)
    ensures upload.Some? ==>
      ReadMembers(CreateMember(s, upload, writeError).0) == [Accept(ScriptFile), CloseSink] &&
      ReadMember(CreateMember(s, upload, writeError).0, fileId, fileId) == OnResourceRead(ScriptFile)
    ensures upload.None? ==>
      ReadMembers(CreateMember(s, upload, writeError).0) == ReadMembers(s) &&
      ReadMember(CreateMember(s, upload, writeError).0, fileId, fileId) == ReadMember(s, fileId, fileId)
  {
  }
}

=== FILE: state.dfy ===
/** `DefaultResourceState`: a resource's state held as one JSON object. The
    id is the "id" field, the URI is "self"."href", and members are kept in
    the "_members" array. `DefaultBinaryResourceState` adds a byte buffer. */
module State {
  import opened Wrappers
  import opened JavaInt
  import opened Json

  type Byte = b: int | 0 <= b < 256

  /** Exceptions raised by state accessors. */
  datatype StateError = NullPointer | ClassCast

  const IdField: string := "id"
  const SelfField: string := "self"
  const HrefField: string := "href"
  const MembersField: string := "_members"
  const OctetStream: string := "application/octet-stream"

  /** A state: the fields of its object node and, for a binary state, the
      buffer it was built with (null for the no-argument constructor). */
  datatype ResourceState =
    | Plain(fields: Fields)
    | Binary(fields: Fields, buffer: Option<seq<Byte>>)
  {
    predicate Valid() {
      UniqueKeys(fields)
    }
  }

  /** `new DefaultResourceState()`. */
  function Empty(): (r: ResourceState)
    ensures r.Valid() && r.fields == []
  {
    Plain([])
  }

  /** `new DefaultBinaryResourceState(buffer)`: an empty object plus the buffer. */
  function NewBinary(buffer: Option<seq<Byte>>): (r: ResourceState)
    ensures r.Valid() && r.fields == [] && GetBuffer(r) == buffer
  {
    Binary([], buffer)
  }

  /** `getBuffer()`. */
  function GetBuffer(s: ResourceState): (r: Option<seq<Byte>>)
    ensures s.Binary? ==> r == s.buffer
    ensures s.Plain? ==> r.None?
  {
    if s.Binary? then s.buffer else None
  }

  /** `getMimeType()` of a binary state: always octet-stream. */
  function MimeType(s: ResourceState): (r: string)
    requires s.Binary?
    ensures r == OctetStream
  {
    OctetStream
  }

  function WithFields(s: ResourceState, f: Fields): (r: ResourceState)
    ensures r.fields == f && r.Binary? == s.Binary? && GetBuffer(r) == GetBuffer(s)
  {
    s.(fields := f)
  }

  /** `id()`: the text of the "id" field; without one, `asText` is called on
      null. */
  function Id(s: ResourceState): (r: Result<string, StateError>)
    ensures r.Err? <==> Get(s.fields, IdField).None?
    ensures r.Err? ==> r.error == NullPointer
    ensures r.Ok? ==> r.value == AsText(Get(s.fields, IdField).value)
  {
    match Get(s.fields, IdField)
    case None => Err(NullPointer)
    case Some(v) => Ok(AsText(v))
  }

  /** `id(id)`: stores the id as a text field. */
  function SetId(s: ResourceState, id: string): (r: ResourceState)
    requires s.Valid()
    ensures r.Valid() && r.Binary? == s.Binary? && GetBuffer(r) == GetBuffer(s)
    ensures Get(r.fields, IdField) == Some(JText(id))
    ensures forall k :: k != IdField ==> Get(r.fields, k) == Get(s.fields, k)
  {
    WithFields(s, Put(s.fields, IdField, JText(id)))
  }

  /** After `id(x)`, `id()` is `x`. */
  lemma IdAfterSetId(s: ResourceState, id: string)
    requires s.Valid()
    ensures Id(SetId(s, id)) == Ok(id)
  {
  }

  /** `uri()`: the text of "self"."href" when it parses as a URI, or null
      when "self" is missing, is not an object, has no "href", or the text
      is not URI syntax. `isUri` stands for `new URI(text)` succeeding. */
  function Uri(s: ResourceState, isUri: string -> bool): (r: Option<string>)
    ensures r.Some? <==>
      Get(s.fields, SelfField).Some? && Get(s.fields, SelfField).value.JObject? &&
      Get(Get(s.fields, SelfField).value.fields, HrefField).Some? &&
      isUri(AsText(Get(Get(s.fields, SelfField).value.fields, HrefField).value))
    ensures r.Some? ==> r.value == AsText(Get(Get(s.fields, SelfField).value.fields, HrefField).value)
  {
    match Get(s.fields, SelfField)
    case Some(JObject(self)) =>
      (match Get(self, HrefField)
       case Some(h) => if isUri(AsText(h)) then Some(AsText(h)) else None
       case None => None)
    case _ => None
  }

  /** `uri(u)`: sets "href" inside an existing "self" object. When "self" is
      missing the new object is created but never attached, and a non-object
      "self" is left alone, so in both cases nothing changes. */
  function SetUri(s: ResourceState, u: string): (r: ResourceState)
    requires s.Valid()
    ensures r.Valid() && r.Binary? == s.Binary? && GetBuffer(r) == GetBuffer(s)
    ensures r != s ==> Get(s.fields, SelfField).Some? && Get(s.fields, SelfField).value.JObject?
    ensures forall k :: k != SelfField ==> Get(r.fields, k) == Get(s.fields, k)
  {
    match Get(s.fields, SelfField)
    case Some(JObject(self)) =>
      if UniqueKeys(self) then WithFields(s, Put(s.fields, SelfField, JObject(Put(self, HrefField, JText(u)))))
      else s
    case _ => s
  }

  /** Setting the URI on a state with a "self" object makes `uri()` return
      it (the text of a `URI` always parses again); on a state without "self"
      it stays null. */
  lemma UriAfterSetUri(s: ResourceState, u: string, isUri: string -> bool)
    requires s.Valid()
    ensures (Get(s.fields, SelfField).Some? && Get(s.fields, SelfField).value.JObject? &&
             UniqueKeys(Get(s.fields, SelfField).value.fields)) ==>
            Uri(SetUri(s, u), isUri) == (if isUri(u) then Some(u) else None)
    ensures Get(s.fields, SelfField).None? ==> Uri(SetUri(s, u), isUri).None?
  {
  }

  /** `getProperty(n)`. */
  function GetProperty(s: ResourceState, name: string): (r: Option<Json>)
    ensures r.Some? <==> name in Names(s.fields)
    ensures s.Valid() ==> forall i :: 0 <= i < |s.fields| && s.fields[i].0 == name ==> r == Some(s.fields[i].1)
  {
    if s.Valid() then
      GetByUniqueIndex(s.fields, name);
      Get(s.fields, name)
    else Get(s.fields, name)
  }

  /** `removeProperty(n)`: the state without `n`, and the value it had. */
  function RemoveProperty(s: ResourceState, name: string): (r: (ResourceState, Option<Json>))
    requires s.Valid()
    ensures r.0.Valid() && r.1 == GetProperty(s, name) && GetProperty(r.0, name).None?
    ensures forall k :: k != name ==> GetProperty(r.0, k) == GetProperty(s, k)
  {
    var (f, prev) := Remove(s.fields, name);
    (WithFields(s, f), prev)
  }

  /** The Java value passed to `putProperty`. Fractions carry their exact
      value and printed form; `Other` is any class not listed, including null. */
  datatype PropValue =
    | PState(state: ResourceState)
    | PBigDecimal(num: int, den: Positive, printed: string)
    | PLong(n: int)
    | PFloat(num: int, den: Positive, printed: string)
    | PDouble(num: int, den: Positive, printed: string)
    | PShort(n: int)
    | PInteger(n: int)
    | PString(s: string)
    | PBoolean(b: bool)
    | PNull
    | POther

  /** The node `putProperty` stores for a value, or null when it ignores it. */
  function NodeOf(v: PropValue): (r: Option<Json>)
    ensures r.None? <==> v.PNull? || v.POther?
    ensures v.PState? ==> r == Some(JObject(v.state.fields))
    ensures v.PString? ==> r == Some(JText(v.s))
  {
    match v
    case PState(st) => Some(JObject(st.fields))
    case PBigDecimal(n, d, p) => Some(JFraction(DecimalNode, n, d, p))
    case PLong(n) => Some(JIntegral(LongNode, n))
    case PFloat(n, d, p) => Some(JFraction(FloatNode, n, d, p))
    case PDouble(n, d, p) => Some(JFraction(DoubleNode, n, d, p))
    case PShort(n) => Some(JIntegral(ShortNode, n))
    case PInteger(n) => Some(JIntegral(IntNode, n))
    case PString(s) => Some(JText(s))
    case PBoolean(b) => Some(JBool(b))
    case PNull => None
    case POther => None
  }

  /** `putProperty(n, v)`: stores a supported value under `n`; null and
      unsupported values leave the state as it was. */
  function PutProperty(s: ResourceState, name: string, v: PropValue): (r: ResourceState)
    requires s.Valid()
    ensures r.Valid() && r.Binary? == s.Binary? && GetBuffer(r) == GetBuffer(s)
    ensures NodeOf(v).None? ==> r == s
    ensures NodeOf(v).Some? ==> GetProperty(r, name) == NodeOf(v)
    ensures forall k :: k != name ==> GetProperty(r, k) == GetProperty(s, k)
  {
    match NodeOf(v)
    case None => s
    case Some(node) => WithFields(s, Put(s.fields, name, node))
  }

  /** Reading back a stored property gives the stored node; removing it
      returns that node and leaves the name absent. */
  lemma PutGetRemove(s: ResourceState, name: string, v: PropValue)
    requires s.Valid() && NodeOf(v).Some?
    ensures var r := PutProperty(s, name, v);
      GetProperty(r, name) == NodeOf(v) &&
      RemoveProperty(r, name).1 == NodeOf(v) &&
      GetProperty(RemoveProperty(r, name).0, name).None?
  {
  }

  /** `addMember(m)`: appends the member's object to "_members", creating
      the array first; a "_members" field that is not an array fails the
      cast. */
  function AddMember(s: ResourceState, m: ResourceState): (r: Result<ResourceState, StateError>)
    requires s.Valid()
    ensures r.Err? <==> Get(s.fields, MembersField).Some? && !Get(s.fields, MembersField).value.JArray?
    ensures r.Err? ==> r.error == ClassCast
    ensures r.Ok? ==> r.value.Valid() && r.value.Binary? == s.Binary? && GetBuffer(r.value) == GetBuffer(s)
    ensures r.Ok? ==> forall k :: k != MembersField ==> GetProperty(r.value, k) == GetProperty(s, k)
  {
    match Get(s.fields, MembersField)
    case None => Ok(WithFields(s, Put(s.fields, MembersField, JArray([JObject(m.fields)]))))
    case Some(JArray(items)) => Ok(WithFields(s, Put(s.fields, MembersField, JArray(items + [JObject(m.fields)]))))
    case Some(_) => Err(ClassCast)
  }

  /** `members()`: a state per element of "_members", in order; none when the
      field is missing or not an array. An element that is not an object
      fails the cast. */
  function Members(s: ResourceState): (r: Result<seq<ResourceState>, StateError>)
    ensures (Get(s.fields, MembersField).None? || !Get(s.fields, MembersField).value.JArray?) ==> r == Ok([])
    ensures r.Ok? && Get(s.fields, MembersField).Some? && Get(s.fields, MembersField).value.JArray? ==>
      var items := Get(s.fields, MembersField).value.items;
      |r.value| == |items| && forall i :: 0 <= i < |items| ==> items[i] == JObject(r.value[i].fields) && r.value[i].Plain?
    ensures r.Err? ==> r.error == ClassCast
  {
    match Get(s.fields, MembersField)
    case Some(JArray(items)) => StatesOf(items)
    case _ => Ok([])
  }

  /** Each element cast to an object node and wrapped in a plain state. */
  function StatesOf(items: seq<Json>): (r: Result<seq<ResourceState>, StateError>)
    ensures r.Ok? <==> forall i :: 0 <= i < |items| ==> items[i].JObject?
    ensures r.Ok? ==> (|r.value| == |items| &&
      forall i :: 0 <= i < |items| ==> items[i] == JObject(r.value[i].fields) && r.value[i].Plain?)
    ensures r.Err? ==> r.error == ClassCast
  {
    if |items| == 0 then Ok([])
    else match items[0]
      case JObject(f) =>
        (match StatesOf(items[1..])
         case Ok(rest) => Ok([Plain(f)] + rest)
         case Err(e) => Err(e))
      case _ => Err(ClassCast)
  }

  /** Members come back in the order they were added, after the ones
      already there. */
  lemma {:induction false} AddMemberAppends(s: ResourceState, m: ResourceState)
    requires s.Valid() && Members(s).Ok? && AddMember(s, m).Ok?
    ensures Members(AddMember(s, m).value) == Ok(Members(s).value + [Plain(m.fields)])
  {
    var r := AddMember(s, m).value;
    match Get(s.fields, MembersField)
    case None =>
      assert Get(r.fields, MembersField) == Some(JArray([JObject(m.fields)]));
      assert Members(s) == Ok([]);
      StatesOfAppend([], JObject(m.fields));
    case Some(JArray(items)) =>
      assert Get(r.fields, MembersField) == Some(JArray(items + [JObject(m.fields)]));
      StatesOfAppend(items, JObject(m.fields));
  }

  lemma {:induction false} StatesOfAppend(items: seq<Json>, x: Json)
    requires StatesOf(items).Ok? && x.JObject?
    ensures StatesOf(items + [x]) == Ok(StatesOf(items).value + [Plain(x.fields)])
    decreases |items|
  {
    if |items| == 0 {
      var p := Plain(x.fields);
      var none: seq<ResourceState> := [];
      assert items + [x] == [x];
      assert [x][1..] == [];
      assert StatesOf(items).value == none;
      assert StatesOf([x]) == Ok([p] + none);
      assert [p] + none == [p] == none + [p];
    } else {
      assert (items + [x])[1..] == items[1..] + [x];
      assert (items + [x])[0] == items[0];
      StatesOfAppend(items[1..], x);
      var head := Plain(items[0].fields);
      var tail := StatesOf(items[1..]).value;
      assert StatesOf(items) == Ok([head] + tail);
      assert StatesOf(items + [x]) == Ok([head] + (tail + [Plain(x.fields)]));
      assert [head] + (tail + [Plain(x.fields)]) == ([head] + tail) + [Plain(x.fields)];
    }
  }

  /** `equals`: both states are of the same class (plain or binary) and
      their object nodes are structurally equal, ignoring field order. */
  function StateEquals(a: ResourceState, b: ResourceState): (r: bool)
    ensures a.Binary? != b.Binary? ==> !r
    ensures r ==> SameNames(a.fields, b.fields)
  {
    a.Binary? == b.Binary? && Equal(JObject(a.fields), JObject(b.fields))
  }

  /** A state equals itself (the `this == o` test in `equals`). */
  lemma StateEqualsReflexive(a: ResourceState)
    requires a.Valid() && forall i :: 0 <= i < |a.fields| ==> WellFormed(a.fields[i].1)
    ensures StateEquals(a, a)
  {
    EqualReflexive(JObject(a.fields));
  }

  /** A binary state never equals a plain one, whatever their fields. */
  lemma PlainNeverEqualsBinary(fields: seq<(string, Json)>, buffer: Option<seq<Byte>>)
    ensures !StateEquals(Plain(fields), Binary(fields, buffer))
    ensures !StateEquals(Binary(fields, buffer), Plain(fields))
  {
  }

  /** Two states of the same class that set the same properties to the same
      values, in whatever order, are equal. */
  lemma EqualsIgnoresInsertionOrder(a: ResourceState, b: ResourceState)
    requires a.Valid() && b.Valid() && a.Binary? == b.Binary?
    requires multiset(a.fields) == multiset(b.fields)
    requires forall i :: 0 <= i < |a.fields| ==> WellFormed(a.fields[i].1)
    ensures StateEquals(a, b)
  {
    FieldOrderIrrelevant(a.fields, b.fields);
  }
}

=== FILE: traversal.dfy ===
/** Traversal steps and the resource-request processor. A step acts on the
    resource the traversal has reached; the traversal plan, its responders
    and the dispatcher are outside this model and appear as the effects a step
    asks of them. */
module Traversal {
  import opened Wrappers
  import opened Pipeline
  import opened Responder

  /** `TraversalPlan.Step` implementations. */
  datatype Step = ReadStep(name: string) | CreateStep | UpdateStep | DeleteStep

  /** What a step asks for when executed against the current resource. */
  datatype Action =
    | CallReadMember(name: string)   // `resource.readMember(ctx, name, responder)`
    | CallDelete                     // `resource.delete(ctx, responder)`
    | DispatchUpdate                 // `dispatcher.update(ctx, resource, responder)`
    | DispatchCreate                 // `dispatcher.create(ctx, resource, responder)`

  /** `execute(context, resource)`. A delete also proceeds with the request's
      pipeline, using `output` — the responder output once `delete` returned. */
  function Execute<V>(step: Step, output: seq<V>): (r: (Action, Option<Continuation<V>>))
    ensures step.ReadStep? ==> r == (CallReadMember(step.name), None)
    ensures step.CreateStep? ==> r == (DispatchCreate, None)
    ensures step.UpdateStep? ==> r == (DispatchUpdate, None)
    // a delete proceeds exactly once, with the first output or null; it never suspends
    ensures step.DeleteStep? ==> r.0 == CallDelete && r.1.Some? && r.1.value.ProceedWith?
    ensures step.DeleteStep? ==> r.1.value.input == FirstOrNull(output)
    // only a delete touches the pipeline
    ensures r.1.Some? <==> step.DeleteStep?
  {
    match step
    case ReadStep(n) => (CallReadMember(n), None)
    case CreateStep => (DispatchCreate, None)
    case UpdateStep => (DispatchUpdate, None)
    case DeleteStep => (CallDelete, Some(ProceedWith(FirstOrNull(output))))
  }

  /** `ReadStep.name()` returns the constructor argument. */
  lemma ReadStepName(n: string)
    ensures ReadStep(n).name == n && Execute<int>(ReadStep(n), []).0 == CallReadMember(n)
  {
  }

  const ReadStepPrefix: string := "[ReadStep: name="

  /** `ReadStep.toString()`. */
  function Describe(name: string): (r: string)
    ensures |r| == |ReadStepPrefix| + |name| + 1
    ensures r[..|ReadStepPrefix|] == ReadStepPrefix && r[|r| - 1] == ']'
    ensures r[|ReadStepPrefix|..|r| - 1] == name
  {
    ReadStepPrefix + name + "]"
  }

  /** Recovers the name from a description. */
  function NameOfDescription(s: string): (r: Option<string>)
    ensures r.Some? ==> Describe(r.value) == s
  {
    if |s| >= |ReadStepPrefix| + 1 && s[..|ReadStepPrefix|] == ReadStepPrefix && s[|s| - 1] == ']' then
      var n := s[|ReadStepPrefix|..|s| - 1];
      assert s == s[..|ReadStepPrefix|] + n + [s[|s| - 1]];
      Some(n)
    else None
  }

  /** The description names the step: it can be read back, so different names
      give different descriptions. */
  lemma DescribeRoundTrip(name: string)
    ensures NameOfDescription(Describe(name)) == Some(name)
  {
  }

  // ---------------------------------------------------------------------
  // The update-miss rewrite
  // ---------------------------------------------------------------------

  /** The part of a traversal an update responder can change: the plan, the
      position of the update step in it, the id of the request's state, the
      shared output, and whether the next step was re-run. */
  datatype UpdateContext<Q, R> = UpdateContext(
    plan: seq<Step>,
    pos: nat,
    stateId: Option<string>,
    out: seq<Response<Q, R>>,
    rerunOn: Option<R>)

  /** The responder `UpdateStep.createResponder` wraps around the traversing
      one: `noSuchResource(id)` sets the request state's id, puts a fresh
      CreateStep in place of this UpdateStep and runs the next step on the
      current resource; every other callback is passed through. */
  function UpdateRespond<Q, R>(c: UpdateContext<Q, R>, responder: BaseResponder<Q>, current: R, cb: Callback<R>): (r: UpdateContext<Q, R>)
    requires c.pos < |c.plan| && c.plan[c.pos] == UpdateStep
    ensures |r.plan| == |c.plan| && r.pos == c.pos
    ensures cb.OnNoSuchResource? ==>
      && r.stateId == Some(cb.id)
      && r.plan[r.pos] == CreateStep
      && (forall i :: 0 <= i < |c.plan| && i != c.pos ==> r.plan[i] == c.plan[i])
      && r.out == c.out
      && r.rerunOn == Some(current)
    ensures !cb.OnNoSuchResource? ==>
      r == c.(out := Callback1(responder, c.out, cb))
  {
    match cb
    case OnNoSuchResource(id) =>
      c.(stateId := Some(id), plan := c.plan[c.pos := CreateStep], rerunOn := Some(current))
    case _ =>
      c.(out := Callback1(responder, c.out, cb))
  }

  /** An update that misses becomes a create on the same resource and
      produces no NO_SUCH_RESOURCE response: running the rewritten step
      dispatches a create, and the output is what it was. */
  lemma UpdateMissBecomesCreate<Q, R>(c: UpdateContext<Q, R>, responder: BaseResponder<Q>, current: R, id: string)
    requires c.pos < |c.plan| && c.plan[c.pos] == UpdateStep
    ensures var r := UpdateRespond(c, responder, current, OnNoSuchResource(id));
      && Execute<R>(r.plan[r.pos], []).0 == DispatchCreate
      && Execute<R>(c.plan[c.pos], []).0 == DispatchUpdate
      && r.out == c.out
      && (forall k :: 0 <= k < |r.out| ==> r.out[k] == c.out[k])
  {
  }

  /** `CreateStep` keeps no state: the instance the rewrite inserts acts
      exactly like any other. */
  lemma CreateStepStateless<V>(output: seq<V>, output': seq<V>)
    ensures Execute(CreateStep, output) == (DispatchCreate, None)
    ensures Execute(CreateStep, output) == Execute(CreateStep, output')
  {
  }

  // ---------------------------------------------------------------------
  // ResourceRequestProcessor
  // ---------------------------------------------------------------------

  /** `ResourceRequestProcessor.process(request)`. `output` is what the
      traversal, started with `resourceRead(globalContext)` on a fresh list,
      has written once it returns. */
  function ProcessResourceRequest<Q, V>(request: Option<Q>, output: seq<V>): (r: Continuation<V>)
    ensures request.None? ==> r == ProceedWith(None)
    ensures request.Some? ==> (r == Suspend <==> |output| == 0)
    ensures request.Some? && |output| > 0 ==> r == ProceedWith(Some(output[0]))
  {
    if request.None? then ProceedWith(None)
    else if |output| == 0 then Suspend
    else ProceedWith(Some(output[0]))
  }

  /** With output present, the request processor and a delete step proceed
      with the same value; on empty output the processor suspends (the work
      was dispatched) while the delete step proceeds with null. */
  lemma DeleteVersusRequestProcessor<Q, V>(q: Q, output: seq<V>)
    ensures |output| > 0 ==> Execute(DeleteStep, output).1 == Some(ProcessResourceRequest(Some(q), output))
    ensures |output| == 0 ==>
      ProcessResourceRequest(Some(q), output) == Suspend &&
      Execute(DeleteStep, output).1 == Some(ProceedWith(None))
  {
  }
}

=== FILE: wrappers.dfy ===
/** Failure-compatible wrappers standing in for Java's nullable references and
    thrown exceptions. */
module Wrappers {

  /** A Java reference that may be null. */
  datatype Option<+T> = None | Some(value: T) {
    predicate IsFailure() {
      None?
    }

    function PropagateFailure<U>(): Option<U>
      requires None?
    {
      None
    }

    function Extract(): T
      requires Some?
    {
      value
    }

    function GetOr(default: T): T {
      match this
      case Some(v) => v
      case None => default
    }
  }

  /** A computation that either returns a value or throws an exception `E`. */
  datatype Result<+R, +E> = Ok(value: R) | Err(error: E) {
    predicate IsFailure() {
      Err?
    }

    function PropagateFailure<U>(): Result<U, E>
      requires Err?
    {
      Err(error)
    }

    function Extract(): R
      requires Ok?
    {
      value
    }
  }

  /** The first element of a list, or null when it is empty
      (`output.isEmpty() ? null : output.get(0)`). */
  function FirstOrNull<T>(s: seq<T>): (r: Option<T>)
    ensures r.None? <==> |s| == 0
    ensures r.Some? ==> |s| > 0 && r.value == s[0]
  {
    if |s| == 0 then None else Some(s[0])
  }
}
